=== FILE: README.md ===
# exa-cli core in Dafny

A model of the decision logic of `exa`, the command-line client for the Exa search API.
The model covers:

- how each subcommand (`search`, `contents`, `similar`, `answer`, `context`, `usage`) turns its arguments and flags into an API request record;
- how request records go on the wire under Go's `omitempty` rule;
- how the HTTP client turns a response or a transport failure into a result or an error;
- how the `answer` event stream is decoded;
- how responses are printed as a table, tab-separated lines or JSON, with `--fields` projection and `--jq` filtering;
- how errors are classified into the five structured error codes shown in `--json` mode;
- how credentials and the base URL are resolved.

Byte strings are `string`, one char per byte, so lengths and truncation are byte-based as in Go. JSON documents are the `Json` datatype, with objects as maps.

Side effects become parameters:

- the process environment;
- the outcome of reading the credential file and the schema file;
- what the transport returned for a request: the status and body, or the pre-split lines of the event stream;
- the JSON decoders for response bodies, stream chunks and cost documents;
- the jq library;
- `%.2f` / `%.4f` float formatting;
- today's date.

Modules, in dependency order:

| file | module | models |
|---|---|---|
| wrappers.dfy | Wrappers | `Option` and `Result` |
| strings.dfy | GoStrings | `strings.HasPrefix/HasSuffix/Contains/Split/Join/TrimSpace`, `%d` |
| json.dfy | JsonValue | JSON values; `omitempty` encoding of struct fields |
| fields.dfy | Fields | `--fields` projection (pkg/output/fields.go) |
| types.dfy | ApiTypes | request and response records and their wire form (pkg/api/types.go) |
| client.dfy | Client | truncation, URL join, status check, error wrapping (pkg/api/client.go) |
| stream.dfy | AnswerStream | the event-stream loop of `AnswerStream` (pkg/api/client.go) |
| output.dfy | Output | mode dispatch, JSON/jq output, plaintext, colour decision (pkg/output/output.go, jq.go) |
| errors.dfy | Errors | error classification and rendering (pkg/output/errors.go) |
| auth.dfy | Auth | API key and base URL resolution (pkg/auth/auth.go) |
| error_sources.dfy | ErrorSources | how the client's and auth's error texts are classified |
| cmd_search.dfy … cmd_root.dfy | SearchCmd, ContentsCmd, SimilarCmd, ContextCmd, AnswerCmd, UsageCmd, RootCmd | the subcommands (cmd/*.go) |

The event-stream framing is a reduced form of the one in the WHATWG HTML Living Standard, section 9.2.6 "Interpreting an event stream":

- only lines starting with `data: ` (with the space) carry data;
- there is no multi-line accumulation;
- `[DONE]` ends the stream.

A success status is the 2xx class of section 15.3 of RFC 9110. Dates are sent as the date followed by `T00:00:00.000Z`, a midnight-UTC timestamp in the form of section 5.6 of RFC 3339.

Two behaviours of the code that are easy to miss:

- **Field selection on envelopes and bare arrays.** `FilterFields` (pkg/output/fields.go:8-56) treats the results of an object with a `results` array and the elements of a bare array alike, except on `null` entries:
  - a `null` result inside an envelope stays `null`;
  - a `null` element of a bare array becomes `{}`, because it decodes as a nil map;
  - a top-level `null` becomes `[]`.

  `Fields.EnvelopeNullDiffers` shows the difference. `Fields.EnvelopeMatchesBareArray` proves the two agree when every result is an object.
- **Whitespace-only selection.** `--fields " "` is not the empty selection. It selects the key `""` (`Fields.BlankSelectionIsNotEmpty`).

## Model

| member | source | states |
|---|---|---|
| Fields.FieldListOfPieces | pkg/output/fields.go:16-19 | a comma-joined list of comma-free pieces selects exactly the pieces trimmed of white space, so `title, url` selects `url` |
| Fields.FieldListOfNames | pkg/output/fields.go:16-19 | a comma-joined list of names that hold no comma and no outer white space selects exactly those names |
| Fields.FieldList | pkg/output/fields.go:16-19 | every selected name is free of commas and of white space at either end |
| Fields.FilterMap | pkg/output/fields.go:60-68 | the projection keeps exactly the keys present in both the record and the selection, each with its value unchanged |
| Fields.FilterMapIdempotent | pkg/output/fields.go:60-68 | projecting a projected record on the same selection changes nothing |
| Fields.FilterFields | pkg/output/fields.go:11-58 | the empty selection is the identity; a document that decodes as an array of objects gives an array of the same length whose objects hold only selected keys; an object with a `results` array gives a flat array as long as the results; another object keeps exactly its selected keys; any other value is unchanged |
| Fields.ObjectArrayProjected | pkg/output/fields.go:27-35 | the i-th element of the output is the projection of the i-th input element, a `null` element counting as an empty record |
| Fields.EnvelopeFlattened | pkg/output/fields.go:37-51 | inside a `results` envelope object results are projected and non-object results pass through unchanged, and the envelope's other keys are dropped |
| Fields.EnvelopeMatchesBareArray | pkg/output/fields.go:27-51 | when every result is an object, projecting the envelope equals projecting its bare results array |
| Fields.EnvelopeNullDiffers | pkg/output/fields.go:28-48 | a `null` result stays `null` in an envelope but becomes `{}` in a bare array |
| Fields.OtherShapesUnchanged | pkg/output/fields.go:27-57 | a value that is neither an object nor decodable as an array of objects comes back unchanged |
| Fields.PlainObjectProjected | pkg/output/fields.go:40-54 | an object without a `results` array, including one whose `results` is `null`, is projected on its own top-level keys |
| Fields.BlankSelectionIsNotEmpty | pkg/output/fields.go:12-19 | a white-space-only selection is not the identity: it empties an object lacking the key `""` |
| Fields.FilterFieldsIdempotent | pkg/output/fields.go:11-68 | selecting twice with the same list is the same as selecting once, unless an envelope held a `null` result |
| JsonValue.KeysOnWire | pkg/api/types.go:7-20 | the keys of an encoded struct are exactly the keys of its sent fields; an `omitempty` field with a zero value and a nil field are absent |
| JsonValue.UniqueKeyOnWire | pkg/api/types.go:7-20 | a field with its own key is on the wire exactly when sent, carrying its own value |
| ApiTypes.SearchResultCoreKeys | pkg/api/types.go:68-82 | title, URL, id and score of a result are always on the wire, since those fields have no `omitempty` |
| ApiTypes.SearchResponseEnvelope | pkg/api/types.go:59-65 | a search response is an object with its results, element by element, under `results` |
| ApiTypes.SearchContentsOnWire | pkg/api/types.go:6-21 | `query` is always sent; `contents` exactly when the request has a content spec |
| ApiTypes.FindSimilarUrlOnWire | pkg/api/types.go:121-131 | `url` is always sent; `contents` exactly when set |
| ApiTypes.ContextRequestOnWire | pkg/api/types.go:167-171 | a context request always carries exactly `query` and `tokensNum` |
| ApiTypes.TextSpecEncoding | pkg/api/types.go:35-38 | only the struct's tagged keys are sent: `maxCharacters`, `includeHtmlTags` exactly when not zero, empty or false, each with the field's value |
| ApiTypes.HighlightsSpecEncoding | pkg/api/types.go:41-45 | only the struct's tagged keys are sent: `numSentences`, `highlightsPerUrl`, `query` exactly when not zero, empty or false, each with the field's value |
| ApiTypes.SummarySpecEncoding | pkg/api/types.go:48-50 | only the struct's tagged keys are sent: `query` exactly when not zero, empty or false, each with the field's value |
| ApiTypes.ExtrasSpecEncoding | pkg/api/types.go:53-56 | only the struct's tagged keys are sent: `links`, `imageLinks` exactly when not zero, empty or false, each with the field's value |
| ApiTypes.ContentsSpecEncoding | pkg/api/types.go:24-32 | only the struct's tagged keys are sent: `livecrawl`, `subpages`, `subpageTarget` exactly when not zero, empty or false; `text`, `highlights`, `summary`, `extras` exactly when non-nil, each with the field's value |
| ApiTypes.ContentsSpecKeysNamed | pkg/api/types.go:24-32 | no key outside the struct tags is sent |
| ApiTypes.ContentsSpecPartsOnWire | pkg/api/types.go:25-27 | `text`, `highlights`, `summary` exactly when non-nil |
| ApiTypes.ContentsSpecCrawlOnWire | pkg/api/types.go:28-31 | `livecrawl`, `subpages`, `subpageTarget` exactly when not zero, empty or false; `extras` exactly when non-nil |
| ApiTypes.SearchRequestEncoding | pkg/api/types.go:6-21 | only the struct's tagged keys are sent: `query` always; `type`, `numResults`, `category`, `includeDomains`, `excludeDomains`, `startPublishedDate`, `endPublishedDate`, `startCrawlDate`, `endCrawlDate`, `includeText`, `excludeText` exactly when not zero, empty or false; `moderation`, `contents` exactly when non-nil, each with the field's value |
| ApiTypes.SearchRequestKeysNamed | pkg/api/types.go:6-21 | no key outside the struct tags is sent |
| ApiTypes.SearchRequestBasicsOnWire | pkg/api/types.go:7-10 | `query` always; `type`, `numResults`, `category` exactly when not zero, empty or false |
| ApiTypes.SearchRequestFiltersOnWire | pkg/api/types.go:11-18 | `includeDomains`, `excludeDomains`, `includeText`, `excludeText` exactly when not zero, empty or false |
| ApiTypes.SearchRequestDatesOnWire | pkg/api/types.go:13-16 | `startPublishedDate`, `endPublishedDate`, `startCrawlDate`, `endCrawlDate` exactly when not zero, empty or false |
| ApiTypes.SearchRequestOptionsOnWire | pkg/api/types.go:19-20 | `moderation`, `contents` exactly when non-nil |
| ApiTypes.ContentsRequestEncoding | pkg/api/types.go:104-112 | only the struct's tagged keys are sent: `ids`, `urls`, `livecrawl`, `subpages` exactly when not zero, empty or false; `text`, `highlights`, `summary` exactly when non-nil, each with the field's value |
| ApiTypes.ContentsRequestKeysNamed | pkg/api/types.go:104-112 | no key outside the struct tags is sent |
| ApiTypes.ContentsRequestTargetsOnWire | pkg/api/types.go:105-106 | `ids`, `urls` exactly when not zero, empty or false |
| ApiTypes.ContentsRequestOptionsOnWire | pkg/api/types.go:107-111 | `livecrawl`, `subpages` exactly when not zero, empty or false; `text`, `highlights`, `summary` exactly when non-nil |
| ApiTypes.FindSimilarRequestEncoding | pkg/api/types.go:121-131 | only the struct's tagged keys are sent: `url` always; `numResults`, `includeDomains`, `excludeDomains`, `startPublishedDate`, `endPublishedDate`, `excludeSourceDomain`, `category` exactly when not zero, empty or false; `contents` exactly when non-nil, each with the field's value |
| ApiTypes.FindSimilarRequestKeysNamed | pkg/api/types.go:121-131 | no key outside the struct tags is sent |
| ApiTypes.FindSimilarRequestBasicsOnWire | pkg/api/types.go:122-130 | `url` always; `numResults`, `excludeSourceDomain`, `category` exactly when not zero, empty or false; `contents` exactly when non-nil |
| ApiTypes.FindSimilarRequestFiltersOnWire | pkg/api/types.go:124-127 | `includeDomains`, `excludeDomains`, `startPublishedDate`, `endPublishedDate` exactly when not zero, empty or false |
| ApiTypes.AnswerRequestEncoding | pkg/api/types.go:142-148 | only the struct's tagged keys are sent: `query` always; `text`, `model`, `stream` exactly when not zero, empty or false; `outputSchema` exactly when non-nil, each with the field's value |
| ApiTypes.CostInfoEncoding | pkg/api/types.go:91-96 | only the struct's tagged keys are sent: `total` always; `search`, `contents`, `neural` exactly when non-nil, each with the field's value |
| ApiTypes.SubpageEncoding | pkg/api/types.go:85-88 | only the struct's tagged keys are sent: `url` always; `text` exactly when not zero, empty or false, each with the field's value |
| ApiTypes.SearchResultEncoding | pkg/api/types.go:68-82 | only the struct's tagged keys are sent: `title`, `url`, `id`, `score` always; `publishedDate`, `author`, `image`, `favicon`, `text`, `highlights`, `highlightScores`, `summary`, `subpages` exactly when not zero, empty or false, each with the field's value |
| ApiTypes.SearchResultKeysNamed | pkg/api/types.go:68-82 | no key outside the struct tags is sent |
| ApiTypes.SearchResultIdentityOnWire | pkg/api/types.go:69-74 | `title`, `url`, `id`, `score` always |
| ApiTypes.SearchResultMetadataOnWire | pkg/api/types.go:72-76 | `publishedDate`, `author`, `image`, `favicon` exactly when not zero, empty or false |
| ApiTypes.SearchResultContentOnWire | pkg/api/types.go:77-81 | `text`, `highlights`, `highlightScores`, `summary`, `subpages` exactly when not zero, empty or false |
| ApiTypes.SearchResponseEncoding | pkg/api/types.go:59-65 | only the struct's tagged keys are sent: `results` always; `requestId`, `resolvedSearchType`, `autopromptString` exactly when not zero, empty or false; `costDollars` exactly when non-nil, each with the field's value |
| ApiTypes.ContentsResponseEncoding | pkg/api/types.go:115-118 | only the struct's tagged keys are sent: `results` always; `costDollars` exactly when non-nil, each with the field's value |
| ApiTypes.FindSimilarResponseEncoding | pkg/api/types.go:134-139 | only the struct's tagged keys are sent: `results` always; `requestId`, `autopromptString` exactly when not zero, empty or false; `costDollars` exactly when non-nil, each with the field's value |
| ApiTypes.AnswerResponseEncoding | pkg/api/types.go:151-156 | only the struct's tagged keys are sent: `answer` always; `requestId`, `citations` exactly when not zero, empty or false; `costDollars` exactly when non-nil, each with the field's value |
| ApiTypes.ContextResponseEncoding | pkg/api/types.go:174-183 | only the struct's tagged keys are sent: `response` always; `requestId`, `query`, `resultsCount`, `searchTime`, `outputTokens` exactly when not zero, empty or false; `costDollars` exactly when non-nil, each with the field's value |
| ApiTypes.ContextResponseKeysNamed | pkg/api/types.go:174-183 | no key outside the struct tags is sent |
| ApiTypes.ContextResponseAnswerOnWire | pkg/api/types.go:175-178 | `response` always; `requestId`, `query` exactly when not zero, empty or false; `costDollars` exactly when non-nil |
| ApiTypes.ContextResponseStatsOnWire | pkg/api/types.go:179-181 | `resultsCount`, `searchTime`, `outputTokens` exactly when not zero, empty or false |
| ApiTypes.UsageEntryEncoding | pkg/api/types.go:216-220 | only the struct's tagged keys are sent: `date`, `requestCount`, `creditUsage` always, each with the field's value |
| Client.Truncate | pkg/api/client.go:230-235 | a short string is kept; a longer one becomes its first `max` bytes and `...`, so at most `max + 3` bytes |
| Client.TruncateIdempotent | pkg/api/client.go:230-235 | cutting a cut string again changes nothing |
| Client.TruncateAddsNoMatch | pkg/api/client.go:230-235 | cutting a string adds no occurrence of a dot-free text it lacked |
| Client.NewClient | pkg/api/client.go:26-34 | the key is kept and the base URL loses exactly its trailing slashes |
| Client.RequestUrl | pkg/api/client.go:48 | the URL is the base URL and a slash, followed by the endpoint with all its leading slashes dropped and nothing else changed |
| Client.RequestUrlShape | pkg/api/client.go:32-48 | a request URL is the trimmed base, one slash, and the endpoint without leading slashes |
| Client.RequestUrlIgnoresExtraSlashes | pkg/api/client.go:32-48 | an extra slash at the end of the base or the start of the endpoint leaves the URL unchanged |
| Client.IsSuccessStatus | pkg/api/client.go:85 | a status counts as success exactly when its hundreds digit class is 2xx |
| Client.ApiErrorMessage | pkg/api/client.go:86 | the message starts with `API error (status ` and the decimal status, ends with the body cut to 500 bytes, ends with the whole body when that is short, and is never longer than the prefix plus 503 bytes; its length is exactly the prefix's plus the cut body's, so it is nothing but the two |
| Client.DoJson | pkg/api/client.go:47-96 | transport and read failures are wrapped with `request failed: ` and `read response: `; a status outside 2xx gives `API error (status N): ` and the body cut to 500 bytes; a 2xx body that does not decode fails with `parse response: ` and the decoder's error; success exactly when 2xx and the body decodes |
| Client.UsagePath | pkg/api/client.go:222 | the usage path is the keys path, a slash, the key id and `/usage?startDate=`, then the start date verbatim, then `&endDate=` and the end date |
| Client.NoDecodeOnErrorStatus | pkg/api/client.go:85-93 | outside 2xx the decoder is never consulted |
| AnswerStream.RoleOf | pkg/api/client.go:171-178 | a line is ignored exactly when it lacks the `data: ` prefix, ends the stream exactly when it is `data: [DONE]`, and otherwise carries the rest of the line as payload |
| AnswerStream.ChunkEvents | pkg/api/client.go:186-196 | a chunk delivers its text first, when non-empty, then a final answer with its answer, citations and cost exactly when citations are present |
| AnswerStream.LineEvents | pkg/api/client.go:171-184 | a skipped line delivers nothing |
| AnswerStream.Decode | pkg/api/client.go:169-197 | at most two events per line; every text delta carries non-empty text; a leading terminator delivers nothing |
| AnswerStream.SkippedHead | pkg/api/client.go:171-184 | a leading line without the `data: ` prefix or with an undecodable payload changes nothing delivered |
| AnswerStream.DecodeStep | pkg/api/client.go:170-197 | the terminator ends decoding; any other line puts its own events before those of the lines after it |
| AnswerStream.RunDecoder | pkg/api/client.go:169-197 | the scanning loop delivers exactly the events the recursive definition gives |
| AnswerStream.AdvancePastLine | pkg/api/client.go:170-196 | consuming a line that is not the terminator appends its events and keeps the events so far plus those still to come equal to the whole stream's |
| AnswerStream.StopAtTerminator | pkg/api/client.go:175-178 | on reaching the terminator the events gathered so far are the whole stream's |
| AnswerStream.StopAtEnd | pkg/api/client.go:169-197 | when the lines run out the events gathered are the whole stream's |
| AnswerStream.SkippedLineIsInvisible | pkg/api/client.go:171-184 | removing a non-data or undecodable line changes nothing delivered |
| AnswerStream.TerminatorEndsStream | pkg/api/client.go:175-178 | nothing after the terminator is delivered |
| AnswerStream.DecodeConcat | pkg/api/client.go:169-197 | without a terminator in the first part, two runs of lines decode one after the other |
| AnswerStream.SinglePayload | pkg/api/client.go:175-196 | one decodable payload line delivers exactly its chunk's events |
| AnswerStream.StreamRequest | pkg/api/client.go:136-137 | the streamed request is the caller's request with `stream` set and nothing else changed |
| AnswerStream.AnswerStreamEvents | pkg/api/client.go:136-200 | a transport failure and a status outside 2xx give the same errors as `doJSON`; otherwise the decoded events of the lines |
| Output.EmitUntilError | pkg/output/jq.go:29-44 | values are printed in order up to the first jq error, which ends the output as `jq error: ` and its text |
| Output.RunJq | pkg/output/jq.go:12-47 | an expression jq rejects prints nothing and fails with `invalid jq expression: `; otherwise the emitted values are printed in order up to the first error, and there is an error exactly when not all were printed; that error is `jq error: ` with the text of the first failing item, which is the one right after the last printed value |
| Output.RenderJsonOutput | pkg/output/output.go:55-68 | field selection runs first; with a jq expression only jq's output is shown, otherwise the selected document is printed once |
| Output.IdentityFilterChangesNothing | pkg/output/output.go:55-68 | a jq expression that passes its input through prints what no expression prints |
| Output.RenderPlaintext | pkg/output/output.go:70-78 | a header line exactly when there are headers, then one tab-joined line per row in order |
| Output.PlaintextRowReadsBack | pkg/output/output.go:70-78 | splitting a row's line at tabs gives the row back when no cell holds a tab |
| Output.PlaintextIgnoresFooter | pkg/output/output.go:70-78 | the footer never reaches plaintext output |
| Output.ShouldColor | pkg/output/output.go:121-133 | colour exactly when neither `--no-color` nor `NO_COLOR` is set and standard output is a terminal |
| Output.RenderTable | pkg/output/output.go:39-48 | JSON mode renders the JSON output of the raw data, plaintext mode the plaintext lines of the table, table mode the given table coloured exactly when colour is allowed |
| Output.RenderTableSeparatesModes | pkg/output/output.go:39-48 | JSON mode ignores the table data; the other modes ignore the raw data |
| Output.ErrorMessage | pkg/output/output.go:136-143 | JSON mode emits the one-key object `{"error": message}`, other modes `Error: message` |
| Errors.CodeNamesDistinct | pkg/output/errors.go:28-66 | the five codes have five different names |
| Errors.ToStructuredError | pkg/output/errors.go:28-66 | the first marker found, in the order `EXA_API_KEY`, `status 401`, `status 429`, `request failed`, picks the code, else UNKNOWN; AUTH_INVALID replaces the message with `Invalid API key` and the others keep it; recoverable and a suggestion exactly when the code is not UNKNOWN |
| Errors.CliErrorJson | pkg/output/errors.go:10-16 | code, message and recoverable are always present; the suggestion only when non-empty |
| Errors.RenderError | pkg/output/errors.go:18-26 | the structured object only in JSON mode, otherwise `Error: ` and the message |
| ErrorSources.ApiErrorClassified | pkg/api/client.go:85-87 | for a marker-free body, the API error text is AUTH_INVALID for 401, RATE_LIMITED for 429 and UNKNOWN for every other status |
| ErrorSources.StatusMarker | pkg/api/client.go:86 | the API error text holds `status C` exactly when its status is C |
| ErrorSources.ApiErrorNoKeyOrNetwork | pkg/api/client.go:86 | the API error text never holds the missing-key or network marker when the body does not |
| ErrorSources.CutBodyMarkerFree | pkg/api/client.go:86 | the body cut to 500 bytes holds no marker the full body lacked |
| ErrorSources.UnauthorizedResponseIsAuthInvalid | pkg/output/errors.go:39-45 | a 401 response with a marker-free body fails and is reported as AUTH_INVALID |
| ErrorSources.TooManyRequestsIsRateLimited | pkg/output/errors.go:46-52 | a 429 response with a marker-free body fails and is reported as RATE_LIMITED |
| ErrorSources.TransportFailureIsNetworkError | pkg/api/client.go:71-74 | a transport failure is reported as NETWORK_ERROR unless its cause holds an earlier marker |
| ErrorSources.RequestFailedMarkers | pkg/api/client.go:73 | the wrapped transport error holds the network marker and no marker its cause lacks |
| ErrorSources.MissingKeyIsAuthRequired | pkg/auth/auth.go:21-24 | the missing-credential error is reported as AUTH_REQUIRED |
| ErrorSources.EmptyStoredKeyIsUnknown | pkg/auth/auth.go:25-28 | the empty-stored-key error matches no marker and is reported as UNKNOWN |
| Auth.GetApiKey | pkg/auth/auth.go:16-29 | `EXA_API_KEY` wins when set; an unreadable file gives the missing-key error; a stored non-empty key is used; an empty stored key gives `no valid authentication found`; a returned key is never empty |
| Auth.EnvKeyWins | pkg/auth/auth.go:17-19 | with the variable set the credential file plays no part |
| Auth.GetBaseUrl | pkg/auth/auth.go:32-37 | `EXA_API_URL` when set, else `https://api.exa.ai` |
| SearchCmd.ExpandDate | cmd/search.go:117-122 | an empty date stays empty; a given date is a prefix of the result, which is longer by exactly the midnight suffix |
| SearchCmd.ExpandDateInjective | cmd/search.go:117-122 | different dates are sent differently |
| SearchCmd.Livecrawl | cmd/search.go:150-157 | no livecrawl below 0, `always` at 0, `fallback` above 0, each exactly |
| SearchCmd.SearchContentsSpec | cmd/search.go:135-161 | text exactly when asked, with the given limit; highlights and summary exactly when asked; livecrawl by the cache age; subpages only when positive |
| SearchCmd.BuildSearchRequest | cmd/search.go:100-166 | the query is the arguments joined by spaces; type `auto` is omitted; dates are expanded; moderation only when on; a content spec exactly when `--no-contents` is off and some content option is asked for |
| SearchCmd.NoContentsOverridesContentFlags | cmd/search.go:134 | with `--no-contents` the content flags make no difference to the request |
| SearchCmd.QueryWordsReadBack | cmd/search.go:101 | splitting the query at spaces gives back the space-free arguments |
| SearchCmd.SearchRequestOnWire | cmd/search.go:100-166 | the query is always sent; `type` exactly when neither `auto` nor empty; `contents` exactly as the flags ask |
| SearchCmd.TruncateStr | cmd/search.go:205-210 | a short string is kept; a longer one becomes exactly `max` bytes ending in `...` after its first `max - 3` bytes |
| SearchCmd.TruncateStrIdempotent | cmd/search.go:205-210 | cutting a cut title again changes nothing |
| SearchCmd.SearchDate | cmd/search.go:184-191 | the date column is a prefix of the published date, ten bytes long when there are ten, else the whole date |
| SearchCmd.SearchDateIdempotent | cmd/search.go:184-191 | taking the column of a column changes nothing |
| SearchCmd.SearchRow | cmd/search.go:192-193 | a row is the title cut to 50, the URL, the date column and the formatted score |
| SearchCmd.SearchTable | cmd/search.go:179-200 | four headers; one row per result in order; the footer counts results and names the type, after the cost when there is one |
| SearchCmd.SearchPlaintextLines | cmd/search.go:179-202 | plaintext search output is the header line and one line per result |
| SearchCmd.SearchOutput | cmd/search.go:173-202 | JSON mode renders the raw response; other modes render the table |
| SearchCmd.TitleUrlSelection | integration_test.go:209 | `title,url` selects exactly the keys title and url |
| SearchCmd.ResultProjectedOnTitleUrl | integration_test.go:219-229 | a sent result projected on title and url keeps both values and nothing else, so no score |
| SearchCmd.SearchResponseTitleUrl | integration_test.go:207-230 | selecting `title,url` on a search response gives a flat array of one title-and-URL object per result |
| SearchCmd.SearchFieldsTitleUrl | integration_test.go:207-230 | `search --json --fields title,url` prints one flat array of title-and-URL objects, one per result, without error |
| ContentsCmd.BuildContentsRequest | cmd/contents.go:55-77 | URLs in order and no ids; text exactly when the flag is on, with its limit; highlights and summary exactly when asked; livecrawl by cache age; subpages only when positive |
| ContentsCmd.ContentsAgreesWithSearch | cmd/contents.go:59-77 | the content options equal those a search with the same flags nests under `contents` |
| ContentsCmd.ContentsRequestOnWire | cmd/contents.go:55-61 | `urls` is sent exactly when some URL is given, `text` exactly when the text flag is on, `ids` never |
| ContentsCmd.ContentsTable | cmd/contents.go:91-102 | headers TITLE and URL; one row per page with the title cut to 60; the footer counts pages, after the cost when there is one |
| ContentsCmd.PageDetails | cmd/contents.go:110-121 | a page prints nothing exactly when it has no text, summary or highlights; a page with text starts with the URL banner and the text cut to 2000 bytes |
| ContentsCmd.PageDetailsLayout | cmd/contents.go:110-121 | the text block comes first, then `\nSummary: ` and the summary, and the highlights block under `\nHighlights:\n` last; a part the page lacks is left out |
| ContentsCmd.HighlightLines | cmd/contents.go:116-121 | no highlights print nothing; one highlight prints the line `  • h`; the first line is the first highlight's and the last line the last highlight's |
| ContentsCmd.HighlightLinesConcat | cmd/contents.go:117-119 | the lines of two runs of highlights are printed one after the other, so each highlight gets its own line, in order |
| ContentsCmd.Details | cmd/contents.go:109-122 | the details are empty exactly when every page's are; a single page contributes exactly its own details |
| ContentsCmd.DetailsConcat | cmd/contents.go:109-122 | the details of two runs of pages are printed one after the other |
| ContentsCmd.ContentsOutput | cmd/contents.go:84-122 | JSON mode prints the raw response and no details; other modes the table and then the details |
| SimilarCmd.BuildSimilarRequest | cmd/similar.go:61-92 | URL, count and source exclusion copied; dates expanded; a content spec exactly when text or highlights is asked for, with text fixed at 10000 characters |
| SimilarCmd.SimilarRequestOnWire | cmd/similar.go:61-92 | the URL is always sent; `contents` exactly when text or highlights is asked for |
| SimilarCmd.SimilarDate | cmd/similar.go:110-113 | the first ten bytes of a date that has them, else nothing |
| SimilarCmd.DateColumnsDiffer | cmd/similar.go:110-113 | the similar and search date columns differ exactly on non-empty dates shorter than ten bytes |
| SimilarCmd.SimilarRow | cmd/similar.go:114 | a row is the title cut to 50, the URL, the date column and the formatted score |
| SimilarCmd.SimilarTable | cmd/similar.go:105-121 | search headers; one row per result in order; the footer counts similar pages, after the cost when there is one |
| SimilarCmd.SimilarRowMatchesSearchRow | cmd/similar.go:109-115 | for an empty or full-length date, a similar row equals the search row of the same result |
| SimilarCmd.SimilarOutput | cmd/similar.go:99-123 | JSON mode renders the raw response; other modes render the table |
| ContextCmd.BuildContextRequest | cmd/context.go:42-49 | the query is the arguments joined by spaces; a count exactly when `--tokens` is positive, and then that count |
| ContextCmd.ContextTokensOnWire | cmd/context.go:45-49 | the token budget is always on the wire: the number, or `"dynamic"` for 0 and below |
| ContextCmd.ResolveCost | pkg/api/types.go:186-208 | a cached cost is returned as is; no cost document gives none; a direct decode wins, then a decode of the string's contents, each then cached; if neither works, nothing and the cache stays empty |
| ContextCmd.ResolveCostIdempotent | pkg/api/types.go:186-208 | a second lookup returns the first one's cost and leaves the cache as it was |
| ContextCmd.CachedCostWins | pkg/api/types.go:187-189 | once cached, the decoders play no part |
| ContextCmd.ContextText | cmd/context.go:62-67 | the context and a newline go to standard output; a cost line goes to standard error exactly when there is a cost |
| ContextCmd.ContextOutput | cmd/context.go:56-67 | JSON mode renders the raw response; otherwise the context, and a cost line exactly when the cost lookup finds one |
| ContextCmd.NoCostDocumentNoCostLine | cmd/context.go:65-67 | without a cost document no cost line is printed |
| AnswerCmd.BuildAnswerRequest | cmd/answer.go:54-69 | an unreadable schema fails with `read schema file: `, an invalid one with `parse schema: `; otherwise the joined query, the text flag, and the schema exactly when one is given and is not JSON `null` (a `null` document leaves the field nil, so it is omitted from the request) |
| AnswerCmd.NullSchemaNotSent | cmd/answer.go:64-68 | a schema file holding `null` builds the same request as no schema, and its body has no `outputSchema` key |
| AnswerCmd.UseStreaming | cmd/answer.go:74 | JSON mode never streams; without `--stream` nothing streams; `--stream` in table or plaintext mode streams |
| AnswerCmd.LastDone | cmd/answer.go:80-82 | the position found holds a final answer and none follows it; -1 when there is none |
| AnswerCmd.FinalResponse | cmd/answer.go:75-82 | no response exactly when no final answer arrived; otherwise the payload of a final answer with none after it |
| AnswerCmd.FinalResponseConcat | cmd/answer.go:80-82 | a later final answer replaces an earlier one; without one, the earlier stays |
| AnswerCmd.CaptureFinal | cmd/answer.go:75-83 | the callback loop ends holding the last final answer |
| AnswerCmd.StreamedText | cmd/answer.go:77-79 | no events print no text; a single event prints its text if it is a text delta and nothing otherwise |
| AnswerCmd.StreamedTextConcat | cmd/answer.go:77-79 | the text of two runs of events is printed one after the other |
| AnswerCmd.ChunkText | pkg/api/client.go:187-194 | the events of one stream chunk print exactly the chunk's text |
| AnswerCmd.StreamedTextOfLines | pkg/api/client.go:169-197 | without a terminator, the streamed text is the text of every data line whose payload decodes, in order |
| AnswerCmd.StreamedTextBeforeTerminator | pkg/api/client.go:169-197 | with a terminator, the streamed text is the text of the decodable payloads before it; nothing after it is printed |
| AnswerCmd.CitationLines | cmd/answer.go:95-97 | one line per citation, in order, numbered from 1 |
| AnswerCmd.CitationLineReadsBack | cmd/answer.go:96 | the digits after the indent read back as the line's number, followed by `. ` |
| AnswerCmd.CitationNumberReadsBack | cmd/answer.go:95-97 | the i-th source line carries the number i + 1 |
| AnswerCmd.CostLine | cmd/answer.go:128-130 | a cost line exactly when there is a cost (the streamed path prints the same line at line 99); it starts with a newline and `Cost: $`, ends with a newline, and in between is the formatted total |
| AnswerCmd.StreamedOutput | cmd/answer.go:88-101 | the output starts with the streamed text and a newline; it is exactly that when no final answer has citations; with citations, the `Sources:` heading follows, then the numbered source lines in order, and the cost line ends it |
| AnswerCmd.PlainOutput | cmd/answer.go:117-130 | the output starts with the answer and a newline and ends with the cost line; the `Sources:` heading follows the answer exactly when there are citations, then the numbered source lines; without citations only the cost line follows |
| AnswerCmd.SourcesThenCostHolds | cmd/answer.go:119-130 | the sources block between a head and the cost line gives the heading, the numbered lines and then the cost, in that order |
| AnswerCmd.PlainLayout | cmd/answer.go:117-130 | for any cost text that is empty or starts like a cost line: the output starts with the head and ends with the cost; the sources heading follows the head exactly when there are citations, then the numbered lines |
| AnswerCmd.NoSourcesHeading | cmd/answer.go:119-130 | a cost line never begins like the sources heading, so output without citations never shows one |
| AnswerCmd.StreamedMatchesPlain | cmd/answer.go:88-130 | with citations, and text equal to the answer, streamed and plain output are the same |
| AnswerCmd.StreamedHidesCostWithoutCitations | cmd/answer.go:91-130 | without citations, streaming prints no cost line although the plain path does |
| AnswerCmd.RunAnswer | cmd/answer.go:48-133 | schema errors first; streaming exactly when `--stream` is set outside JSON mode, passing on stream errors; otherwise the plain call's error, the raw response in JSON mode, or the plain output |
| AnswerCmd.StreamWithJsonFallsThrough | cmd/answer.go:74 | `--stream --json` behaves exactly like `--json` and never opens the stream |
| UsageCmd.ResolvePeriod | cmd/usage.go:46-53 | given dates are kept; an empty end date is today and an empty start date thirty days back |
| UsageCmd.ResolvePeriodIdempotent | cmd/usage.go:46-53 | a resolved period resolves to itself, whatever the clock says |
| UsageCmd.SelectKeyId | cmd/usage.go:55-67 | `--key-id` is used as is; otherwise the first listed key, a listing failure wrapped with `list API keys: `, or `no API keys found` for an empty list |
| UsageCmd.KeyFlagSkipsListing | cmd/usage.go:56-58 | with `--key-id` the listing plays no part |
| UsageCmd.UsageEndpoint | cmd/usage.go:55-69 | the usage request goes to the selected key's usage path for the period, or the key error stops the command |
| UsageCmd.TotalsAppend | cmd/usage.go:84-94 | totals over consecutive runs of days add up |
| UsageCmd.NonNegativeTotal | cmd/usage.go:84-94 | with no negative day the total is not negative |
| UsageCmd.TotalBoundsEachDay | cmd/usage.go:84-94 | with no negative day the total is at least each day's count |
| UsageCmd.TotalRequests | cmd/usage.go:84-92 | no days total 0 requests and one day totals that day's count; with `TotalsAppend` this fixes the sum over any run of days |
| UsageCmd.TotalCredits | cmd/usage.go:85-93 | no days total 0 credits and one day totals that day's credits; with `TotalsAppend` this fixes the sum over any run of days |
| UsageCmd.SumUsage | cmd/usage.go:84-94 | the accumulation loop ends with the sums of requests and credits over all days, 0 for none |
| UsageCmd.UsageRow | cmd/usage.go:87-91 | a row is the date verbatim, the count in decimal and the formatted credits |
| UsageCmd.UsageRowReadsBack | cmd/usage.go:89 | the request column reads back as the day's count |
| UsageCmd.UsageTable | cmd/usage.go:80-97 | three headers; one row per day in order; the footer is `Total: `, the total request count, ` requests, `, the formatted credit total, ` credits | ` and the period |
| UsageCmd.UsageFooter | cmd/usage.go:96-97 | the footer starts with the total request count and ends with the period, and between them sits exactly the formatted credit total |
| UsageCmd.RunUsage | cmd/usage.go:40-99 | a key error stops the command; then the usage call's error, the raw response in JSON mode, or the table |
| RootCmd.GetOutputOptions | cmd/root.go:60-75 | `--json` selects JSON even with `--plaintext`; `--plaintext` alone selects plaintext; neither selects the table; the other flags are copied |
| RootCmd.OutputOptionsDetermineFlags | cmd/root.go:60-75 | equal options come from flags that agree on JSON and the copied flags, and on plaintext outside JSON mode |
| RootCmd.NewClientFrom | cmd/root.go:79-90 | a credential error is passed on unchanged; otherwise a client for the resolved base URL with a non-empty key |
| RootCmd.WithClient | cmd/root.go:79-90 | a command runs with the client only when it could be built; otherwise it fails with the credential error |
| RootCmd.NoCredentialsNoRequest | cmd/search.go:95-98 | without credentials every command fails the same way before doing anything |
| RootCmd.Execute | cmd/root.go:98-105 | a diagnostic exactly when the command failed: the structured object with `--json`, else `Error: ` and the message |
| RootCmd.MissingKeyReportedAsAuthRequired | cmd/root.go:98-105 | with no key anywhere, `--json` reports the code AUTH_REQUIRED, marked recoverable |
| RootCmd.EmptyStoredKeyReportedAsUnknown | cmd/root.go:98-105 | an empty stored key is reported under `--json` as UNKNOWN, not recoverable |
| ContextCmd.ContextResult.GetCost | pkg/api/types.go:186-208 | the method returns the lookup's cost and leaves its cache in the cache field |

## Left out

- HTTP transport: timeouts, headers, the `User-Agent` version, request construction and marshal errors. A request's outcome is an input: the status and body, or a failure cause.
- The `bufio.Scanner` mechanics and the `scanner.Err()` returned after the stream loop: line splitting, `\r` handling and the token-size limit. The decoder takes pre-split lines.
- `encoding/json` itself. Decoding of response bodies, stream chunks, the schema file and cost documents is an input function. Field selection does not model the number round trip through `float64`. The model cannot tell a nil `Results` slice, which encodes as `null`, from an empty one.
- ContextCmd.ResolveCost: an absent cost document is `None`. A JSON `null` cost arrives as the bytes `null`, and what happens to it is left to the decoder input.
- jq evaluation (gojq). It is a foreign library, modelled as an input giving a parse error or a sequence of values and errors.
- Table drawing and colours (tablewriter, fatih/color). The table is the `TableData` handed to the drawer, and only the colour decision is modelled.
- Floating-point formatting (`%.2f`, `%.4f`). Formatted text is an input function.
- UsageCmd.SumUsage: credits are summed as exact reals, not `float64` with rounding.
- UsageCmd.TotalCredits: the same exact-real sum, without `float64` rounding.
- UsageCmd.SumUsage: the request total is an unbounded integer, without Go's 64-bit `int` wrap-around.
- UsageCmd.TotalRequests: the same unbounded sum, without 64-bit wrap-around.
- `time.Now()` in `usage`: today and the date thirty days back are parameters.
- File and terminal I/O: reading and writing the credential file, the interactive `exa auth` command (cmd/auth.go), reading the schema file, and the printing itself. Output is modelled as strings or sequences of lines.
- Cobra wiring: flag registration, argument-count checks, help text, version, shell completion (cmd/completion.go) and the `--debug` log hook.
- `strings.TrimSpace` is modelled on ASCII white space only. Multi-byte Unicode spaces are not trimmed.
- ContextCmd.ContextResult.GetCost: its contract speaks of the previous cache value, so it states the memoised lookup through `ContextCmd.ResolveCost`, where the properties are proved.

=== FILE: auth.dfy ===
/**
 * Credential and base-URL resolution (pkg/auth/auth.go). The environment variables and the
 * outcome of reading and decoding the credential file are inputs.
 */
module Auth {
  import opened Wrappers

  const MissingKeyMessage :=
    "EXA_API_KEY" + " not set and no config file found.\n" +
    "Run 'exa auth' to configure or set EXA_API_KEY environment variable"
  const NoValidAuthMessage := "no valid authentication found"
  const DefaultBaseUrl := "https://api.exa.ai"

  /**
   * `GetAPIKey`: the `EXA_API_KEY` variable if set; otherwise the key stored in the credential
   * file. `storedKey` is `None` when the file could not be read or decoded, else its `api_key`.
   */
  function GetApiKey(envKey: string, storedKey: Option<string>): (r: Result<string, string>)
    ensures envKey != "" ==> r == Success(envKey)
    ensures envKey == "" && storedKey.None? ==> r == Failure(MissingKeyMessage)
    ensures envKey == "" && storedKey.Some? && storedKey.value != "" ==> r == Success(storedKey.value)
    ensures envKey == "" && storedKey == Some("") ==> r == Failure(NoValidAuthMessage)
    ensures r.Success? ==> r.value != ""
  {
    if envKey != "" then Success(envKey)
    else match storedKey
      case None => Failure(MissingKeyMessage)
      case Some(key) => if key != "" then Success(key) else Failure(NoValidAuthMessage)
  }

  /** With the variable set, the credential file is never consulted. */
  lemma EnvKeyWins(envKey: string, a: Option<string>, b: Option<string>)
    requires envKey != ""
    ensures GetApiKey(envKey, a) == GetApiKey(envKey, b)
  {
  }

  /** `GetBaseURL`: `EXA_API_URL` if set, else the public endpoint; never empty. */
  function GetBaseUrl(envUrl: string): (r: string)
    ensures r != ""
    ensures envUrl != "" ==> r == envUrl
    ensures envUrl == "" ==> r == DefaultBaseUrl
  {
    if envUrl != "" then envUrl else DefaultBaseUrl
  }
}

=== FILE: client.dfy ===
/**
 * The pure decisions of the HTTP client (pkg/api/client.go): the request URL, the status
 * check, the wording of transport and API errors, and body truncation. The HTTP exchange
 * itself is an input: what the transport reported for one request.
 */
module Client {
  import opened Wrappers
  import opened GoStrings

  /** `truncate(s, max)`: at most `max` bytes of `s`, marked with `"..."` when cut. */
  function Truncate(s: string, max: int): (r: string)
    requires max >= 0
    ensures |s| <= max ==> r == s
    ensures |s| > max ==> |r| == max + 3 && r[..max] == s[..max] && r[max..] == "..."
    ensures |r| <= max + 3
  {
    if |s| <= max then s else s[..max] + "..."
  }

  /** Truncating an already truncated text changes nothing: the kept bytes are the same. */
  lemma TruncateIdempotent(s: string, max: int)
    requires max >= 0
    ensures Truncate(Truncate(s, max), max) == Truncate(s, max)
  {
    if |s| > max {
      var t := Truncate(s, max);
      assert t[..max] == s[..max];
    }
  }

  /** Cutting a text and marking the cut introduces no new occurrence of a pattern that has no `'.'`. */
  lemma TruncateAddsNoMatch(s: string, max: int, p: string)
    requires max >= 0 && |p| > 0 && '.' !in p
    requires !Contains(s, p)
    ensures !Contains(Truncate(s, max), p)
  {
    if |s| > max {
      DropSuffix(s[..max], "...", p);
      if Contains(s[..max], p) {
        ContainsInPrefix(s, max, p);
      }
    }
  }

  /** Response bodies are cut to this many bytes in API error messages. */
  const ErrorBodyLimit := 500
  /** The client state `NewClient` builds: the key and the base URL without trailing slashes. */
  datatype Client = Client(apiKey: string, baseUrl: string)

  function NewClient(baseUrl: string, apiKey: string): (c: Client)
    ensures c.apiKey == apiKey
    ensures IsPrefix(c.baseUrl, baseUrl) && forall i | |c.baseUrl| <= i < |baseUrl| :: baseUrl[i] == '/'
    ensures |c.baseUrl| > 0 ==> c.baseUrl[|c.baseUrl| - 1] != '/'
  {
    Client(apiKey, TrimTrailing(baseUrl, IsSlash))
  }

  /** The URL `doJSON` requests: base URL, one slash, then the endpoint without leading slashes. */
  function RequestUrl(c: Client, endpoint: string): (url: string)
    ensures IsPrefix(c.baseUrl + "/", url)
    ensures var rest := url[|c.baseUrl| + 1..];
            IsSuffix(rest, endpoint) && (|rest| > 0 ==> rest[0] != '/') &&
            forall i | 0 <= i < |endpoint| - |rest| :: endpoint[i] == '/'
  {
    var rest := TrimLeading(endpoint, IsSlash);
    PrefixOfConcat(c.baseUrl + "/", rest);
    assert (c.baseUrl + "/" + rest)[|c.baseUrl| + 1..] == rest;
    c.baseUrl + "/" + rest
  }

  /** Base and endpoint are joined by exactly one slash, whatever slashes either side brought. */
  lemma RequestUrlShape(baseUrl: string, endpoint: string)
    ensures var b := NewClient(baseUrl, "").baseUrl;
            var e := TrimLeading(endpoint, IsSlash);
            RequestUrl(NewClient(baseUrl, ""), endpoint) == b + "/" + e &&
            (|b| > 0 ==> b[|b| - 1] != '/') && (|e| > 0 ==> e[0] != '/') &&
            IsPrefix(b, baseUrl) && e == endpoint[|endpoint| - |e|..]
  {
  }

  /** Extra slashes at the end of the base URL or the start of the endpoint do not change the URL. */
  lemma RequestUrlIgnoresExtraSlashes(baseUrl: string, endpoint: string)
    ensures RequestUrl(NewClient(baseUrl + "/", ""), endpoint) == RequestUrl(NewClient(baseUrl, ""), endpoint)
    ensures RequestUrl(NewClient(baseUrl, ""), "/" + endpoint) == RequestUrl(NewClient(baseUrl, ""), endpoint)
  {
    assert (baseUrl + "/")[..|baseUrl + "/"| - 1] == baseUrl;
    assert ("/" + endpoint)[1..] == endpoint;
  }

  const SearchPath := "/search"
  const ContentsPath := "/contents"
  const FindSimilarPath := "/findSimilar"
  const AnswerPath := "/answer"
  const ContextPath := "/context"
  const ApiKeysPath := "/team-management/api-keys"

  /** The usage endpoint of one key; the parts are pasted in as given, without escaping. */
  function UsagePath(keyId: string, startDate: string, endDate: string): (path: string)
    ensures var head := ApiKeysPath + "/" + keyId + "/usage?startDate=";
            var tail := "&endDate=" + endDate;
            IsPrefix(head, path) && IsSuffix(tail, path) && |head| + |tail| <= |path| &&
            path[|head|..|path| - |tail|] == startDate
  {
    var head := ApiKeysPath + "/" + keyId + "/usage?startDate=";
    var tail := "&endDate=" + endDate;
    var path := head + startDate + tail;
    PrefixOfConcat(head, startDate + tail);
    assert path == head + (startDate + tail);
    SuffixOfConcat(head + startDate, tail);
    assert path[|head|..|path| - |tail|] == startDate;
    path
  }

  /** The 2xx class of status codes. */
  function IsSuccessStatus(status: int): (ok: bool)
    ensures ok <==> status / 100 == 2
  {
    200 <= status < 300
  }

  /** The error raised for a status outside 2xx: the status in decimal and the cut body. */
  function ApiErrorMessage(status: int, body: string): (msg: string)
    ensures IsPrefix("API error (status " + Decimal(status) + "): ", msg)
    ensures IsSuffix(Truncate(body, ErrorBodyLimit), msg)
    ensures |body| <= ErrorBodyLimit ==> IsSuffix(body, msg)
    ensures |msg| <= |"API error (status " + Decimal(status) + "): "| + ErrorBodyLimit + 3
    ensures |msg| == |"API error (status " + Decimal(status) + "): "| + |Truncate(body, ErrorBodyLimit)|
  {
    var head := "API error (status " + Decimal(status) + "): ";
    PrefixOfConcat(head, Truncate(body, ErrorBodyLimit));
    SuffixOfConcat(head, Truncate(body, ErrorBodyLimit));
    head + Truncate(body, ErrorBodyLimit)
  }

  /** Prefix of the error raised when the request could not be sent or no response arrived. */
  const RequestFailedPrefix := "request failed: "

  /** What the transport reported for one request. */
  datatype Exchange =
    | TransportFailed(cause: string)
    | ReadFailed(cause: string)
    | Responded(status: int, body: string)

  /**
   * `doJSON` after the request is built: wrap transport failures, reject statuses outside
   * 2xx before any decoding, then decode the body into the response record.
   */
  function DoJson<T>(x: Exchange, decode: string -> Result<T, string>): (r: Result<T, string>)
    ensures x.TransportFailed? ==> r == Failure(RequestFailedPrefix + x.cause)
    ensures x.ReadFailed? ==> r == Failure("read response: " + x.cause)
    ensures x.Responded? && !IsSuccessStatus(x.status) ==> r == Failure(ApiErrorMessage(x.status, x.body))
    ensures r.Success? <==> x.Responded? && IsSuccessStatus(x.status) && decode(x.body).Success?
    ensures x.Responded? && IsSuccessStatus(x.status) && decode(x.body).Failure? ==>
              r == Failure("parse response: " + decode(x.body).error)
    ensures r.Success? ==> r == decode(x.body)
  {
    match x
    case TransportFailed(cause) => Failure(RequestFailedPrefix + cause)
    case ReadFailed(cause) => Failure("read response: " + cause)
    case Responded(status, body) =>
      if !IsSuccessStatus(status) then Failure(ApiErrorMessage(status, body))
      else
        match decode(body)
        case Success(v) => Success(v)
        case Failure(e) => Failure("parse response: " + e)
  }

  /** Outside 2xx the decoder is never consulted: any two decoders give the same error. */
  lemma NoDecodeOnErrorStatus<T>(x: Exchange, d1: string -> Result<T, string>, d2: string -> Result<T, string>)
    requires x.Responded? && !IsSuccessStatus(x.status)
    ensures DoJson(x, d1) == DoJson(x, d2)
    ensures DoJson(x, d1).Failure?
  {
  }
}

=== FILE: cmd_answer.dfy ===
/**
 * The `answer` command (cmd/answer.go): the answer request, the choice between the streamed
 * and the plain answer, the final response kept from the stream, and the numbered list of
 * sources. Reading and decoding the schema file, the transport and payload decoding are inputs.
 */
module AnswerCmd {
  import opened Wrappers
  import opened GoStrings
  import opened JsonValue
  import opened ApiTypes
  import Output
  import Client
  import AnswerStream

  /** What `--output-schema` yields: no flag, a file that cannot be read, a file that is not JSON, or the schema. */
  datatype SchemaSource = NoSchema | SchemaUnreadable(reason: string) | SchemaInvalid(reason: string) | SchemaDocument(schema: Json)

  /**
   * `runAnswer` up to the client call. The decoded schema goes into an interface field, so a
   * document that is JSON `null` leaves it nil, as if no schema were given.
   */
  function BuildAnswerRequest(args: seq<string>, text: bool, schema: SchemaSource): (r: Result<AnswerRequest, string>)
    ensures schema.SchemaUnreadable? ==> r == Failure("read schema file: " + schema.reason)
    ensures schema.SchemaInvalid? ==> r == Failure("parse schema: " + schema.reason)
    ensures r.Success? <==> schema.NoSchema? || schema.SchemaDocument?
    ensures r.Success? ==> r.value.query == Join(args, " ") && r.value.text == text && r.value.model == "" && !r.value.stream
    ensures r.Success? ==> (r.value.outputSchema.Some? <==> schema.SchemaDocument? && !schema.schema.Null?)
    ensures r.Success? && schema.SchemaDocument? && !schema.schema.Null? ==> r.value.outputSchema == Some(schema.schema)
  {
    match schema
    case NoSchema => Success(AnswerRequest(Join(args, " "), text, "", None, false))
    case SchemaUnreadable(reason) => Failure("read schema file: " + reason)
    case SchemaInvalid(reason) => Failure("parse schema: " + reason)
    case SchemaDocument(s) => Success(AnswerRequest(Join(args, " "), text, "", if s.Null? then None else Some(s), false))
  }

  /**
   * A schema file holding `null` leaves the request's schema nil, so the body sent carries no
   * `outputSchema` key, just as when no schema was given.
   */
  lemma NullSchemaNotSent(args: seq<string>, text: bool)
    ensures var r := BuildAnswerRequest(args, text, SchemaDocument(Null));
            r.Success? && "outputSchema" !in AnswerRequestJson(r.value).fields &&
            r == BuildAnswerRequest(args, text, NoSchema)
  {
    AnswerRequestEncoding(BuildAnswerRequest(args, text, SchemaDocument(Null)).value);
  }

  /** The answer is streamed only when asked for and the output is not JSON. */
  function UseStreaming(stream: bool, mode: Output.Mode): (streamed: bool)
    ensures mode == Output.JsonMode ==> !streamed
    ensures !stream ==> !streamed
    ensures stream && (mode == Output.TableMode || mode == Output.PlaintextMode) ==> streamed
  {
    stream && mode != Output.JsonMode
  }

  /** The position of the last final-answer event, or -1 when there is none. */
  function LastDone(events: seq<AnswerStream.Event>): (k: int)
    ensures -1 <= k < |events|
    ensures k >= 0 ==> events[k].Done?
    ensures forall j | k < j < |events| :: !events[j].Done?
    decreases |events|
  {
    if |events| == 0 then -1
    else if events[|events| - 1].Done? then |events| - 1
    else
      var k := LastDone(events[..|events| - 1]);
      assert forall j | k < j < |events| - 1 :: events[j] == events[..|events| - 1][j];
      k
  }

  /** The response the `doneFn` callback leaves behind: the payload of the last final-answer event. */
  function FinalResponse(events: seq<AnswerStream.Event>): (r: Option<AnswerResponse>)
    ensures r.None? <==> forall i | 0 <= i < |events| :: !events[i].Done?
    ensures r.Some? ==> exists i | 0 <= i < |events| :: events[i] == AnswerStream.Done(r.value) &&
                          forall j | i < j < |events| :: !events[j].Done?
  {
    var k := LastDone(events);
    if k < 0 then None
    else
      assert events[k] == AnswerStream.Done(events[k].response);
      Some(events[k].response)
  }

  /** A later final answer replaces an earlier one; without one, the earlier stays. */
  lemma {:induction false} FinalResponseConcat(a: seq<AnswerStream.Event>, b: seq<AnswerStream.Event>)
    ensures FinalResponse(a + b) == if FinalResponse(b).Some? then FinalResponse(b) else FinalResponse(a)
    decreases |b|
  {
    if |b| == 0 {
      assert a + b == a;
    } else {
      var ab := a + b;
      assert ab[|ab| - 1] == b[|b| - 1];
      assert ab[..|ab| - 1] == a + b[..|b| - 1];
      if !b[|b| - 1].Done? {
        FinalResponseConcat(a, b[..|b| - 1]);
      }
    }
  }

  /** The callback loop: every final-answer event overwrites the captured response. */
  method CaptureFinal(events: seq<AnswerStream.Event>) returns (finalResp: Option<AnswerResponse>)
    ensures finalResp == FinalResponse(events)
  {
    finalResp := None;
    var i := 0;
    while i < |events|
      invariant 0 <= i <= |events|
      invariant finalResp == FinalResponse(events[..i])
    {
      assert events[..i + 1][..i] == events[..i];
      if events[i].Done? {
        finalResp := Some(events[i].response);
      }
      i := i + 1;
    }
    assert events[..i] == events;
  }

  /** The text printed while streaming: every text delta, in order, with nothing in between. */
  function StreamedText(events: seq<AnswerStream.Event>): (text: string)
    ensures |events| == 0 ==> text == ""
    ensures |events| == 1 ==> text == (if events[0].TextDelta? then events[0].text else "")
    decreases |events|
  {
    if |events| == 0 then ""
    else (if events[0].TextDelta? then events[0].text else "") + StreamedText(events[1..])
  }

  /** The text of consecutive stretches of events is printed one after the other. */
  lemma {:induction false} StreamedTextConcat(a: seq<AnswerStream.Event>, b: seq<AnswerStream.Event>)
    ensures StreamedText(a + b) == StreamedText(a) + StreamedText(b)
    decreases |a|
  {
    if |a| == 0 {
      assert a + b == b;
    } else {
      assert (a + b)[0] == a[0];
      assert (a + b)[1..] == a[1..] + b;
      StreamedTextConcat(a[1..], b);
    }
  }

  /** The events of one chunk print exactly the chunk's text. */
  lemma ChunkText(c: AnswerStreamChunk)
    ensures StreamedText(AnswerStream.ChunkEvents(c)) == c.text
  {
    var evs := AnswerStream.ChunkEvents(c);
    if c.text != "" {
      assert evs[0] == AnswerStream.TextDelta(c.text);
      if |evs| == 2 {
        assert evs == [evs[0]] + [evs[1]];
        StreamedTextConcat([evs[0]], [evs[1]]);
      }
    }
  }

  /** The text a line carries: the chunk text of a payload that decodes, nothing otherwise. */
  function PayloadText(line: string, parse: string -> Option<AnswerStreamChunk>): string {
    match AnswerStream.RoleOf(line)
    case Payload(data) => if parse(data).Some? then parse(data).value.text else ""
    case _ => ""
  }

  /** The texts of all lines, one after the other. */
  function PayloadTexts(lines: seq<string>, parse: string -> Option<AnswerStreamChunk>): string
    decreases |lines|
  {
    if |lines| == 0 then "" else PayloadText(lines[0], parse) + PayloadTexts(lines[1..], parse)
  }

  /** Without a terminator, the streamed text is the text of every decodable payload, in order. */
  lemma {:induction false} StreamedTextOfLines(lines: seq<string>, parse: string -> Option<AnswerStreamChunk>)
    requires AnswerStream.NoTerminator(lines)
    ensures StreamedText(AnswerStream.Decode(lines, parse)) == PayloadTexts(lines, parse)
    decreases |lines|
  {
    if |lines| > 0 {
      AnswerStream.DecodeStep(lines, 0, parse);
      assert lines[0..] == lines;
      assert AnswerStream.NoTerminator(lines[1..]) by {
        forall i | 0 <= i < |lines[1..]| ensures !AnswerStream.RoleOf(lines[1..][i]).Terminator? {
          assert lines[1..][i] == lines[i + 1];
        }
      }
      StreamedTextOfLines(lines[1..], parse);
      StreamedTextConcat(AnswerStream.LineEvents(lines[0], parse), AnswerStream.Decode(lines[1..], parse));
      match AnswerStream.RoleOf(lines[0])
      case Payload(data) =>
        if parse(data).Some? {
          ChunkText(parse(data).value);
        }
      case _ =>
    }
  }

  /** With a terminator, the streamed text is the text of the payloads before the first one. */
  lemma StreamedTextBeforeTerminator(pre: seq<string>, post: seq<string>, parse: string -> Option<AnswerStreamChunk>)
    requires AnswerStream.NoTerminator(pre)
    ensures StreamedText(AnswerStream.Decode(pre + [AnswerStream.DataPrefix + AnswerStream.DoneMarker] + post, parse)) ==
            PayloadTexts(pre, parse)
  {
    AnswerStream.TerminatorEndsStream(pre, post, parse);
    StreamedTextOfLines(pre, parse);
  }

  /** The UTF-8 bytes of the em dash U+2014 between a source's title and URL. */
  const EmDash := [0xE2 as char, 0x80 as char, 0x94 as char]

  /** One source line: its number counted from 1, its title, its URL. */
  function CitationLine(n: int, c: SearchResult): string {
    "  " + Decimal(n) + ". " + c.title + " " + EmDash + " " + c.url + "\n"
  }

  /** The sources, in citation order, numbered from 1. */
  function CitationLines(cites: seq<SearchResult>): (lines: seq<string>)
    ensures |lines| == |cites|
    ensures forall i | 0 <= i < |cites| :: lines[i] == CitationLine(i + 1, cites[i])
  {
    seq(|cites|, i requires 0 <= i < |cites| => CitationLine(i + 1, cites[i]))
  }

  /** The number in front of a source line reads back as that number, followed by `". "`. */
  lemma CitationLineReadsBack(n: nat, c: SearchResult)
    ensures var line := CitationLine(n, c);
            var d := Decimal(n);
            |line| >= 4 + |d| && IsDigitString(line[2..2 + |d|]) && DigitsValue(line[2..2 + |d|]) == n &&
            line[2 + |d|..4 + |d|] == ". "
  {
    var d := Decimal(n);
    var rest := c.title + " " + EmDash + " " + c.url + "\n";
    var line := CitationLine(n, c);
    assert line == "  " + d + ". " + rest;
    assert line[2..2 + |d|] == d;
    assert line[2 + |d|..4 + |d|] == ". ";
    DecimalRoundTrip(n);
  }

  /** The number in front of the i-th source line reads back as i + 1. */
  lemma CitationNumberReadsBack(cites: seq<SearchResult>, i: int)
    requires 0 <= i < |cites|
    ensures var line := CitationLines(cites)[i];
            var d := Decimal(i + 1);
            |line| >= 4 + |d| && IsDigitString(line[2..2 + |d|]) && DigitsValue(line[2..2 + |d|]) == i + 1 &&
            line[2 + |d|..4 + |d|] == ". "
  {
    CitationLineReadsBack(i + 1, cites[i]);
  }

  /** All lines, one after the other. */
  function Concat(lines: seq<string>): string {
    if |lines| == 0 then "" else lines[0] + Concat(lines[1..])
  }

  /** The heading in front of the sources. */
  const SourcesHeading := "\nSources:\n"

  /** The `Sources:` block of a non-empty citation list. */
  function SourcesBlock(cites: seq<SearchResult>): string {
    SourcesHeading + Concat(CitationLines(cites))
  }

  /** The cost line, when the response has a cost; `%.4f` formatting is an input. */
  function CostLine(cost: Option<CostInfo>, formatCost: real -> string): (line: string)
    ensures line == "" <==> cost.None?
    ensures cost.Some? ==>
              IsPrefix("\nCost: $", line) && IsSuffix("\n", line) && |line| >= 9 &&
              line[8..|line| - 1] == formatCost(cost.value.total)
  {
    if cost.Some? then "\nCost: $" + formatCost(cost.value.total) + "\n" else ""
  }

  /**
   * The streamed output: the text deltas, a newline, and, only when the last final answer has
   * citations, the sources followed by the cost.
   */
  function StreamedOutput(events: seq<AnswerStream.Event>, formatCost: real -> string): (out: string)
    ensures IsPrefix(StreamedText(events) + "\n", out)
    ensures var f := FinalResponse(events);
            out == StreamedText(events) + "\n" <==> f.None? || |f.value.citations| == 0
    ensures var f := FinalResponse(events);
            f.Some? && |f.value.citations| > 0 ==>
              SourcesThenCost(out, StreamedText(events) + "\n", f.value.citations, CostLine(f.value.costDollars, formatCost))
  {
    var f := FinalResponse(events);
    var head := StreamedText(events) + "\n";
    if f.Some? && |f.value.citations| > 0 then
      SourcesThenCostHolds(head, f.value.citations, CostLine(f.value.costDollars, formatCost));
      head + SourcesBlock(f.value.citations) + CostLine(f.value.costDollars, formatCost)
    else
      PrefixOfConcat(head, "");
      assert head + "" == head;
      head
  }

  /**
   * `out` is `head`, then the sources heading, then the numbered source lines in order, and
   * ends with `cost`.
   */
  predicate SourcesThenCost(out: string, head: string, cites: seq<SearchResult>, cost: string) {
    var front := head + SourcesHeading;
    IsPrefix(front, out) && IsSuffix(cost, out) && |front| + |cost| <= |out| &&
    out[|front|..|out| - |cost|] == Concat(CitationLines(cites))
  }

  /** The layout `SourcesThenCost` describes is the sources block put between `head` and `cost`. */
  lemma SourcesThenCostHolds(head: string, cites: seq<SearchResult>, cost: string)
    ensures SourcesThenCost(head + SourcesBlock(cites) + cost, head, cites, cost)
  {
    var lines := Concat(CitationLines(cites));
    var front := head + SourcesHeading;
    var out := head + SourcesBlock(cites) + cost;
    assert out == front + lines + cost;
    PrefixOfConcat(front, lines + cost);
    assert out == front + (lines + cost);
    SuffixOfConcat(front + lines, cost);
    assert out[|front|..|out| - |cost|] == lines;
  }

  /** The plain output: the answer, a newline, the sources when there are any, and the cost whenever present. */
  function PlainOutput(resp: AnswerResponse, formatCost: real -> string): (out: string)
    ensures IsPrefix(resp.answer + "\n", out)
    ensures IsSuffix(CostLine(resp.costDollars, formatCost), out)
    ensures |resp.citations| > 0 <==> IsPrefix(resp.answer + "\n" + SourcesHeading, out)
    ensures |resp.citations| > 0 ==>
              SourcesThenCost(out, resp.answer + "\n", resp.citations, CostLine(resp.costDollars, formatCost))
    ensures |resp.citations| == 0 ==> out == resp.answer + "\n" + CostLine(resp.costDollars, formatCost)
  {
    var head := resp.answer + "\n";
    var cost := CostLine(resp.costDollars, formatCost);
    assert cost == "" || cost[1] == cost[..8][1] == 'C';
    PlainLayout(head, resp.citations, cost);
    if |resp.citations| > 0 then head + SourcesBlock(resp.citations) + cost else head + cost
  }

  /** A cost line never starts like the sources heading, so an answer without sources never shows one. */
  lemma NoSourcesHeading(head: string, cost: string, c: Option<CostInfo>, formatCost: real -> string)
    requires cost == CostLine(c, formatCost)
    ensures !IsPrefix(head + SourcesHeading, head + cost)
  {
    assert cost == "" || cost[1] == cost[..8][1] == 'C';
    PlainLayout(head, [], cost);
  }

  /**
   * The plain layout for any cost text that is empty or starts like a cost line: the sources
   * heading shows exactly when there are citations, because a cost line's second byte is `C`
   * where the heading's is `S`.
   */
  lemma PlainLayout(head: string, cites: seq<SearchResult>, cost: string)
    requires cost == "" || (|cost| >= 2 && cost[1] == 'C')
    ensures var out := if |cites| > 0 then head + SourcesBlock(cites) + cost else head + cost;
            IsPrefix(head, out) && IsSuffix(cost, out) &&
            (|cites| > 0 <==> IsPrefix(head + SourcesHeading, out)) &&
            (|cites| > 0 ==> SourcesThenCost(out, head, cites, cost))
  {
    var front := head + SourcesHeading;
    if |cites| > 0 {
      SourcesThenCostHolds(head, cites, cost);
      PrefixOfConcat(head, SourcesBlock(cites) + cost);
      assert head + SourcesBlock(cites) + cost == head + (SourcesBlock(cites) + cost);
    } else {
      var out := head + cost;
      PrefixOfConcat(head, cost);
      SuffixOfConcat(head, cost);
      if |cost| > 0 && |front| <= |out| {
        assert out[..|front|][|head| + 1] == 'C';
        assert front[|head| + 1] == 'S';
      }
    }
  }

  /** With citations, streaming prints what the plain path prints for the same final answer. */
  lemma StreamedMatchesPlain(events: seq<AnswerStream.Event>, resp: AnswerResponse, formatCost: real -> string)
    requires FinalResponse(events) == Some(resp) && |resp.citations| > 0
    requires StreamedText(events) == resp.answer
    ensures StreamedOutput(events, formatCost) == PlainOutput(resp, formatCost)
  {
  }

  /** Without citations the streamed output never shows the cost, although the plain output would. */
  lemma StreamedHidesCostWithoutCitations(events: seq<AnswerStream.Event>, resp: AnswerResponse, formatCost: real -> string)
    requires FinalResponse(events) == Some(resp) && |resp.citations| == 0 && resp.costDollars.Some?
    requires StreamedText(events) == resp.answer
    ensures StreamedOutput(events, formatCost) == resp.answer + "\n"
    ensures PlainOutput(resp, formatCost) == resp.answer + "\n" + CostLine(resp.costDollars, formatCost) != resp.answer + "\n"
  {
  }

  /** What the command writes: the JSON output, or the answer text. */
  datatype AnswerRendered = AnswerJson(json: Output.JsonOutput) | AnswerText(stdout: string)

  /**
   * `runAnswer` after the client was built. `streamExchange` is what the transport reported for
   * the stream request, `plainExchange` for the plain one; only the one the flags choose is used.
   */
  function RunAnswer(args: seq<string>, text: bool, schema: SchemaSource, stream: bool, opts: Output.Options,
                     streamExchange: AnswerStream.StreamExchange, parse: string -> Option<AnswerStreamChunk>,
                     plainExchange: Client.Exchange, decode: string -> Result<AnswerResponse, string>,
                     jq: (string, Json) -> Output.JqOutcome, formatCost: real -> string): (r: Result<AnswerRendered, string>)
    ensures BuildAnswerRequest(args, text, schema).Failure? ==> r == Failure(BuildAnswerRequest(args, text, schema).error)
    ensures BuildAnswerRequest(args, text, schema).Success? && UseStreaming(stream, opts.mode) ==>
              match AnswerStream.AnswerStreamEvents(streamExchange, parse)
              case Failure(e) => r == Failure(e)
              case Success(events) => r == Success(AnswerText(StreamedOutput(events, formatCost)))
    ensures BuildAnswerRequest(args, text, schema).Success? && !UseStreaming(stream, opts.mode) ==>
              match Client.DoJson(plainExchange, decode)
              case Failure(e) => r == Failure(e)
              case Success(resp) =>
                r == Success(if opts.mode == Output.JsonMode then AnswerJson(Output.RenderJsonOutput(AnswerResponseJson(resp), opts, jq))
                             else AnswerText(PlainOutput(resp, formatCost)))
  {
    match BuildAnswerRequest(args, text, schema)
    case Failure(e) => Failure(e)
    case Success(_) =>
      if UseStreaming(stream, opts.mode) then
        match AnswerStream.AnswerStreamEvents(streamExchange, parse)
        case Failure(e) => Failure(e)
        case Success(events) => Success(AnswerText(StreamedOutput(events, formatCost)))
      else
        match Client.DoJson(plainExchange, decode)
        case Failure(e) => Failure(e)
        case Success(resp) =>
          if opts.mode == Output.JsonMode then Success(AnswerJson(Output.RenderJsonOutput(AnswerResponseJson(resp), opts, jq)))
          else Success(AnswerText(PlainOutput(resp, formatCost)))
  }

  /** `--stream --json` behaves exactly like `--json`: the stream is never opened. */
  lemma StreamWithJsonFallsThrough(args: seq<string>, text: bool, schema: SchemaSource, opts: Output.Options,
                                   sx1: AnswerStream.StreamExchange, sx2: AnswerStream.StreamExchange,
                                   parse: string -> Option<AnswerStreamChunk>,
                                   px: Client.Exchange, decode: string -> Result<AnswerResponse, string>,
                                   jq: (string, Json) -> Output.JqOutcome, formatCost: real -> string)
    requires opts.mode == Output.JsonMode
    ensures RunAnswer(args, text, schema, true, opts, sx1, parse, px, decode, jq, formatCost) ==
            RunAnswer(args, text, schema, false, opts, sx2, parse, px, decode, jq, formatCost)
  {
  }
}

=== FILE: cmd_contents.dfy ===
/**
 * The `contents` command (cmd/contents.go): the request built from the URLs and flags, the
 * title table, and the text, summary and highlights printed below it outside JSON mode.
 */
module ContentsCmd {
  import opened Wrappers
  import opened GoStrings
  import opened JsonValue
  import opened ApiTypes
  import Output
  import SearchCmd

  /** The flags of `exa contents`. */
  datatype ContentsFlags = ContentsFlags(
    text: bool,
    textMax: int,
    highlights: bool,
    summary: bool,
    maxAgeHours: int,
    subpages: int)

  /** The flag defaults: text on with 10000 chars, cache age -1 (use the cache). */
  const DefaultFlags := ContentsFlags(true, 10000, false, false, -1, 0)

  /** `runContents` up to the client call. */
  function BuildContentsRequest(urls: seq<string>, f: ContentsFlags): (r: ContentsRequest)
    ensures r.urls == urls && r.ids == []
    ensures r.text.Some? <==> f.text
    ensures r.text.Some? ==> r.text.value == TextSpec(f.textMax, false)
    ensures r.highlights.Some? <==> f.highlights
    ensures r.summary.Some? <==> f.summary
    ensures r.livecrawl == SearchCmd.Livecrawl(f.maxAgeHours)
    ensures r.subpages == (if f.subpages > 0 then f.subpages else 0)
  {
    ContentsRequest(
      [],
      urls,
      if f.text then Some(TextSpec(f.textMax, false)) else None,
      if f.highlights then Some(HighlightsSpec(0, 0, "")) else None,
      if f.summary then Some(SummarySpec("")) else None,
      SearchCmd.Livecrawl(f.maxAgeHours),
      if f.subpages > 0 then f.subpages else 0)
  }

  /** The search flags that ask for the same content options. */
  function SameOptionsForSearch(f: ContentsFlags): SearchCmd.SearchFlags {
    SearchCmd.DefaultFlags.(text := f.text, textMax := f.textMax, highlights := f.highlights,
                            summary := f.summary, maxAgeHours := f.maxAgeHours, subpages := f.subpages)
  }

  /** The content options of a contents request are exactly those a search with the same flags nests under `contents`. */
  lemma ContentsAgreesWithSearch(urls: seq<string>, f: ContentsFlags)
    ensures var r := BuildContentsRequest(urls, f);
            var c := SearchCmd.SearchContentsSpec(SameOptionsForSearch(f));
            r.text == c.text && r.highlights == c.highlights && r.summary == c.summary &&
            r.livecrawl == c.livecrawl && r.subpages == c.subpages
  {
  }

  /** On the wire: `urls` exactly when some URL is given, `text` exactly when the text flag is on. */
  lemma ContentsRequestOnWire(urls: seq<string>, f: ContentsFlags)
    ensures var m := ContentsRequestJson(BuildContentsRequest(urls, f)).fields;
            ("urls" in m <==> |urls| > 0) && ("text" in m <==> f.text) && "ids" !in m
  {
    var fs := ContentsRequestFields(BuildContentsRequest(urls, f));
    UniqueKeyOnWire(fs, 0);
    UniqueKeyOnWire(fs, 1);
    UniqueKeyOnWire(fs, 2);
  }

  const ContentsHeaders := ["TITLE", "URL"]

  /** The table: one row per page with the title cut to 60 bytes, and a page-count footer. */
  function ContentsTable(resp: ContentsResponse, formatCost: real -> string): (td: Output.TableData)
    ensures td.headers == ContentsHeaders && |td.rows| == |resp.results|
    ensures forall i | 0 <= i < |resp.results| ::
              td.rows[i] == [SearchCmd.TruncateStr(resp.results[i].title, 60), resp.results[i].url]
    ensures var count := Decimal(|resp.results|) + " pages";
            td.footer == if resp.costDollars.Some? then "Cost: $" + formatCost(resp.costDollars.value.total) + " | " + count else count
  {
    var count := Decimal(|resp.results|) + " pages";
    Output.TableData(
      ContentsHeaders,
      seq(|resp.results|, i requires 0 <= i < |resp.results| =>
        [SearchCmd.TruncateStr(resp.results[i].title, 60), resp.results[i].url]),
      if resp.costDollars.Some? then "Cost: $" + formatCost(resp.costDollars.value.total) + " | " + count else count)
  }

  /** The UTF-8 bytes of the bullet U+2022 that marks each highlight. */
  const Bullet := [0xE2 as char, 0x80 as char, 0xA2 as char]

  /** The block printed below the table for one page: its text cut to 2000 bytes, its summary, its highlights. */
  function PageDetails(r: SearchResult): (out: string)
    ensures out == "" <==> r.text == "" && r.summary == "" && |r.highlights| == 0
    ensures r.text != "" ==> IsPrefix(TextBlock(r), out)
  {
    (if r.text != "" then TextBlock(r) else "") +
    (if r.summary != "" then SummaryBlock(r.summary) else "") +
    (if |r.highlights| > 0 then HighlightsBlock(r.highlights) else "")
  }

  /**
   * The order of a page's details: the text block first, then the summary, and the highlights
   * last; a part that is empty on the page is left out.
   */
  lemma PageDetailsLayout(r: SearchResult)
    ensures var out := PageDetails(r);
            var head := if r.text != "" then TextBlock(r) else "";
            (r.summary != "" ==> IsPrefix(head + SummaryBlock(r.summary), out)) &&
            (|r.highlights| > 0 ==> IsSuffix(HighlightsBlock(r.highlights), out)) &&
            (|r.highlights| == 0 && r.summary != "" ==> IsSuffix(SummaryBlock(r.summary), out)) &&
            (|r.highlights| == 0 && r.summary == "" ==> out == head)
  {
    var head := if r.text != "" then TextBlock(r) else "";
    var mid := if r.summary != "" then SummaryBlock(r.summary) else "";
    var tail := if |r.highlights| > 0 then HighlightsBlock(r.highlights) else "";
    assert PageDetails(r) == (head + mid) + tail;
    if r.summary != "" {
      PrefixOfConcat(head + mid, tail);
    }
    if |r.highlights| > 0 {
      SuffixOfConcat(head + mid, tail);
    } else {
      assert PageDetails(r) == head + mid;
      SuffixOfConcat(head, mid);
    }
  }

  /** The page's URL as a heading, then its text cut to 2000 bytes. */
  function TextBlock(r: SearchResult): string {
    "\n--- " + r.url + " ---\n" + SearchCmd.TruncateStr(r.text, 2000) + "\n"
  }

  /** The summary, labelled. */
  function SummaryBlock(summary: string): string {
    "\nSummary: " + summary + "\n"
  }

  /** The highlights under their heading. */
  function HighlightsBlock(hs: seq<string>): string {
    "\nHighlights:\n" + HighlightLines(hs)
  }

  /** The line printed for one highlight: indented, after a bullet. */
  function HighlightLine(h: string): string {
    "  " + Bullet + " " + h + "\n"
  }

  /** One bulleted line per highlight, in order. */
  function HighlightLines(hs: seq<string>): (out: string)
    ensures |hs| == 0 ==> out == ""
    ensures |hs| == 1 ==> out == HighlightLine(hs[0])
    ensures |hs| > 0 ==> IsPrefix(HighlightLine(hs[0]), out) && IsSuffix(HighlightLine(hs[|hs| - 1]), out)
    decreases |hs|
  {
    if |hs| == 0 then ""
    else
      var rest := HighlightLines(hs[1..]);
      assert |hs| > 1 ==> hs[1..][|hs[1..]| - 1] == hs[|hs| - 1];
      HighlightLine(hs[0]) + rest
  }

  /** The lines of two runs of highlights are the lines of each, one after the other. */
  lemma {:induction false} HighlightLinesConcat(a: seq<string>, b: seq<string>)
    ensures HighlightLines(a + b) == HighlightLines(a) + HighlightLines(b)
    decreases |a|
  {
    if |a| > 0 {
      assert (a + b)[0] == a[0];
      assert (a + b)[1..] == a[1..] + b;
      HighlightLinesConcat(a[1..], b);
    } else {
      assert a + b == b;
    }
  }

  /** The details of all pages, in result order. */
  function Details(results: seq<SearchResult>): (out: string)
    ensures out == "" <==> forall i | 0 <= i < |results| :: PageDetails(results[i]) == ""
    ensures |results| == 1 ==> out == PageDetails(results[0])
  {
    if |results| == 0 then "" else PageDetails(results[0]) + Details(results[1..])
  }

  /** The details of two runs of pages are the details of each, one after the other. */
  lemma {:induction false} DetailsConcat(a: seq<SearchResult>, b: seq<SearchResult>)
    ensures Details(a + b) == Details(a) + Details(b)
    decreases |a|
  {
    if |a| > 0 {
      assert (a + b)[0] == a[0];
      assert (a + b)[1..] == a[1..] + b;
      DetailsConcat(a[1..], b);
    } else {
      assert a + b == b;
    }
  }

  /** What the command prints: the rendered table or JSON, then (outside JSON mode) the page details. */
  datatype ContentsPrinted = ContentsPrinted(rendered: Output.Rendered, details: string)

  /** `runContents` after the response arrived. */
  function ContentsOutput(resp: ContentsResponse, opts: Output.Options, jq: (string, Json) -> Output.JqOutcome,
                          noColorEnv: string, tty: bool, formatCost: real -> string): (out: ContentsPrinted)
    ensures opts.mode == Output.JsonMode ==>
              out.rendered == Output.JsonRendered(Output.RenderJsonOutput(ContentsResponseJson(resp), opts, jq)) &&
              out.details == ""
    ensures opts.mode != Output.JsonMode ==>
              out.rendered == Output.RenderTable(ContentsTable(resp, formatCost), ContentsResponseJson(resp), opts, jq, noColorEnv, tty) &&
              out.details == Details(resp.results)
  {
    if opts.mode == Output.JsonMode then
      ContentsPrinted(Output.JsonRendered(Output.RenderJsonOutput(ContentsResponseJson(resp), opts, jq)), "")
    else
      ContentsPrinted(Output.RenderTable(ContentsTable(resp, formatCost), ContentsResponseJson(resp), opts, jq, noColorEnv, tty),
                      Details(resp.results))
  }
}

=== FILE: cmd_context.dfy ===
/**
 * The `context` command (cmd/context.go) and the cost lookup of its response
 * (`ContextResponse.GetCost` in pkg/api/types.go). The cost arrives either as an object or
 * as a string holding the object's JSON text; the first decoding that works is remembered.
 * Decoding is an input: `decodeCost` reads a cost object out of a JSON document and
 * `parseCost` parses JSON text into one; both fail with `None`.
 */
module ContextCmd {
  import opened Wrappers
  import opened GoStrings
  import opened JsonValue
  import opened ApiTypes
  import Output

  /** `runContext` up to the client call: a positive `--tokens` is sent as a number, anything else as `"dynamic"`. */
  function BuildContextRequest(args: seq<string>, tokens: int): (r: ContextRequest)
    ensures r.query == Join(args, " ")
    ensures r.tokensNum.TokenCount? <==> tokens > 0
    ensures r.tokensNum.TokenCount? ==> r.tokensNum.count == tokens
  {
    ContextRequest(Join(args, " "), if tokens > 0 then TokenCount(tokens) else Dynamic)
  }

  /** The token budget is always on the wire: the number itself, or the string `"dynamic"` for 0 and below. */
  lemma ContextTokensOnWire(args: seq<string>, tokens: int)
    ensures var m := ContextRequestJson(BuildContextRequest(args, tokens)).fields;
            m.Keys == {"query", "tokensNum"} &&
            m["tokensNum"] == if tokens > 0 then Num(tokens as real) else Str("dynamic")
  {
    ContextRequestOnWire(BuildContextRequest(args, tokens));
  }

  /** The outcome of one cost lookup: the cost found, and the cache after the lookup. */
  datatype CostLookup = CostLookup(cost: Option<CostInfo>, cache: Option<CostInfo>)

  /** `GetCost` as a function of the cache and the raw cost document. */
  function ResolveCost(cache: Option<CostInfo>, raw: Option<Json>,
                       decodeCost: Json -> Option<CostInfo>, parseCost: string -> Option<CostInfo>): (l: CostLookup)
    ensures cache.Some? ==> l == CostLookup(cache, cache)
    ensures cache.None? && raw.None? ==> l == CostLookup(None, None)
    ensures cache.None? && raw.Some? && decodeCost(raw.value).Some? ==>
              l.cost == decodeCost(raw.value) && l.cache == l.cost
    ensures cache.None? && raw.Some? && decodeCost(raw.value).None? && raw.value.Str? && parseCost(raw.value.s).Some? ==>
              l.cost == parseCost(raw.value.s) && l.cache == l.cost
    ensures cache.None? && raw.Some? && decodeCost(raw.value).None? && !(raw.value.Str? && parseCost(raw.value.s).Some?) ==>
              l == CostLookup(None, None)
    ensures l.cost.None? ==> l.cache == cache
    ensures l.cost.Some? ==> l.cache == l.cost
  {
    if cache.Some? then CostLookup(cache, cache)
    else if raw.None? then CostLookup(None, None)
    else match decodeCost(raw.value)
      case Some(c) => CostLookup(Some(c), Some(c))
      case None =>
        if raw.value.Str? && parseCost(raw.value.s).Some? then
          var c := parseCost(raw.value.s);
          CostLookup(c, c)
        else CostLookup(None, None)
  }

  /** Looking the cost up a second time gives the first answer, and leaves the cache as the first lookup left it. */
  lemma ResolveCostIdempotent(cache: Option<CostInfo>, raw: Option<Json>,
                              decodeCost: Json -> Option<CostInfo>, parseCost: string -> Option<CostInfo>)
    ensures var first := ResolveCost(cache, raw, decodeCost, parseCost);
            ResolveCost(first.cache, raw, decodeCost, parseCost) == first
  {
  }

  /** A cost found once is returned from then on, whatever the decoders would now say. */
  lemma CachedCostWins(c: CostInfo, raw: Option<Json>,
                       d1: Json -> Option<CostInfo>, p1: string -> Option<CostInfo>,
                       d2: Json -> Option<CostInfo>, p2: string -> Option<CostInfo>)
    ensures ResolveCost(Some(c), raw, d1, p1) == ResolveCost(Some(c), raw, d2, p2)
  {
  }

  /** The response with its cost cache (`ParsedCost`), as the command holds it. */
  class ContextResult {
    const response: ContextResponse
    var parsedCost: Option<CostInfo>

    constructor (response: ContextResponse)
      ensures this.response == response && parsedCost.None?
    {
      this.response := response;
      parsedCost := None;
    }

    /** `GetCost`: answer from the cache, or decode and remember a successful result. */
    method GetCost(decodeCost: Json -> Option<CostInfo>, parseCost: string -> Option<CostInfo>) returns (cost: Option<CostInfo>)
      modifies this
      ensures var l := ResolveCost(old(parsedCost), response.costDollars, decodeCost, parseCost);
              cost == l.cost && parsedCost == l.cache
    {
      var l := ResolveCost(parsedCost, response.costDollars, decodeCost, parseCost);
      parsedCost := l.cache;
      cost := l.cost;
    }
  }

  /** What the command prints outside JSON mode: the context on standard output, the cost line on standard error. */
  datatype ContextPrinted = ContextPrinted(stdout: string, stderr: string)

  /** `runContext` after the response arrived, outside JSON mode; `%.4f` formatting is an input. */
  function ContextText(resp: ContextResponse, cost: Option<CostInfo>, formatCost: real -> string): (p: ContextPrinted)
    ensures p.stdout == resp.context + "\n"
    ensures p.stderr != "" <==> cost.Some?
    ensures cost.Some? ==> p.stderr == "\nCost: $" + formatCost(cost.value.total) + "\n"
  {
    ContextPrinted(resp.context + "\n", if cost.Some? then "\nCost: $" + formatCost(cost.value.total) + "\n" else "")
  }

  /** What `runContext` writes: the JSON output in JSON mode, the context and cost line otherwise. */
  datatype ContextRendered = ContextJson(json: Output.JsonOutput) | ContextPlain(printed: ContextPrinted)

  /** The full output of `runContext`; the cost line is looked up on a fresh response, so with an empty cache. */
  function ContextOutput(resp: ContextResponse, opts: Output.Options, jq: (string, Json) -> Output.JqOutcome,
                         decodeCost: Json -> Option<CostInfo>, parseCost: string -> Option<CostInfo>,
                         formatCost: real -> string): (out: ContextRendered)
    ensures opts.mode == Output.JsonMode ==> out == ContextJson(Output.RenderJsonOutput(ContextResponseJson(resp), opts, jq))
    ensures opts.mode != Output.JsonMode ==> out.ContextPlain? && out.printed.stdout == resp.context + "\n"
    ensures opts.mode != Output.JsonMode ==>
              (out.printed.stderr != "" <==> ResolveCost(None, resp.costDollars, decodeCost, parseCost).cost.Some?)
  {
    if opts.mode == Output.JsonMode then ContextJson(Output.RenderJsonOutput(ContextResponseJson(resp), opts, jq))
    else ContextPlain(ContextText(resp, ResolveCost(None, resp.costDollars, decodeCost, parseCost).cost, formatCost))
  }

  /** Without a cost document no cost line is printed. */
  lemma NoCostDocumentNoCostLine(resp: ContextResponse, opts: Output.Options, jq: (string, Json) -> Output.JqOutcome,
                                 decodeCost: Json -> Option<CostInfo>, parseCost: string -> Option<CostInfo>,
                                 formatCost: real -> string)
    requires opts.mode != Output.JsonMode && resp.costDollars.None?
    ensures ContextOutput(resp, opts, jq, decodeCost, parseCost, formatCost) == ContextPlain(ContextPrinted(resp.context + "\n", ""))
  {
  }
}

=== FILE: cmd_root.dfy ===
/**
 * The root command (cmd/root.go): the global output flags, the authenticated client every
 * subcommand starts from, and the error report printed when a command fails. The process
 * environment and the credential file are inputs.
 */
module RootCmd {
  import opened Wrappers
  import opened JsonValue
  import Output
  import Auth
  import Client
  import Errors
  import ErrorSources

  /** The persistent flags shared by every subcommand. */
  datatype GlobalFlags = GlobalFlags(json: bool, plaintext: bool, noColor: bool, debug: bool, fields: string, jq: string)

  /** `GetOutputOptions`: `--json` beats `--plaintext`, which beats the table; the other flags are copied. */
  function GetOutputOptions(g: GlobalFlags): (o: Output.Options)
    ensures o.mode == Output.JsonMode <==> g.json
    ensures o.mode == Output.PlaintextMode <==> !g.json && g.plaintext
    ensures o.mode == Output.TableMode <==> !g.json && !g.plaintext
    ensures o.noColor == g.noColor && o.debug == g.debug && o.fields == g.fields && o.jq == g.jq
  {
    Output.Options(
      if g.json then Output.JsonMode else if g.plaintext then Output.PlaintextMode else Output.TableMode,
      g.noColor, g.debug, g.fields, g.jq)
  }

  /** Only the three mode flags decide the mode; the mode and the copied flags determine the flags back. */
  lemma OutputOptionsDetermineFlags(g: GlobalFlags, h: GlobalFlags)
    requires GetOutputOptions(g) == GetOutputOptions(h)
    ensures g.json == h.json && g.noColor == h.noColor && g.debug == h.debug && g.fields == h.fields && g.jq == h.jq
    ensures !g.json ==> g.plaintext == h.plaintext
  {
  }

  /** What `newClient` reads: `EXA_API_KEY`, the credential file's key (`None` when unreadable), `EXA_API_URL`. */
  datatype Environment = Environment(envKey: string, storedKey: Option<string>, envUrl: string)

  /** `newClient`: the credential error is passed on unchanged; otherwise a client for the resolved base URL. */
  function NewClientFrom(env: Environment): (r: Result<Client.Client, string>)
    ensures r.Failure? <==> Auth.GetApiKey(env.envKey, env.storedKey).Failure?
    ensures r.Failure? ==> r.error == Auth.GetApiKey(env.envKey, env.storedKey).error
    ensures r.Success? ==> r.value == Client.NewClient(Auth.GetBaseUrl(env.envUrl), Auth.GetApiKey(env.envKey, env.storedKey).value)
    ensures r.Success? ==> r.value.apiKey != ""
  {
    match Auth.GetApiKey(env.envKey, env.storedKey)
    case Failure(e) => Failure(e)
    case Success(key) => Success(Client.NewClient(Auth.GetBaseUrl(env.envUrl), key))
  }

  /** A subcommand run: build the client first, then hand it to the rest of the command. */
  function WithClient<T>(env: Environment, run: Client.Client -> Result<T, string>): (r: Result<T, string>)
    ensures NewClientFrom(env).Failure? ==> r == Failure(NewClientFrom(env).error)
    ensures NewClientFrom(env).Success? ==> r == run(NewClientFrom(env).value)
  {
    match NewClientFrom(env)
    case Failure(e) => Failure(e)
    case Success(c) => run(c)
  }

  /** Without credentials nothing of the command runs: any two commands fail the same way. */
  lemma NoCredentialsNoRequest<T>(env: Environment, run1: Client.Client -> Result<T, string>, run2: Client.Client -> Result<T, string>)
    requires env.envKey == "" && (env.storedKey.None? || env.storedKey == Some(""))
    ensures WithClient(env, run1) == WithClient(env, run2)
    ensures WithClient(env, run1).Failure?
  {
  }

  /** `Execute`: a failed command reports its error through `RenderError` in the mode the flags select. */
  function Execute(err: Option<string>, g: GlobalFlags): (d: Option<Output.Diagnostic>)
    ensures d.None? <==> err.None?
    ensures err.Some? && g.json ==> d == Some(Output.JsonDiagnostic(Errors.CliErrorJson(Errors.ToStructuredError(err.value))))
    ensures err.Some? && !g.json ==> d == Some(Output.LineDiagnostic("Error: " + err.value))
  {
    match err
    case None => None
    case Some(msg) => Some(Errors.RenderError(msg, GetOutputOptions(g)))
  }

  /** With no key anywhere, `--json` reports the code `AUTH_REQUIRED`, marked recoverable. */
  lemma MissingKeyReportedAsAuthRequired<T>(envUrl: string, run: Client.Client -> Result<T, string>, g: GlobalFlags)
    requires g.json
    ensures var r := WithClient(Environment("", None, envUrl), run);
            r.Failure? &&
            var d := Execute(Some(r.error), g).value;
            d.JsonDiagnostic? && d.document.fields["code"] == Str("AUTH_REQUIRED") && d.document.fields["recoverable"] == Bool(true)
  {
    ErrorSources.MissingKeyIsAuthRequired();
  }

  /** An empty key in the credential file is not classified: `--json` reports `UNKNOWN`, not recoverable. */
  lemma EmptyStoredKeyReportedAsUnknown<T>(envUrl: string, run: Client.Client -> Result<T, string>, g: GlobalFlags)
    requires g.json
    ensures var r := WithClient(Environment("", Some(""), envUrl), run);
            r.Failure? &&
            var d := Execute(Some(r.error), g).value;
            d.JsonDiagnostic? && d.document.fields["code"] == Str("UNKNOWN") && d.document.fields["recoverable"] == Bool(false)
  {
    ErrorSources.EmptyStoredKeyIsUnknown();
  }
}

=== FILE: cmd_search.dfy ===
/**
 * The `search` command (cmd/search.go): the request built from the command-line flags, and
 * the rows of the result table. The date suffix, the livecrawl rule and `truncateStr` are
 * shared with the contents and find-similar commands.
 */
module SearchCmd {
  import opened Wrappers
  import opened GoStrings
  import opened JsonValue
  import opened ApiTypes
  import Output
  import Fields

  /** The flags of `exa search`. */
  datatype SearchFlags = SearchFlags(
    numResults: int,
    searchType: string,
    category: string,
    includeDomains: seq<string>,
    excludeDomains: seq<string>,
    startDate: string,
    endDate: string,
    includeText: string,
    excludeText: string,
    text: bool,
    textMax: int,
    highlights: bool,
    summary: bool,
    noContents: bool,
    maxAgeHours: int,
    moderation: bool,
    subpages: int)

  /** The flag defaults: 25 results, type `auto`, 10000 text chars, cache age -1 (use the cache). */
  const DefaultFlags := SearchFlags(25, "auto", "", [], [], "", "", "", "", false, 10000, false, false, false, -1, false, 0)

  /** Midnight UTC, appended to a `YYYY-MM-DD` flag to form an RFC 3339 (section 5.6) date-time. */
  const MidnightUtc := "T00:00:00.000Z"

  /** A date flag as sent: empty stays empty (and is omitted), anything else gets the midnight suffix. */
  function ExpandDate(d: string): (r: string)
    ensures d == "" <==> r == ""
    ensures d != "" ==> |r| == |d| + |MidnightUtc| && IsPrefix(d, r)
  {
    if d == "" then "" else d + MidnightUtc
  }

  /** Two different date flags are never sent as the same text. */
  lemma ExpandDateInjective(a: string, b: string)
    requires ExpandDate(a) == ExpandDate(b)
    ensures a == b
  {
    if a != "" && b != "" {
      assert a == ExpandDate(a)[..|a|];
    }
  }

  /** The livecrawl tri-state of `--max-age-hours`: unset below 0, `always` at 0, `fallback` above. */
  function Livecrawl(maxAgeHours: int): (r: string)
    ensures r == "" <==> maxAgeHours < 0
    ensures r == "always" <==> maxAgeHours == 0
    ensures r == "fallback" <==> maxAgeHours > 0
  {
    if maxAgeHours < 0 then "" else if maxAgeHours == 0 then "always" else "fallback"
  }

  /** Whether any content option was asked for. */
  predicate WantsContents(f: SearchFlags) {
    f.text || f.highlights || f.summary || f.maxAgeHours >= 0 || f.subpages > 0
  }

  /** The content spec of a search, before `--no-contents` is consulted. */
  function SearchContentsSpec(f: SearchFlags): (c: ContentsSpec)
    ensures c.text.Some? <==> f.text
    ensures c.text.Some? ==> c.text.value.maxCharacters == f.textMax && !c.text.value.includeHtmlTags
    ensures c.highlights.Some? <==> f.highlights
    ensures c.summary.Some? <==> f.summary
    ensures c.livecrawl == Livecrawl(f.maxAgeHours)
    ensures c.subpages == (if f.subpages > 0 then f.subpages else 0)
    ensures c.subpageTarget == [] && c.extras.None?
  {
    NoContentOptions.(
      text := if f.text then Some(TextSpec(f.textMax, false)) else None,
      highlights := if f.highlights then Some(HighlightsSpec(0, 0, "")) else None,
      summary := if f.summary then Some(SummarySpec("")) else None,
      livecrawl := Livecrawl(f.maxAgeHours),
      subpages := if f.subpages > 0 then f.subpages else 0)
  }

  /** `runSearch` up to the client call. */
  function BuildSearchRequest(args: seq<string>, f: SearchFlags): (r: SearchRequest)
    ensures r.query == Join(args, " ")
    ensures r.numResults == f.numResults
    ensures r.searchType == (if f.searchType == "auto" then "" else f.searchType)
    ensures r.category == f.category && r.includeText == f.includeText && r.excludeText == f.excludeText
    ensures r.includeDomains == f.includeDomains && r.excludeDomains == f.excludeDomains
    ensures r.startPublishedDate == ExpandDate(f.startDate) && r.endPublishedDate == ExpandDate(f.endDate)
    ensures r.startCrawlDate == "" && r.endCrawlDate == ""
    ensures r.moderation == (if f.moderation then Some(true) else None)
    ensures r.contents.Some? <==> !f.noContents && WantsContents(f)
    ensures r.contents.Some? ==> r.contents.value == SearchContentsSpec(f)
  {
    SearchRequest(
      Join(args, " "),
      if f.searchType != "auto" then f.searchType else "",
      f.numResults,
      f.category,
      f.includeDomains,
      f.excludeDomains,
      ExpandDate(f.startDate),
      ExpandDate(f.endDate),
      "", "",
      f.includeText,
      f.excludeText,
      if f.moderation then Some(true) else None,
      if !f.noContents && WantsContents(f) then Some(SearchContentsSpec(f)) else None)
  }

  /** With `--no-contents` no content flag has any effect on the request. */
  lemma NoContentsOverridesContentFlags(args: seq<string>, f: SearchFlags, g: SearchFlags)
    requires f.noContents && g.noContents
    requires f.(text := g.text, textMax := g.textMax, highlights := g.highlights, summary := g.summary,
                maxAgeHours := g.maxAgeHours, subpages := g.subpages) == g
    ensures BuildSearchRequest(args, f) == BuildSearchRequest(args, g)
  {
  }

  /** Query words without spaces can be read back from the query by splitting at spaces. */
  lemma QueryWordsReadBack(args: seq<string>, f: SearchFlags)
    requires |args| > 0 && forall i | 0 <= i < |args| :: ' ' !in args[i]
    ensures Split(BuildSearchRequest(args, f).query, ' ') == args
  {
    JoinThenSplit(args, ' ');
  }

  /**
   * On the wire: the query always; `type` exactly when the flag is neither `auto` nor empty;
   * `contents` exactly when some content option was asked for and `--no-contents` is off.
   */
  lemma SearchRequestOnWire(args: seq<string>, f: SearchFlags)
    ensures var m := SearchRequestJson(BuildSearchRequest(args, f)).fields;
            "query" in m && m["query"] == Str(Join(args, " ")) &&
            ("type" in m <==> f.searchType != "auto" && f.searchType != "") &&
            ("contents" in m <==> !f.noContents && WantsContents(f))
  {
    var r := BuildSearchRequest(args, f);
    SearchContentsOnWire(r);
    UniqueKeyOnWire(SearchRequestFields(r), 1);
  }

  /** `truncateStr`: at most `max` bytes, the last three replaced by `"..."` when cut. Callers pass `max >= 3`. */
  function TruncateStr(s: string, max: int): (r: string)
    requires max >= 3
    ensures |r| <= max
    ensures |s| <= max ==> r == s
    ensures |s| > max ==> |r| == max && r[..max - 3] == s[..max - 3] && r[max - 3..] == "..."
  {
    if |s| <= max then s else s[..max - 3] + "..."
  }

  /** A cut title is not cut again. */
  lemma TruncateStrIdempotent(s: string, max: int)
    requires max >= 3
    ensures TruncateStr(TruncateStr(s, max), max) == TruncateStr(s, max)
  {
  }

  /** The date column of the search table: the first ten bytes (`YYYY-MM-DD`) of a longer date, else the date itself. */
  function SearchDate(published: string): (date: string)
    ensures IsPrefix(date, published) && |date| <= 10
    ensures |date| == if |published| >= 10 then 10 else |published|
  {
    if |published| >= 10 then published[..10] else published
  }

  /** Showing a shown date again changes nothing. */
  lemma SearchDateIdempotent(published: string)
    ensures SearchDate(SearchDate(published)) == SearchDate(published)
  {
  }

  const SearchHeaders := ["TITLE", "URL", "DATE", "SCORE"]

  /** One table row: title cut to 50 bytes, URL, date column, and the score as formatted by `%.2f`. */
  function SearchRow(r: SearchResult, formatScore: real -> string): (row: seq<string>)
    ensures |row| == |SearchHeaders|
    ensures row[0] == TruncateStr(r.title, 50) && row[1] == r.url
    ensures row[2] == SearchDate(r.publishedDate) && row[3] == formatScore(r.score)
  {
    [TruncateStr(r.title, 50), r.url, SearchDate(r.publishedDate), formatScore(r.score)]
  }

  /**
   * The table of a search response: one row per result in order, and a footer with the
   * result count and the search type, preceded by the cost when the response has one.
   * `%.2f` and `%.4f` formatting are inputs.
   */
  function SearchTable(resp: SearchResponse, searchType: string,
                       formatScore: real -> string, formatCost: real -> string): (td: Output.TableData)
    ensures td.headers == SearchHeaders
    ensures |td.rows| == |resp.results|
    ensures forall i | 0 <= i < |resp.results| :: td.rows[i] == SearchRow(resp.results[i], formatScore)
    ensures var count := Decimal(|resp.results|) + " results | Type: " + searchType;
            td.footer == if resp.costDollars.Some? then "Cost: $" + formatCost(resp.costDollars.value.total) + " | " + count else count
  {
    var count := Decimal(|resp.results|) + " results | Type: " + searchType;
    Output.TableData(
      SearchHeaders,
      seq(|resp.results|, i requires 0 <= i < |resp.results| => SearchRow(resp.results[i], formatScore)),
      if resp.costDollars.Some? then "Cost: $" + formatCost(resp.costDollars.value.total) + " | " + count else count)
  }

  /** In plaintext mode a search prints a header line and then exactly one line per result. */
  lemma SearchPlaintextLines(resp: SearchResponse, searchType: string, fs: real -> string, fc: real -> string)
    ensures var lines := Output.RenderPlaintext(SearchTable(resp, searchType, fs, fc));
            |lines| == |resp.results| + 1 && lines[0] == "TITLE\tURL\tDATE\tSCORE"
  {
    var td := SearchTable(resp, searchType, fs, fc);
    assert Join(td.headers, "\t") == "TITLE\tURL\tDATE\tSCORE";
  }

  /** `runSearch` after the response arrived: the raw response in JSON mode, the table otherwise. */
  function SearchOutput(resp: SearchResponse, searchType: string, opts: Output.Options,
                        jq: (string, Json) -> Output.JqOutcome, noColorEnv: string, tty: bool,
                        formatScore: real -> string, formatCost: real -> string): (out: Output.Rendered)
    ensures opts.mode == Output.JsonMode ==>
              out == Output.JsonRendered(Output.RenderJsonOutput(SearchResponseJson(resp), opts, jq))
    ensures opts.mode != Output.JsonMode ==>
              out == Output.RenderTable(SearchTable(resp, searchType, formatScore, formatCost), SearchResponseJson(resp),
                                        opts, jq, noColorEnv, tty)
  {
    if opts.mode == Output.JsonMode then Output.JsonRendered(Output.RenderJsonOutput(SearchResponseJson(resp), opts, jq))
    else Output.RenderTable(SearchTable(resp, searchType, formatScore, formatCost), SearchResponseJson(resp),
                            opts, jq, noColorEnv, tty)
  }

  /** `--fields title,url` selects exactly the two keys. */
  lemma TitleUrlSelection()
    ensures Fields.FieldList("title,url") == {"title", "url"}
  {
    assert Join(["title", "url"], ",") == "title,url";
    Fields.FieldListOfNames(["title", "url"]);
  }

  /** The title and URL of a result, as the object the projection keeps. */
  function TitleUrl(r: SearchResult): Json {
    Object(map["title" := Str(r.title), "url" := Str(r.url)])
  }

  /** Projecting one sent result on title and URL keeps exactly those two values. */
  lemma ResultProjectedOnTitleUrl(r: SearchResult)
    ensures Fields.FilterMap(SearchResultJson(r).fields, {"title", "url"}) == TitleUrl(r).fields
  {
    SearchResultCoreKeys(r);
  }

  /** Field selection on a search response with `title,url`: one title-and-URL object per result. */
  lemma SearchResponseTitleUrl(resp: SearchResponse)
    ensures var r := Fields.FilterFields(SearchResponseJson(resp), "title,url");
            r.Array? && |r.items| == |resp.results| &&
            forall i | 0 <= i < |resp.results| :: r.items[i] == TitleUrl(resp.results[i])
  {
    var data := SearchResponseJson(resp);
    SearchResponseEnvelope(resp);
    var r := Fields.FilterFields(data, "title,url");
    assert r.Array? && |r.items| == |resp.results|;
    forall i | 0 <= i < |resp.results|
      ensures r.items[i] == TitleUrl(resp.results[i])
    {
      ResultItemTitleUrl(resp, i);
    }
  }

  /** The `i`-th item of the `title,url` selection is the `i`-th result's title and URL. */
  lemma ResultItemTitleUrl(resp: SearchResponse, i: int)
    requires 0 <= i < |resp.results|
    ensures var r := Fields.FilterFields(SearchResponseJson(resp), "title,url");
            r.Array? && |r.items| == |resp.results| && r.items[i] == TitleUrl(resp.results[i])
  {
    var data := SearchResponseJson(resp);
    SearchResponseEnvelope(resp);
    var result := data.fields["results"].items[i];
    assert result == SearchResultJson(resp.results[i]);
    Fields.EnvelopeFlattened(data, "title,url", i);
    var r := Fields.FilterFields(data, "title,url");
    assert r.items[i] == Object(Fields.FilterMap(result.fields, Fields.FieldList("title,url")));
    TitleUrlSelection();
    ResultProjectedOnTitleUrl(resp.results[i]);
  }

  /**
   * `exa search ... --json --fields title,url` prints a flat array with one object per result
   * holding exactly its title and URL: the envelope and every other key are gone.
   */
  lemma SearchFieldsTitleUrl(resp: SearchResponse, opts: Output.Options, jq: (string, Json) -> Output.JqOutcome)
    requires opts.mode == Output.JsonMode && opts.fields == "title,url" && opts.jq == ""
    ensures var out := SearchOutput(resp, "", opts, jq, "", false, x => "", x => "").out;
            out.err.None? && |out.printed| == 1 &&
            out.printed[0].Array? && |out.printed[0].items| == |resp.results| &&
            forall i | 0 <= i < |resp.results| :: out.printed[0].items[i] == TitleUrl(resp.results[i])
  {
    SearchResponseTitleUrl(resp);
  }
}

=== FILE: cmd_similar.dfy ===
/**
 * The `similar` command (cmd/similar.go): the find-similar request built from the URL and
 * flags, and the result table, whose date column differs from the search table's.
 */
module SimilarCmd {
  import opened Wrappers
  import opened GoStrings
  import opened JsonValue
  import opened ApiTypes
  import Output
  import SearchCmd

  /** The flags of `exa similar`. */
  datatype SimilarFlags = SimilarFlags(
    numResults: int,
    excludeSource: bool,
    includeDomains: seq<string>,
    excludeDomains: seq<string>,
    startDate: string,
    endDate: string,
    text: bool,
    highlights: bool,
    category: string)

  /** The flag defaults: 10 results, nothing else set. */
  const DefaultFlags := SimilarFlags(10, false, [], [], "", "", false, false, "")

  /** The text budget of a find-similar request is fixed, whatever `--text-max-chars` elsewhere says. */
  const SimilarTextMax := 10000

  /** `runSimilar` up to the client call; the command takes exactly one argument, the URL. */
  function BuildSimilarRequest(url: string, f: SimilarFlags): (r: FindSimilarRequest)
    ensures r.url == url && r.numResults == f.numResults && r.excludeSourceDomain == f.excludeSource
    ensures r.includeDomains == f.includeDomains && r.excludeDomains == f.excludeDomains && r.category == f.category
    ensures r.startPublishedDate == SearchCmd.ExpandDate(f.startDate) && r.endPublishedDate == SearchCmd.ExpandDate(f.endDate)
    ensures r.contents.Some? <==> f.text || f.highlights
    ensures r.contents.Some? ==>
              (r.contents.value.text.Some? <==> f.text) && (r.contents.value.highlights.Some? <==> f.highlights) &&
              (f.text ==> r.contents.value.text.value.maxCharacters == SimilarTextMax) &&
              r.contents.value.summary.None? && r.contents.value.livecrawl == "" && r.contents.value.subpages == 0
  {
    FindSimilarRequest(
      url,
      f.numResults,
      f.includeDomains,
      f.excludeDomains,
      SearchCmd.ExpandDate(f.startDate),
      SearchCmd.ExpandDate(f.endDate),
      f.excludeSource,
      f.category,
      if f.text || f.highlights then
        Some(NoContentOptions.(
          text := if f.text then Some(TextSpec(SimilarTextMax, false)) else None,
          highlights := if f.highlights then Some(HighlightsSpec(0, 0, "")) else None))
      else None)
  }

  /** On the wire: the URL always, `contents` exactly when text or highlights were asked for. */
  lemma SimilarRequestOnWire(url: string, f: SimilarFlags)
    ensures var m := FindSimilarRequestJson(BuildSimilarRequest(url, f)).fields;
            "url" in m && m["url"] == Str(url) && ("contents" in m <==> f.text || f.highlights)
  {
    FindSimilarUrlOnWire(BuildSimilarRequest(url, f));
  }

  /** The date column: the first ten bytes of a date that has them, otherwise nothing. */
  function SimilarDate(published: string): (date: string)
    ensures |published| >= 10 ==> date == published[..10]
    ensures |published| < 10 ==> date == ""
  {
    if published != "" && |published| >= 10 then published[..10] else ""
  }

  /** The two date columns agree except on a non-empty date shorter than ten bytes, which only search shows. */
  lemma DateColumnsDiffer(published: string)
    ensures SimilarDate(published) != SearchCmd.SearchDate(published) <==> 0 < |published| < 10
    ensures 0 < |published| < 10 ==> SimilarDate(published) == "" && SearchCmd.SearchDate(published) == published
  {
  }

  /** One table row: title cut to 50 bytes, URL, date column, and the score as formatted by `%.2f`. */
  function SimilarRow(r: SearchResult, formatScore: real -> string): (row: seq<string>)
    ensures |row| == 4 && row[1] == r.url && row[3] == formatScore(r.score)
    ensures row[0] == SearchCmd.TruncateStr(r.title, 50) && row[2] == SimilarDate(r.publishedDate)
  {
    [SearchCmd.TruncateStr(r.title, 50), r.url, SimilarDate(r.publishedDate), formatScore(r.score)]
  }

  /** The table: one row per result in order, and a footer counting the similar pages. */
  function SimilarTable(resp: FindSimilarResponse, formatScore: real -> string, formatCost: real -> string): (td: Output.TableData)
    ensures td.headers == SearchCmd.SearchHeaders && |td.rows| == |resp.results|
    ensures forall i | 0 <= i < |resp.results| :: td.rows[i] == SimilarRow(resp.results[i], formatScore)
    ensures var count := Decimal(|resp.results|) + " similar pages";
            td.footer == if resp.costDollars.Some? then "Cost: $" + formatCost(resp.costDollars.value.total) + " | " + count else count
  {
    var count := Decimal(|resp.results|) + " similar pages";
    Output.TableData(
      SearchCmd.SearchHeaders,
      seq(|resp.results|, i requires 0 <= i < |resp.results| => SimilarRow(resp.results[i], formatScore)),
      if resp.costDollars.Some? then "Cost: $" + formatCost(resp.costDollars.value.total) + " | " + count else count)
  }

  /** Search and similar tables of the same results differ only in the date column of short dates. */
  lemma SimilarRowMatchesSearchRow(r: SearchResult, formatScore: real -> string)
    requires |r.publishedDate| == 0 || |r.publishedDate| >= 10
    ensures SimilarRow(r, formatScore) == SearchCmd.SearchRow(r, formatScore)
  {
    DateColumnsDiffer(r.publishedDate);
  }

  /** `runSimilar` after the response arrived: the raw response in JSON mode, the table otherwise. */
  function SimilarOutput(resp: FindSimilarResponse, opts: Output.Options, jq: (string, Json) -> Output.JqOutcome,
                         noColorEnv: string, tty: bool, formatScore: real -> string, formatCost: real -> string): (out: Output.Rendered)
    ensures opts.mode == Output.JsonMode ==>
              out == Output.JsonRendered(Output.RenderJsonOutput(FindSimilarResponseJson(resp), opts, jq))
    ensures opts.mode != Output.JsonMode ==>
              out == Output.RenderTable(SimilarTable(resp, formatScore, formatCost), FindSimilarResponseJson(resp), opts, jq, noColorEnv, tty)
  {
    if opts.mode == Output.JsonMode then Output.JsonRendered(Output.RenderJsonOutput(FindSimilarResponseJson(resp), opts, jq))
    else Output.RenderTable(SimilarTable(resp, formatScore, formatCost), FindSimilarResponseJson(resp), opts, jq, noColorEnv, tty)
  }
}

=== FILE: cmd_usage.dfy ===
/**
 * The `usage` command (cmd/usage.go): the default reporting period, the choice of API key,
 * the usage endpoint asked, and the table with its running totals. Today's date and the date
 * thirty days back are inputs, as is the `%.4f` formatting of credits.
 */
module UsageCmd {
  import opened Wrappers
  import opened GoStrings
  import opened JsonValue
  import opened ApiTypes
  import Output
  import Client

  /** The reporting period, start and end dates as `YYYY-MM-DD` text. */
  datatype Period = Period(start: string, end: string)

  /** An empty `--start-date` means thirty days ago, an empty `--end-date` today; given dates are kept verbatim. */
  function ResolvePeriod(startFlag: string, endFlag: string, today: string, monthAgo: string): (p: Period)
    ensures startFlag != "" ==> p.start == startFlag
    ensures startFlag == "" ==> p.start == monthAgo
    ensures endFlag != "" ==> p.end == endFlag
    ensures endFlag == "" ==> p.end == today
  {
    Period(if startFlag == "" then monthAgo else startFlag, if endFlag == "" then today else endFlag)
  }

  /** Resolving a resolved period again changes nothing, whatever the clock now says (given non-empty defaults). */
  lemma ResolvePeriodIdempotent(startFlag: string, endFlag: string, today: string, monthAgo: string, today': string, monthAgo': string)
    requires today != "" && monthAgo != ""
    ensures var p := ResolvePeriod(startFlag, endFlag, today, monthAgo);
            ResolvePeriod(p.start, p.end, today', monthAgo') == p
  {
  }

  /**
   * The key whose usage is reported: `--key-id` when given; otherwise the first key the
   * listing returns, failing when the listing fails or is empty.
   */
  function SelectKeyId(keyIdFlag: string, listing: Result<seq<ApiKeyInfo>, string>): (r: Result<string, string>)
    ensures keyIdFlag != "" ==> r == Success(keyIdFlag)
    ensures keyIdFlag == "" && listing.Failure? ==> r == Failure("list API keys: " + listing.error)
    ensures keyIdFlag == "" && listing.Success? && |listing.value| == 0 ==> r == Failure("no API keys found")
    ensures keyIdFlag == "" && listing.Success? && |listing.value| > 0 ==> r == Success(listing.value[0].id)
  {
    if keyIdFlag != "" then Success(keyIdFlag)
    else match listing
      case Failure(e) => Failure("list API keys: " + e)
      case Success(keys) =>
        if |keys| == 0 then Failure("no API keys found") else Success(keys[0].id)
  }

  /** With `--key-id` the key listing plays no part: any two listings lead to the same key. */
  lemma KeyFlagSkipsListing(keyIdFlag: string, l1: Result<seq<ApiKeyInfo>, string>, l2: Result<seq<ApiKeyInfo>, string>)
    requires keyIdFlag != ""
    ensures SelectKeyId(keyIdFlag, l1) == SelectKeyId(keyIdFlag, l2) == Success(keyIdFlag)
  {
  }

  /** The endpoint the usage request goes to, or the error that stops the command before it is sent. */
  function UsageEndpoint(keyIdFlag: string, period: Period, listing: Result<seq<ApiKeyInfo>, string>): (r: Result<string, string>)
    ensures r.Success? <==> SelectKeyId(keyIdFlag, listing).Success?
    ensures r.Failure? ==> r.error == SelectKeyId(keyIdFlag, listing).error
    ensures r.Success? ==> r.value == Client.UsagePath(SelectKeyId(keyIdFlag, listing).value, period.start, period.end)
  {
    match SelectKeyId(keyIdFlag, listing)
    case Failure(e) => Failure(e)
    case Success(id) => Success(Client.UsagePath(id, period.start, period.end))
  }

  /** The request count over a run of days. */
  function TotalRequests(entries: seq<UsageEntry>): (total: int)
    ensures |entries| == 0 ==> total == 0
    ensures |entries| == 1 ==> total == entries[0].requestCount
  {
    if |entries| == 0 then 0 else TotalRequests(entries[..|entries| - 1]) + entries[|entries| - 1].requestCount
  }

  /** The credits over a run of days. */
  function TotalCredits(entries: seq<UsageEntry>): (total: real)
    ensures |entries| == 0 ==> total == 0.0
    ensures |entries| == 1 ==> total == entries[0].creditUsage
  {
    if |entries| == 0 then 0.0 else TotalCredits(entries[..|entries| - 1]) + entries[|entries| - 1].creditUsage
  }

  /** Totals add up over consecutive periods. */
  lemma {:induction false} TotalsAppend(a: seq<UsageEntry>, b: seq<UsageEntry>)
    ensures TotalRequests(a + b) == TotalRequests(a) + TotalRequests(b)
    ensures TotalCredits(a + b) == TotalCredits(a) + TotalCredits(b)
    decreases |b|
  {
    if |b| == 0 {
      assert a + b == a;
    } else {
      assert (a + b)[..|a + b| - 1] == a + b[..|b| - 1];
      assert (a + b)[|a + b| - 1] == b[|b| - 1];
      TotalsAppend(a, b[..|b| - 1]);
    }
  }

  /** With no negative day the total is at least each day's count. */
  lemma {:induction false} TotalBoundsEachDay(entries: seq<UsageEntry>, i: int)
    requires forall k | 0 <= k < |entries| :: entries[k].requestCount >= 0
    requires 0 <= i < |entries|
    ensures TotalRequests(entries) >= entries[i].requestCount >= 0
    decreases |entries|
  {
    NonNegativeTotal(entries[..|entries| - 1]);
    if i < |entries| - 1 {
      TotalBoundsEachDay(entries[..|entries| - 1], i);
    }
  }

  /** With no negative day the total is not negative. */
  lemma {:induction false} NonNegativeTotal(entries: seq<UsageEntry>)
    requires forall k | 0 <= k < |entries| :: entries[k].requestCount >= 0
    ensures TotalRequests(entries) >= 0
    decreases |entries|
  {
    if |entries| > 0 {
      NonNegativeTotal(entries[..|entries| - 1]);
    }
  }

  /** The accumulation loop of `runUsage`: both totals, one day at a time. */
  method SumUsage(entries: seq<UsageEntry>) returns (requests: int, credits: real)
    ensures requests == TotalRequests(entries) && credits == TotalCredits(entries)
  {
    requests, credits := 0, 0.0;
    var i := 0;
    while i < |entries|
      invariant 0 <= i <= |entries|
      invariant requests == TotalRequests(entries[..i]) && credits == TotalCredits(entries[..i])
    {
      assert entries[..i + 1][..i] == entries[..i];
      requests := requests + entries[i].requestCount;
      credits := credits + entries[i].creditUsage;
      i := i + 1;
    }
    assert entries[..i] == entries;
  }

  const UsageHeaders := ["DATE", "REQUESTS", "CREDITS"]

  /** One row per day: the date verbatim, the request count in decimal, the credits as `%.4f`. */
  function UsageRow(u: UsageEntry, formatCredits: real -> string): (row: seq<string>)
    ensures |row| == 3 && row[0] == u.date && row[1] == Decimal(u.requestCount) && row[2] == formatCredits(u.creditUsage)
  {
    [u.date, Decimal(u.requestCount), formatCredits(u.creditUsage)]
  }

  /** The request column reads back as the day's count. */
  lemma UsageRowReadsBack(u: UsageEntry, formatCredits: real -> string)
    requires u.requestCount >= 0
    ensures var cell := UsageRow(u, formatCredits)[1];
            IsDigitString(cell) && DigitsValue(cell) == u.requestCount
  {
    DecimalRoundTrip(u.requestCount);
  }

  /** The footer: both totals and the period. */
  function UsageFooter(entries: seq<UsageEntry>, period: Period, formatCredits: real -> string): (footer: string)
    ensures var head := "Total: " + Decimal(TotalRequests(entries)) + " requests, ";
            var tail := " credits | " + period.start + " to " + period.end;
            IsPrefix(head, footer) && IsSuffix(tail, footer) && |head| + |tail| <= |footer| &&
            footer[|head|..|footer| - |tail|] == formatCredits(TotalCredits(entries))
  {
    var head := "Total: " + Decimal(TotalRequests(entries)) + " requests, ";
    var tail := " credits | " + period.start + " to " + period.end;
    var credits := formatCredits(TotalCredits(entries));
    var footer := head + credits + tail;
    PrefixOfConcat(head, credits + tail);
    assert footer == head + (credits + tail);
    SuffixOfConcat(head + credits, tail);
    assert footer[|head|..|footer| - |tail|] == credits;
    footer
  }

  /** The table: one row per day in order, and the totals over the whole period in the footer. */
  function UsageTable(resp: UsageResponse, period: Period, formatCredits: real -> string): (td: Output.TableData)
    ensures td.headers == UsageHeaders && |td.rows| == |resp.usage|
    ensures forall i | 0 <= i < |resp.usage| :: td.rows[i] == UsageRow(resp.usage[i], formatCredits)
    ensures IsPrefix("Total: " + Decimal(TotalRequests(resp.usage)) + " requests, ", td.footer)
    ensures IsSuffix(" credits | " + period.start + " to " + period.end, td.footer)
    ensures td.footer == "Total: " + Decimal(TotalRequests(resp.usage)) + " requests, " +
                         formatCredits(TotalCredits(resp.usage)) + " credits | " + period.start + " to " + period.end
  {
    var footer := UsageFooter(resp.usage, period, formatCredits);
    assert footer == "Total: " + Decimal(TotalRequests(resp.usage)) + " requests, " +
                     formatCredits(TotalCredits(resp.usage)) + " credits | " + period.start + " to " + period.end;
    Output.TableData(UsageHeaders, UsageRows(resp.usage, formatCredits), footer)
  }

  /** One table row per usage entry, in order. */
  function UsageRows(entries: seq<UsageEntry>, formatCredits: real -> string): (rows: seq<seq<string>>)
    ensures |rows| == |entries|
    ensures forall i | 0 <= i < |entries| :: rows[i] == UsageRow(entries[i], formatCredits)
  {
    seq(|entries|, i requires 0 <= i < |entries| => UsageRow(entries[i], formatCredits))
  }

  /** `runUsage` after the client was built. `listing` is what listing the keys returned, `exchange` what the usage request returned. */
  function RunUsage(keyIdFlag: string, startFlag: string, endFlag: string, today: string, monthAgo: string,
                    listing: Result<seq<ApiKeyInfo>, string>, exchange: Client.Exchange,
                    decode: string -> Result<UsageResponse, string>, opts: Output.Options,
                    jq: (string, Json) -> Output.JqOutcome, noColorEnv: string, tty: bool,
                    formatCredits: real -> string): (r: Result<Output.Rendered, string>)
    ensures var period := ResolvePeriod(startFlag, endFlag, today, monthAgo);
            var key := SelectKeyId(keyIdFlag, listing);
            (key.Failure? ==> r == Failure(key.error)) &&
            (key.Success? && Client.DoJson(exchange, decode).Failure? ==> r == Failure(Client.DoJson(exchange, decode).error)) &&
            (key.Success? && Client.DoJson(exchange, decode).Success? ==>
               var resp := Client.DoJson(exchange, decode).value;
               r == Success(if opts.mode == Output.JsonMode then Output.JsonRendered(Output.RenderJsonOutput(UsageResponseJson(resp), opts, jq))
                            else Output.RenderTable(UsageTable(resp, period, formatCredits), UsageResponseJson(resp), opts, jq, noColorEnv, tty)))
  {
    var period := ResolvePeriod(startFlag, endFlag, today, monthAgo);
    match SelectKeyId(keyIdFlag, listing)
    case Failure(e) => Failure(e)
    case Success(_) =>
      match Client.DoJson(exchange, decode)
      case Failure(e) => Failure(e)
      case Success(resp) =>
        if opts.mode == Output.JsonMode then Success(Output.JsonRendered(Output.RenderJsonOutput(UsageResponseJson(resp), opts, jq)))
        else Success(Output.RenderTable(UsageTable(resp, period, formatCredits), UsageResponseJson(resp), opts, jq, noColorEnv, tty))
  }
}

=== FILE: error_sources.dfy ===
/**
 * How the classifier of pkg/output/errors.go reads the errors the rest of the client raises:
 * API errors from a non-2xx status, transport failures, and the credential lookup errors.
 * The classifier only looks for substrings, so each statement needs the free text embedded in
 * the message (a response body, a transport cause) to be free of the markers it looks for;
 * otherwise an earlier marker inside that text wins.
 */
module ErrorSources {
  import opened Wrappers
  import opened GoStrings
  import opened Errors
  import Client
  import Auth

  /** No marker of the classifier occurs in `s`. */
  predicate MarkerFree(s: string) {
    !Contains(s, MissingKeyMarker) && !Contains(s, UnauthorizedMarker) &&
    !Contains(s, RateLimitMarker) && !Contains(s, NetworkMarker)
  }

  /** A text lacking the first char of `p` can be dropped from the front when looking for `p`. */
  lemma SkipLiteral(a: string, b: string, p: string)
    requires |p| >= 2 && p[0] !in a
    ensures Contains(a + b, p) == Contains(b, p)
  {
    SkipPrefix(a, b, p);
  }

  /** A text lacking the first chars of all markers holds none of them. */
  lemma MarkerFreeByLetters(m: string)
    requires 'E' !in m && 's' !in m && 'r' !in m
    ensures MarkerFree(m)
  {
    AbsentHead(m, MissingKeyMarker);
    AbsentHead(m, UnauthorizedMarker);
    AbsentHead(m, RateLimitMarker);
    AbsentHead(m, NetworkMarker);
  }

  /** The tail of an API error after its status word: digits, `"): "` and the cut body. */
  lemma ApiErrorTail(d: string, t: string, p: string)
    requires IsDigitString(d) && |p| >= 2 && !('0' <= p[0] <= '9') && p[0] !in "): "
    requires !Contains(t, p)
    ensures !Contains(d + ("): " + t), p)
  {
    assert forall i | 0 <= i < |d| :: d[i] != p[0];
    SkipLiteral(d, "): " + t, p);
    SkipLiteral("): ", t, p);
  }

  /** The cut body of an API error holds no marker when the full body held none. */
  lemma CutBodyMarkerFree(body: string)
    requires MarkerFree(body)
    ensures MarkerFree(Client.Truncate(body, Client.ErrorBodyLimit))
  {
    Client.TruncateAddsNoMatch(body, Client.ErrorBodyLimit, MissingKeyMarker);
    Client.TruncateAddsNoMatch(body, Client.ErrorBodyLimit, UnauthorizedMarker);
    Client.TruncateAddsNoMatch(body, Client.ErrorBodyLimit, RateLimitMarker);
    Client.TruncateAddsNoMatch(body, Client.ErrorBodyLimit, NetworkMarker);
  }

  /** A message without any marker is an unknown error. */
  lemma MarkerFreeIsUnknown(m: string)
    requires MarkerFree(m)
    ensures ToStructuredError(m).code == Unknown
  {
  }

  /** Without the missing-key and network markers, only the two status markers decide the code. */
  lemma StatusMarkersDecide(m: string)
    requires !Contains(m, MissingKeyMarker) && !Contains(m, NetworkMarker)
    ensures ToStructuredError(m).code ==
            if Contains(m, UnauthorizedMarker) then AuthInvalid else if Contains(m, RateLimitMarker) then RateLimited else Unknown
  {
  }

  /** The two status markers are the status word followed by 401 and 429 in decimal. */
  lemma StatusMarkersAreDecimals()
    ensures UnauthorizedMarker == "status " + Decimal(401)
    ensures RateLimitMarker == "status " + Decimal(429)
  {
  }

  /** The API error text, split where the status word begins. */
  lemma ApiErrorParts(status: int, body: string)
    ensures Client.ApiErrorMessage(status, body) ==
            "API error (" + ("status " + (Decimal(status) + ("): " + Client.Truncate(body, Client.ErrorBodyLimit))))
  {
  }

  /** Neither the missing-key nor the network marker occurs in an API error with a marker-free body. */
  lemma ApiErrorNoKeyOrNetwork(d: string, t: string)
    requires IsDigitString(d) && MarkerFree(t)
    ensures !Contains("API error (" + ("status " + (d + ("): " + t))), MissingKeyMarker)
    ensures !Contains("API error (" + ("status " + (d + ("): " + t))), NetworkMarker)
  {
    var rest := d + ("): " + t);
    ApiErrorTail(d, t, MissingKeyMarker);
    SkipLiteral("status ", rest, MissingKeyMarker);
    SkipLiteral("API error (", "status " + rest, MissingKeyMarker);
    ApiErrorTail(d, t, NetworkMarker);
    SkipLiteral("status ", rest, NetworkMarker);
    assert NoFalseStart("API error (", NetworkMarker);
    SkipPrefix("API error (", "status " + rest, NetworkMarker);
  }

  /** `"status " + d + ...` holds `"status " + Decimal(code)` exactly when `d` is that decimal. */
  lemma StatusMarker(status: int, t: string, p: string, code: int)
    requires 100 <= status <= 999 && 100 <= code <= 999
    requires p == "status " + Decimal(code)
    requires !Contains(t, p)
    ensures Contains("API error (" + ("status " + (Decimal(status) + ("): " + t))), p) <==> status == code
  {
    DecimalThreeDigits(status);
    DecimalThreeDigits(code);
    var d := Decimal(status);
    var s := "status " + (d + ("): " + t));
    SkipLiteral("API error (", s, p);
    if status == code {
      assert IsPrefix(p, s);
      ContainsAt(s, p, 0);
    } else {
      if d == Decimal(code) {
        DecimalInjective(status, code);
      }
      assert s[..|p|][7..10] == d;
      assert p[7..10] == Decimal(code);
      SkipOne(s, p);
      assert s[1..] == "tatus " + (d + ("): " + t));
      assert NoFalseStart("tatus ", p);
      SkipPrefix("tatus ", d + ("): " + t), p);
      ApiErrorTail(d, t, p);
    }
  }

  /**
   * The error for a non-2xx status (client.go) is classified by its status alone: 401 means an
   * invalid key, 429 a rate limit, any other status an unknown error. HTTP status codes have
   * three digits (section 15 of RFC 9110).
   */
  lemma ApiErrorClassified(status: int, body: string)
    requires 100 <= status <= 999
    requires MarkerFree(body)
    ensures ToStructuredError(Client.ApiErrorMessage(status, body)).code ==
            if status == 401 then AuthInvalid else if status == 429 then RateLimited else Unknown
  {
    var t := Client.Truncate(body, Client.ErrorBodyLimit);
    var m := "API error (" + ("status " + (Decimal(status) + ("): " + t)));
    ApiErrorParts(status, body);
    CutBodyMarkerFree(body);
    ApiErrorNoKeyOrNetwork(Decimal(status), t);
    StatusMarkersAreDecimals();
    StatusMarker(status, t, UnauthorizedMarker, 401);
    StatusMarker(status, t, RateLimitMarker, 429);
    StatusMarkersDecide(m);
  }

  /** The API error `doJSON` raises for a 401 response is reported as an invalid key. */
  lemma UnauthorizedResponseIsAuthInvalid<T>(body: string, decode: string -> Result<T, string>)
    requires MarkerFree(body)
    ensures Client.DoJson(Client.Responded(401, body), decode).Failure?
    ensures ToStructuredError(Client.DoJson(Client.Responded(401, body), decode).error).code == AuthInvalid
  {
    ApiErrorClassified(401, body);
  }

  /** The API error `doJSON` raises for a 429 response is reported as a rate limit. */
  lemma TooManyRequestsIsRateLimited<T>(body: string, decode: string -> Result<T, string>)
    requires MarkerFree(body)
    ensures Client.DoJson(Client.Responded(429, body), decode).Failure?
    ensures ToStructuredError(Client.DoJson(Client.Responded(429, body), decode).error).code == RateLimited
  {
    ApiErrorClassified(429, body);
  }

  /** A transport failure is reported as a network error unless its cause names an earlier marker. */
  lemma TransportFailureIsNetworkError<T>(cause: string, decode: string -> Result<T, string>)
    requires !Contains(cause, MissingKeyMarker) && !Contains(cause, UnauthorizedMarker) && !Contains(cause, RateLimitMarker)
    ensures Client.DoJson(Client.TransportFailed(cause), decode).Failure?
    ensures ToStructuredError(Client.DoJson(Client.TransportFailed(cause), decode).error).code == NetworkError
  {
    RequestFailedMarkers(cause);
  }

  /** `"request failed: " + cause` holds the network marker and no marker the cause lacks. */
  lemma RequestFailedMarkers(cause: string)
    ensures Client.RequestFailedPrefix + cause == "reque" + ("st failed: " + cause)
    ensures Contains(Client.RequestFailedPrefix + cause, NetworkMarker)
    ensures !Contains(cause, MissingKeyMarker) ==> !Contains(Client.RequestFailedPrefix + cause, MissingKeyMarker)
    ensures !Contains(cause, UnauthorizedMarker) ==> !Contains(Client.RequestFailedPrefix + cause, UnauthorizedMarker)
    ensures !Contains(cause, RateLimitMarker) ==> !Contains(Client.RequestFailedPrefix + cause, RateLimitMarker)
  {
    var msg := Client.RequestFailedPrefix + cause;
    var tail := "st failed: " + cause;
    assert msg == "reque" + tail;
    assert IsPrefix(NetworkMarker, msg);
    ContainsAt(msg, NetworkMarker, 0);
    SkipLiteral("reque", tail, MissingKeyMarker);
    SkipLiteral("st failed: ", cause, MissingKeyMarker);
    StatusWordAbsent(tail, cause, UnauthorizedMarker);
    StatusWordAbsent(tail, cause, RateLimitMarker);
  }

  /** The `"st"` inside `"request failed: "` does not begin a status marker. */
  lemma StatusWordAbsent(tail: string, cause: string, p: string)
    requires tail == "st failed: " + cause
    requires |p| >= 7 && p[..7] == "status "
    ensures Contains("reque" + tail, p) == Contains(cause, p)
  {
    SkipLiteral("reque", tail, p);
    assert tail[2] == ' ' && p[2] == 'a';
    assert !IsPrefix(p, tail);
    SkipOne(tail, p);
    var rest := tail[1..];
    assert rest == "t failed: " + cause;
    SkipLiteral("t failed: ", cause, p);
  }

  /** A missing credential is reported as `AUTH_REQUIRED`. */
  lemma MissingKeyIsAuthRequired()
    ensures Auth.GetApiKey("", None) == Failure(Auth.MissingKeyMessage)
    ensures ToStructuredError(Auth.MissingKeyMessage).code == AuthRequired
  {
    var m := Auth.MissingKeyMessage;
    assert IsPrefix(MissingKeyMarker, m);
    ContainsAt(m, MissingKeyMarker, 0);
  }

  /**
   * A credential file with an empty key yields an error that matches no marker, so it is
   * reported as `UNKNOWN` and not as an authentication problem.
   */
  lemma EmptyStoredKeyIsUnknown()
    ensures Auth.GetApiKey("", Some("")) == Failure(Auth.NoValidAuthMessage)
    ensures ToStructuredError(Auth.NoValidAuthMessage).code == Unknown
  {
    NoValidAuthLetters();
    MarkerFreeByLetters(Auth.NoValidAuthMessage);
    MarkerFreeIsUnknown(Auth.NoValidAuthMessage);
  }

  /** The empty-key error has none of the letters the markers start with. */
  lemma NoValidAuthLetters()
    ensures 'E' !in Auth.NoValidAuthMessage && 's' !in Auth.NoValidAuthMessage && 'r' !in Auth.NoValidAuthMessage
  {
  }
}

=== FILE: errors.dfy ===
/**
 * The error classifier (pkg/output/errors.go): an ordered substring match over an error's
 * text that yields one of five stable codes with a fixed recoverability and suggestion.
 */
module Errors {
  import opened GoStrings
  import opened JsonValue
  import Output

  datatype Code = AuthRequired | AuthInvalid | RateLimited | NetworkError | Unknown

  function CodeName(c: Code): string {
    match c
    case AuthRequired => "AUTH_REQUIRED"
    case AuthInvalid => "AUTH_INVALID"
    case RateLimited => "RATE_LIMITED"
    case NetworkError => "NETWORK_ERROR"
    case Unknown => "UNKNOWN"
  }

  /** The five codes have five different names. */
  lemma CodeNamesDistinct(a: Code, b: Code)
    requires CodeName(a) == CodeName(b)
    ensures a == b
  {
  }

  /** The substrings looked for, in the order they are tried. */
  const MissingKeyMarker := "EXA_API_KEY"
  const UnauthorizedMarker := "status 401"
  const RateLimitMarker := "status 429"
  const NetworkMarker := "request failed"

  datatype CliError = CliError(code: Code, message: string, recoverable: bool, suggestion: string)

  /** `toStructuredError`: the first marker the message contains decides the code. */
  function ToStructuredError(msg: string): (e: CliError)
    ensures e.code == AuthRequired <==> Contains(msg, MissingKeyMarker)
    ensures e.code == AuthInvalid <==> !Contains(msg, MissingKeyMarker) && Contains(msg, UnauthorizedMarker)
    ensures e.code == RateLimited <==>
              !Contains(msg, MissingKeyMarker) && !Contains(msg, UnauthorizedMarker) && Contains(msg, RateLimitMarker)
    ensures e.code == NetworkError <==>
              !Contains(msg, MissingKeyMarker) && !Contains(msg, UnauthorizedMarker) &&
              !Contains(msg, RateLimitMarker) && Contains(msg, NetworkMarker)
    ensures e.message == (if e.code == AuthInvalid then "Invalid API key" else msg)
    ensures e.recoverable <==> e.code != Unknown
    ensures e.suggestion == "" <==> e.code == Unknown
  {
    if Contains(msg, MissingKeyMarker) then
      CliError(AuthRequired, msg, true, "Set EXA_API_KEY environment variable or run 'exa auth'")
    else if Contains(msg, UnauthorizedMarker) then
      CliError(AuthInvalid, "Invalid API key", true, "Check your EXA_API_KEY value")
    else if Contains(msg, RateLimitMarker) then
      CliError(RateLimited, msg, true, "Wait and retry, or reduce request frequency")
    else if Contains(msg, NetworkMarker) then
      CliError(NetworkError, msg, true, "Check network connectivity")
    else
      CliError(Unknown, msg, false, "")
  }

  /** The JSON form of a `CLIError`; the suggestion is omitted when empty. */
  function CliErrorJson(e: CliError): (j: Json)
    ensures j.Object? && "code" in j.fields && "message" in j.fields && "recoverable" in j.fields
    ensures j.fields["code"] == Str(CodeName(e.code)) && j.fields["message"] == Str(e.message)
    ensures j.fields["recoverable"] == Bool(e.recoverable)
    ensures "suggestion" in j.fields <==> e.suggestion != ""
  {
    var fs := [
      Value("code", Str(CodeName(e.code)), false),
      Value("message", Str(e.message), false),
      Value("recoverable", Bool(e.recoverable), false),
      Value("suggestion", Str(e.suggestion), true)];
    UniqueKeyOnWire(fs, 0);
    UniqueKeyOnWire(fs, 1);
    UniqueKeyOnWire(fs, 2);
    UniqueKeyOnWire(fs, 3);
    Object(EncodeFields(fs))
  }

  /** `RenderError`: the structured object only in JSON mode, otherwise one `Error: <msg>` line. */
  function RenderError(msg: string, opts: Output.Options): (d: Output.Diagnostic)
    ensures opts.mode == Output.JsonMode ==> d == Output.JsonDiagnostic(CliErrorJson(ToStructuredError(msg)))
    ensures opts.mode != Output.JsonMode ==> d == Output.LineDiagnostic("Error: " + msg)
  {
    if opts.mode == Output.JsonMode then Output.JsonDiagnostic(CliErrorJson(ToStructuredError(msg)))
    else Output.LineDiagnostic("Error: " + msg)
  }
}

=== FILE: fields.dfy ===
/** Field selection (`--fields`) over JSON output: pkg/output/fields.go. */
module Fields {
  import opened JsonValue
  import opened GoStrings

  /** The set of names `--fields` selects: the comma-separated pieces, each trimmed of white space. */
  function FieldList(fields: string): (names: set<string>)
    ensures forall n | n in names :: ',' !in n
    ensures forall n | n in names :: |n| > 0 ==> !IsSpace(n[0]) && !IsSpace(n[|n| - 1])
  {
    var pieces := Split(fields, ',');
    var names := set piece | piece in pieces :: TrimSpace(piece);
    assert forall n | n in names :: exists piece | piece in pieces :: n == TrimSpace(piece);
    names
  }

  /** A comma-separated list selects each of its pieces trimmed of white space: `"title, url"` selects `url`. */
  lemma FieldListOfPieces(names: seq<string>)
    requires |names| > 0
    requires forall i | 0 <= i < |names| :: ',' !in names[i]
    ensures FieldList(Join(names, ",")) == set i | 0 <= i < |names| :: TrimSpace(names[i])
  {
    JoinThenSplit(names, ',');
  }

  /** Naming fields as a comma-separated list selects exactly those names. */
  lemma FieldListOfNames(names: seq<string>)
    requires |names| > 0
    requires forall i | 0 <= i < |names| :: ',' !in names[i] && (|names[i]| > 0 ==> !IsSpace(names[i][0]) && !IsSpace(names[i][|names[i]| - 1]))
    ensures FieldList(Join(names, ",")) == set i | 0 <= i < |names| :: names[i]
  {
    FieldListOfPieces(names);
    forall i | 0 <= i < |names| ensures TrimSpace(names[i]) == names[i] {
      TrimSpaceOfTrimmed(names[i]);
    }
  }

  /** `filterMap`: keep exactly the keys that are both in the record and selected, values unchanged. */
  function FilterMap(m: map<string, Json>, keep: set<string>): (r: map<string, Json>)
    ensures r.Keys == m.Keys * keep
    ensures forall k | k in r :: r[k] == m[k]
  {
    map k | k in m && k in keep :: m[k]
  }

  /** Projecting twice on the same selection changes nothing more. */
  lemma FilterMapIdempotent(m: map<string, Json>, keep: set<string>)
    ensures FilterMap(FilterMap(m, keep), keep) == FilterMap(m, keep)
  {
  }

  /**
   * What `json.Unmarshal` into `[]map[string]interface{}` accepts: `null` (a nil slice), or an
   * array whose every element is an object or `null` (a nil map).
   */
  predicate DecodesAsObjectArray(j: Json) {
    j.Null? || (j.Array? && forall i | 0 <= i < |j.items| :: j.items[i].Object? || j.items[i].Null?)
  }

  /** The elements such a document decodes to; `null` decodes as no elements. */
  function ObjectArrayItems(j: Json): seq<Json>
    requires DecodesAsObjectArray(j)
  {
    if j.Null? then [] else j.items
  }

  /** The map an element of an object array decodes to; a `null` element is a nil (empty) map. */
  function RecordFields(j: Json): map<string, Json> {
    if j.Object? then j.fields else map[]
  }

  /** An object carrying its results in an array under `"results"`, as every list response does. */
  predicate IsResultsEnvelope(j: Json) {
    j.Object? && "results" in j.fields && j.fields["results"].Array?
  }

  /** Inside a `"results"` array: objects are projected, anything else passes through. */
  function ProjectIfObject(j: Json, keep: set<string>): Json {
    if j.Object? then Object(FilterMap(j.fields, keep)) else j
  }

  /** `FilterFields`: the `--fields` projection applied before any `--jq` filter. */
  function FilterFields(data: Json, fields: string): (r: Json)
    ensures fields == "" ==> r == data
    ensures fields != "" && DecodesAsObjectArray(data) ==>
              r.Array? && |r.items| == |ObjectArrayItems(data)| &&
              forall i | 0 <= i < |r.items| :: r.items[i].Object? && r.items[i].fields.Keys <= FieldList(fields)
    ensures fields != "" && !DecodesAsObjectArray(data) && IsResultsEnvelope(data) ==>
              r.Array? && |r.items| == |data.fields["results"].items|
    ensures fields != "" && !DecodesAsObjectArray(data) && data.Object? && !IsResultsEnvelope(data) ==>
              r.Object? && r.fields.Keys == data.fields.Keys * FieldList(fields)
    ensures fields != "" && !DecodesAsObjectArray(data) && !data.Object? ==> r == data
  {
    if fields == "" then data
    else
      var keep := FieldList(fields);
      if DecodesAsObjectArray(data) then
        var items := ObjectArrayItems(data);
        Array(seq(|items|, i requires 0 <= i < |items| => Object(FilterMap(RecordFields(items[i]), keep))))
      else if IsResultsEnvelope(data) then
        var results := data.fields["results"].items;
        Array(seq(|results|, i requires 0 <= i < |results| => ProjectIfObject(results[i], keep)))
      else if data.Object? then
        Object(FilterMap(data.fields, keep))
      else
        data
  }

  /** Each element of an array of objects is projected on its own keys, in order. */
  lemma ObjectArrayProjected(data: Json, fields: string, i: int)
    requires fields != "" && DecodesAsObjectArray(data) && 0 <= i < |ObjectArrayItems(data)|
    ensures FilterFields(data, fields).items[i] == Object(FilterMap(RecordFields(ObjectArrayItems(data)[i]), FieldList(fields)))
  {
  }

  /**
   * An envelope's results are projected element-wise and returned as a flat array: object
   * results are projected, other results are kept, and every other top-level key is dropped.
   */
  lemma EnvelopeFlattened(data: Json, fields: string, i: int)
    requires fields != "" && IsResultsEnvelope(data) && 0 <= i < |data.fields["results"].items|
    ensures var result := data.fields["results"].items[i];
            var out := FilterFields(data, fields).items[i];
            (result.Object? ==> out == Object(FilterMap(result.fields, FieldList(fields)))) &&
            (!result.Object? ==> out == result)
  {
    assert !DecodesAsObjectArray(data);
  }

  /**
   * Projecting an envelope gives the same flat array as projecting its results array directly,
   * provided every result is an object (a `null` result stays `null` in the envelope but
   * becomes `{}` at top level).
   */
  lemma EnvelopeMatchesBareArray(m: map<string, Json>, results: seq<Json>, fields: string)
    requires "results" in m && m["results"] == Array(results)
    requires forall i | 0 <= i < |results| :: results[i].Object?
    ensures FilterFields(Object(m), fields) == FilterFields(Array(results), fields) || fields == ""
  {
    if fields != "" {
      assert !DecodesAsObjectArray(Object(m));
      assert DecodesAsObjectArray(Array(results));
      var a := FilterFields(Object(m), fields);
      var b := FilterFields(Array(results), fields);
      assert |a.items| == |b.items|;
      forall i | 0 <= i < |a.items| ensures a.items[i] == b.items[i] {
        EnvelopeFlattened(Object(m), fields, i);
        ObjectArrayProjected(Array(results), fields, i);
      }
    }
  }

  /** The two forms differ on a `null` result: the envelope keeps it, the bare array turns it into `{}`. */
  lemma EnvelopeNullDiffers(fields: string)
    requires fields != ""
    ensures FilterFields(Object(map["results" := Array([Null])]), fields) == Array([Null])
    ensures FilterFields(Array([Null]), fields) == Array([Object(map[])])
  {
    var env := Object(map["results" := Array([Null])]);
    assert !DecodesAsObjectArray(env);
    EnvelopeFlattened(env, fields, 0);
    ObjectArrayProjected(Array([Null]), fields, 0);
  }

  /** A document that is neither an object nor decodable as an array of objects is returned unchanged. */
  lemma OtherShapesUnchanged(data: Json, fields: string)
    requires !data.Object? && !DecodesAsObjectArray(data)
    ensures FilterFields(data, fields) == data
  {
  }

  /** A document with no `"results"` array is projected on its top-level keys. */
  lemma PlainObjectProjected(m: map<string, Json>, fields: string)
    requires fields != ""
    requires "results" !in m || !m["results"].Array?
    ensures FilterFields(Object(m), fields) == Object(FilterMap(m, FieldList(fields)))
  {
  }

  /**
   * A white-space-only selection is not the empty selection: it selects only the key `""`,
   * so a plain object loses every other key.
   */
  lemma BlankSelectionIsNotEmpty(m: map<string, Json>)
    requires "" !in m && "results" !in m
    ensures FilterFields(Object(m), " ") == Object(map[])
  {
    SplitNoSeparator(" ", ',');
    assert TrimSpace(" ") == "";
    assert FieldList(" ") == {""};
  }

  /** Selecting a second time with the same list changes nothing, unless an envelope held a `null` result. */
  lemma {:induction false} FilterFieldsIdempotent(data: Json, fields: string)
    requires IsResultsEnvelope(data) ==> Null !in data.fields["results"].items
    ensures FilterFields(FilterFields(data, fields), fields) == FilterFields(data, fields)
  {
    if fields != "" {
      var keep := FieldList(fields);
      var r := FilterFields(data, fields);
      if DecodesAsObjectArray(data) {
        assert DecodesAsObjectArray(r);
        var rr := FilterFields(r, fields);
        forall i | 0 <= i < |r.items| ensures rr.items[i] == r.items[i] {
          ObjectArrayProjected(r, fields, i);
          ObjectArrayProjected(data, fields, i);
          FilterMapIdempotent(RecordFields(ObjectArrayItems(data)[i]), keep);
        }
      } else if IsResultsEnvelope(data) {
        var results := data.fields["results"].items;
        if DecodesAsObjectArray(r) {
          var rr := FilterFields(r, fields);
          forall i | 0 <= i < |r.items| ensures rr.items[i] == r.items[i] {
            EnvelopeFlattened(data, fields, i);
            ObjectArrayProjected(r, fields, i);
            assert results[i] != Null;
            if results[i].Object? {
              FilterMapIdempotent(results[i].fields, keep);
            }
          }
        }
      } else if data.Object? {
        FilterMapIdempotent(data.fields, keep);
      }
    }
  }
}

=== FILE: json.dfy ===
/**
 * JSON documents as the client sees them after `encoding/json` has decoded them into
 * `interface{}` values, and the `omitempty` rule it applies when encoding request records.
 */
module JsonValue {
  import opened Wrappers

  datatype Json =
    | Null
    | Bool(b: bool)
    | Num(n: real)
    | Str(s: string)
    | Array(items: seq<Json>)
    | Object(fields: map<string, Json>)

  /**
   * The values `omitempty` leaves out: false, 0, "", an empty list, and a nil pointer or
   * interface (encoded as `Null`). Struct values are never empty, so no `Object` is.
   */
  predicate IsEmptyValue(j: Json) {
    match j
    case Null => true
    case Bool(b) => !b
    case Num(n) => n == 0.0
    case Str(s) => s == ""
    case Array(items) => |items| == 0
    case Object(_) => false
  }

  /**
   * One field of a Go struct with a `json` tag: a value field (sent always, or only when
   * non-empty under `omitempty`), or a pointer/interface field (sent only when non-nil).
   */
  datatype Field =
    | Value(key: string, value: Json, omitEmpty: bool)
    | Pointer(key: string, target: Option<Json>)

  /** Whether `encoding/json` writes the field at all. */
  predicate Sent(f: Field) {
    match f
    case Value(_, v, omitEmpty) => !omitEmpty || !IsEmptyValue(v)
    case Pointer(_, target) => target.Some?
  }

  /** The value written for a field that is sent. */
  function Payload(f: Field): Json
    requires Sent(f)
  {
    match f
    case Value(_, v, _) => v
    case Pointer(_, target) => target.value
  }

  /**
   * The object `json.Marshal` produces for a struct: one key per sent field, carrying that field's value.
   */
  function EncodeFields(fs: seq<Field>): (m: map<string, Json>)
  {
    if |fs| == 0 then map[]
    else
      var rest := EncodeFields(fs[1..]);
      if Sent(fs[0]) then rest[fs[0].key := Payload(fs[0])] else rest
  }

  /** The keys on the wire are the keys of the sent fields. */
  lemma {:induction false} KeysOnWire(fs: seq<Field>)
    ensures forall k :: k in EncodeFields(fs) <==> exists i | 0 <= i < |fs| :: fs[i].key == k && Sent(fs[i])
    decreases |fs|
  {
    if |fs| > 0 {
      KeysOnWire(fs[1..]);
      assert forall i | 1 <= i < |fs| :: fs[i] == fs[1..][i - 1];
      forall k | k in EncodeFields(fs) ensures exists i | 0 <= i < |fs| :: fs[i].key == k && Sent(fs[i]) {
        if !(Sent(fs[0]) && k == fs[0].key) {
          assert k in EncodeFields(fs[1..]);
          var j :| 0 <= j < |fs[1..]| && fs[1..][j].key == k && Sent(fs[1..][j]);
          assert fs[j + 1] == fs[1..][j];
        }
      }
    }
  }

  /** A field whose key no other field uses is on the wire exactly when it is sent, with its own value. */
  lemma {:induction false} UniqueKeyOnWire(fs: seq<Field>, i: int)
    requires 0 <= i < |fs|
    requires forall j | 0 <= j < |fs| && j != i :: fs[j].key != fs[i].key
    ensures fs[i].key in EncodeFields(fs) <==> Sent(fs[i])
    ensures Sent(fs[i]) ==> EncodeFields(fs)[fs[i].key] == Payload(fs[i])
    decreases i
  {
    if i > 0 {
      UniqueKeyOnWire(fs[1..], i - 1);
    } else {
      KeysOnWire(fs[1..]);
      assert forall j | 0 <= j < |fs[1..]| :: fs[1..][j] == fs[j + 1];
    }
  }

  /** No two fields of a struct share a JSON key, as `encoding/json` requires of one struct's tags. */
  predicate DistinctKeys(fs: seq<Field>) {
    forall i, j | 0 <= i < j < |fs| :: fs[i].key != fs[j].key
  }

  /** What one field leaves in the encoded object: its key, present exactly when sent, with its own value. */
  predicate OnWire(m: map<string, Json>, f: Field) {
    (f.key in m <==> Sent(f)) && (Sent(f) ==> f.key in m && m[f.key] == Payload(f))
  }

  /** With distinct keys, every field is on the wire as `OnWire` describes. */
  lemma FieldsOnWire(fs: seq<Field>)
    requires DistinctKeys(fs)
    ensures forall i | 0 <= i < |fs| :: OnWire(EncodeFields(fs), fs[i])
  {
    forall i | 0 <= i < |fs| ensures OnWire(EncodeFields(fs), fs[i]) {
      UniqueKeyOnWire(fs, i);
    }
  }

  /**
   * A struct whose field keys are the given distinct names: no key outside the names reaches
   * the wire, and every field is on the wire as `OnWire` describes.
   */
  lemma NamedFieldsOnWire(fs: seq<Field>, names: seq<string>)
    requires |fs| == |names|
    requires forall i | 0 <= i < |fs| :: fs[i].key == names[i]
    requires forall i, j | 0 <= i < j < |names| :: names[i] != names[j]
    ensures forall k | k in EncodeFields(fs) :: k in names
    ensures forall i | 0 <= i < |fs| :: OnWire(EncodeFields(fs), fs[i])
  {
    KeysOnWire(fs);
    FieldsOnWire(fs);
  }
}

=== FILE: output.dfy ===
/**
 * Output-mode dispatch (pkg/output/output.go): JSON mode runs field selection and then the
 * optional jq filter, plaintext mode writes tab-separated lines, table mode hands the table
 * to the drawing library. The jq library is an input (`jq`), as are the `NO_COLOR`
 * variable and whether standard output is a terminal.
 */
module Output {
  import opened Wrappers
  import opened GoStrings
  import opened JsonValue
  import Fields

  datatype Mode = TableMode | PlaintextMode | JsonMode

  datatype Options = Options(mode: Mode, noColor: bool, debug: bool, fields: string, jq: string)

  datatype TableData = TableData(headers: seq<string>, rows: seq<seq<string>>, footer: string)

  /** What the jq library does with an expression and an input: reject the expression, or emit values and errors in order. */
  datatype JqOutcome = JqParseError(reason: string) | JqEmitted(items: seq<Result<Json, string>>)

  /** What JSON mode writes: the values printed, in order, and the error that ended the output, if any. */
  datatype JsonOutput = JsonOutput(printed: seq<Json>, err: Option<string>)

  datatype Rendered =
    | JsonRendered(out: JsonOutput)
    | PlainRendered(lines: seq<string>)
    | TableRendered(table: TableData, colored: bool)

  /** `RunJQ`'s loop: print each emitted value until the first error, which ends the output. */
  function EmitUntilError(items: seq<Result<Json, string>>): (out: JsonOutput)
    ensures |out.printed| <= |items|
    ensures forall i | 0 <= i < |out.printed| :: items[i] == Success(out.printed[i])
    ensures out.err.None? <==> |out.printed| == |items|
    ensures out.err.Some? ==> items[|out.printed|].Failure? && out.err.value == "jq error: " + items[|out.printed|].error
  {
    if |items| == 0 then JsonOutput([], None)
    else
      match items[0]
      case Failure(e) => JsonOutput([], Some("jq error: " + e))
      case Success(v) =>
        var rest := EmitUntilError(items[1..]);
        JsonOutput([v] + rest.printed, rest.err)
  }

  /** `RunJQ`: an expression jq rejects prints nothing; otherwise the emitted values up to the first error. */
  function RunJq(data: Json, expr: string, jq: (string, Json) -> JqOutcome): (out: JsonOutput)
    ensures jq(expr, data).JqParseError? ==>
              out.printed == [] && out.err == Some("invalid jq expression: " + jq(expr, data).reason)
    ensures jq(expr, data).JqEmitted? ==>
              var items := jq(expr, data).items;
              |out.printed| <= |items| && (forall i | 0 <= i < |out.printed| :: items[i] == Success(out.printed[i])) &&
              (out.err.None? <==> |out.printed| == |items|) &&
              (out.err.Some? ==> items[|out.printed|].Failure? && out.err.value == "jq error: " + items[|out.printed|].error)
  {
    match jq(expr, data)
    case JqParseError(reason) => JsonOutput([], Some("invalid jq expression: " + reason))
    case JqEmitted(items) => EmitUntilError(items)
  }

  /** `renderJSONOutput`: field selection first; then either jq alone, or the selected document printed once. */
  function RenderJsonOutput(data: Json, opts: Options, jq: (string, Json) -> JqOutcome): (out: JsonOutput)
    ensures opts.jq == "" ==> out == JsonOutput([Fields.FilterFields(data, opts.fields)], None)
    ensures opts.jq != "" ==> out == RunJq(Fields.FilterFields(data, opts.fields), opts.jq, jq)
  {
    var selected := Fields.FilterFields(data, opts.fields);
    if opts.jq != "" then RunJq(selected, opts.jq, jq) else JsonOutput([selected], None)
  }

  /** A jq filter that passes its input through (`.`) prints exactly what no filter prints. */
  lemma IdentityFilterChangesNothing(data: Json, opts: Options, jq: (string, Json) -> JqOutcome)
    requires opts.jq != ""
    requires forall d :: jq(opts.jq, d) == JqEmitted([Success(d)])
    ensures RenderJsonOutput(data, opts, jq) == RenderJsonOutput(data, opts.(jq := ""), jq)
  {
    var selected := Fields.FilterFields(data, opts.fields);
    assert jq(opts.jq, selected) == JqEmitted([Success(selected)]);
    var items: seq<Result<Json, string>> := [Success(selected)];
    var none: seq<Result<Json, string>> := [];
    assert items[1..] == none;
  }

  /** `renderPlaintext`: the header line when there are headers, then one line per row; cells joined by tabs. */
  function RenderPlaintext(td: TableData): (lines: seq<string>)
    ensures |lines| == |td.rows| + (if |td.headers| > 0 then 1 else 0)
    ensures |td.headers| > 0 ==> lines[0] == Join(td.headers, "\t")
    ensures forall i | 0 <= i < |td.rows| :: lines[|lines| - |td.rows| + i] == Join(td.rows[i], "\t")
  {
    (if |td.headers| > 0 then [Join(td.headers, "\t")] else []) +
    seq(|td.rows|, i requires 0 <= i < |td.rows| => Join(td.rows[i], "\t"))
  }

  /** A row whose cells hold no tab can be read back from its plaintext line by splitting at tabs. */
  lemma PlaintextRowReadsBack(td: TableData, i: int)
    requires 0 <= i < |td.rows| && |td.rows[i]| > 0
    requires forall j | 0 <= j < |td.rows[i]| :: '\t' !in td.rows[i][j]
    ensures var lines := RenderPlaintext(td);
            Split(lines[|lines| - |td.rows| + i], '\t') == td.rows[i]
  {
    JoinThenSplit(td.rows[i], '\t');
  }

  /** Plaintext output never shows the footer. */
  lemma PlaintextIgnoresFooter(td: TableData, footer: string)
    ensures RenderPlaintext(td.(footer := footer)) == RenderPlaintext(td)
  {
  }

  /** `shouldColor`: colour only on a terminal, and never when switched off by flag or by `NO_COLOR`. */
  function ShouldColor(opts: Options, noColorEnv: string, stdoutIsTerminal: bool): (colored: bool)
    ensures colored <==> !opts.noColor && noColorEnv == "" && stdoutIsTerminal
  {
    if opts.noColor then false
    else if noColorEnv != "" then false
    else stdoutIsTerminal
  }

  /** `RenderTable`: dispatch on the output mode. */
  function RenderTable(td: TableData, data: Json, opts: Options, jq: (string, Json) -> JqOutcome,
                       noColorEnv: string, stdoutIsTerminal: bool): (r: Rendered)
    ensures opts.mode == JsonMode <==> r.JsonRendered?
    ensures opts.mode == PlaintextMode <==> r.PlainRendered?
    ensures r.TableRendered? ==> r.table == td
    ensures r.JsonRendered? ==> r.out == RenderJsonOutput(data, opts, jq)
    ensures r.PlainRendered? ==> r.lines == RenderPlaintext(td)
    ensures r.TableRendered? ==> r.colored == ShouldColor(opts, noColorEnv, stdoutIsTerminal)
  {
    match opts.mode
    case JsonMode => JsonRendered(RenderJsonOutput(data, opts, jq))
    case PlaintextMode => PlainRendered(RenderPlaintext(td))
    case TableMode => TableRendered(td, ShouldColor(opts, noColorEnv, stdoutIsTerminal))
  }

  /** JSON mode ignores the table entirely and shows the raw data; the other modes ignore the data. */
  lemma RenderTableSeparatesModes(td: TableData, td': TableData, data: Json, data': Json, opts: Options,
                                  jq: (string, Json) -> JqOutcome, env: string, tty: bool)
    ensures opts.mode == JsonMode ==> RenderTable(td, data, opts, jq, env, tty) == RenderTable(td', data, opts, jq, env, tty)
    ensures opts.mode != JsonMode ==> RenderTable(td, data, opts, jq, env, tty) == RenderTable(td, data', opts, jq, env, tty)
  {
  }

  /** A message for the diagnostic stream: a JSON object in JSON mode, a text line otherwise. */
  datatype Diagnostic = JsonDiagnostic(document: Json) | LineDiagnostic(line: string)

  /** `Error`: in JSON mode the single-key object `{"error": message}`, otherwise `Error: message`. */
  function ErrorMessage(message: string, opts: Options): (d: Diagnostic)
    ensures opts.mode == JsonMode ==>
              d.JsonDiagnostic? && d.document.Object? &&
              d.document.fields.Keys == {"error"} && d.document.fields["error"] == Str(message)
    ensures opts.mode != JsonMode ==> d == LineDiagnostic("Error: " + message)
  {
    match opts.mode
    case JsonMode => JsonDiagnostic(Object(map["error" := Str(message)]))
    case _ => LineDiagnostic("Error: " + message)
  }
}

=== FILE: stream.dfy ===
/**
 * The answer stream (`AnswerStream` in pkg/api/client.go): a single forward pass over the
 * response body's lines that reports text deltas and final answers. The framing is a small
 * subset of the event-stream format of the WHATWG HTML Living Standard, section 9.2.6
 * "Interpreting an event stream": only the literal prefix `"data: "` is recognised, each
 * such line is one payload, and the payload `[DONE]` ends the stream. Decoding a payload
 * into a chunk is an input (`parse`), partial as `json.Unmarshal` is.
 */
module AnswerStream {
  import opened Wrappers
  import opened GoStrings
  import opened ApiTypes
  import Client

  const DataPrefix := "data: "
  const DoneMarker := "[DONE]"

  /** What the callbacks receive: `textFn(text)` or `doneFn(response)`. */
  datatype Event = TextDelta(text: string) | Done(response: AnswerResponse)

  /** How one line is treated. */
  datatype LineRole = NotData | Terminator | Payload(data: string)

  function RoleOf(line: string): (role: LineRole)
    ensures role.NotData? <==> !IsPrefix(DataPrefix, line)
    ensures role.Terminator? <==> line == DataPrefix + DoneMarker
    ensures role.Payload? ==> line == DataPrefix + role.data && role.data != DoneMarker
  {
    if !IsPrefix(DataPrefix, line) then NotData
    else
      var data := line[|DataPrefix|..];
      assert line == DataPrefix + data;
      if data == DoneMarker then Terminator else Payload(data)
  }

  /** The callbacks one decoded chunk triggers: text first if non-empty, then a final answer if it has citations. */
  function ChunkEvents(c: AnswerStreamChunk): (evs: seq<Event>)
    ensures |evs| <= 2
    ensures c.text != "" <==> |evs| > 0 && evs[0].TextDelta?
    ensures c.citations.Some? <==> |evs| > 0 && evs[|evs| - 1].Done?
    ensures |evs| > 0 && evs[0].Done? ==> |evs| == 1
    ensures forall i | 0 <= i < |evs| :: evs[i].TextDelta? ==> evs[i].text == c.text
    ensures forall i | 0 <= i < |evs| :: evs[i].Done? ==>
              evs[i].response == AnswerResponse("", c.answer, c.citations.value, c.costDollars)
  {
    (if c.text != "" then [TextDelta(c.text)] else []) +
    (if c.citations.Some? then [Done(AnswerResponse("", c.answer, c.citations.value, c.costDollars))] else [])
  }

  /** Whether a line contributes nothing: it is not a data line, or its payload does not decode. */
  predicate Skipped(line: string, parse: string -> Option<AnswerStreamChunk>) {
    var role := RoleOf(line);
    role.NotData? || (role.Payload? && parse(role.data).None?)
  }

  /** The events the loop delivers for the given lines, in order. */
  function Decode(lines: seq<string>, parse: string -> Option<AnswerStreamChunk>): (evs: seq<Event>)
    ensures |evs| <= 2 * |lines|
    ensures forall i | 0 <= i < |evs| :: evs[i].TextDelta? ==> evs[i].text != ""
    ensures |lines| > 0 && RoleOf(lines[0]).Terminator? ==> evs == []
    decreases |lines|
  {
    if |lines| == 0 then []
    else
      match RoleOf(lines[0])
      case NotData => Decode(lines[1..], parse)
      case Terminator => []
      case Payload(data) =>
        match parse(data)
        case None => Decode(lines[1..], parse)
        case Some(chunk) => ChunkEvents(chunk) + Decode(lines[1..], parse)
  }

  /** A leading line that contributes nothing is passed over. */
  lemma SkippedHead(lines: seq<string>, parse: string -> Option<AnswerStreamChunk>)
    requires |lines| > 0 && Skipped(lines[0], parse)
    ensures Decode(lines, parse) == Decode(lines[1..], parse)
  {
  }

  /** What a line other than the terminator delivers: nothing when skipped, its chunk's events otherwise. */
  function LineEvents(line: string, parse: string -> Option<AnswerStreamChunk>): (evs: seq<Event>)
    ensures Skipped(line, parse) ==> evs == []
  {
    match RoleOf(line)
    case Payload(data) => if parse(data).Some? then ChunkEvents(parse(data).value) else []
    case _ => []
  }

  /** One step of `Decode` from position `i`: the terminator ends it, any other line puts its events first. */
  lemma DecodeStep(lines: seq<string>, i: int, parse: string -> Option<AnswerStreamChunk>)
    requires 0 <= i < |lines|
    ensures RoleOf(lines[i]).Terminator? ==> Decode(lines[i..], parse) == []
    ensures !RoleOf(lines[i]).Terminator? ==>
              Decode(lines[i..], parse) == LineEvents(lines[i], parse) + Decode(lines[i + 1..], parse)
  {
    assert lines[i..][0] == lines[i];
    assert lines[i..][1..] == lines[i + 1..];
  }

  /** The scanning loop itself; it delivers exactly the events `Decode` describes. */
  method RunDecoder(lines: seq<string>, parse: string -> Option<AnswerStreamChunk>) returns (events: seq<Event>)
    ensures events == Decode(lines, parse)
  {
    events := [];
    var i := 0;
    while i < |lines|
      invariant 0 <= i <= |lines|
      invariant events + Decode(lines[i..], parse) == Decode(lines, parse)
    {
      if RoleOf(lines[i]).Terminator? {
        StopAtTerminator(lines, i, events, parse);
        return;
      }
      AdvancePastLine(lines, i, events, parse);
      events := events + LineEvents(lines[i], parse);
      i := i + 1;
    }
    StopAtEnd(lines, events, parse);
  }

  /** The loop's step over a line other than the terminator keeps its invariant. */
  lemma AdvancePastLine(lines: seq<string>, i: int, events: seq<Event>, parse: string -> Option<AnswerStreamChunk>)
    requires 0 <= i < |lines| && !RoleOf(lines[i]).Terminator?
    requires events + Decode(lines[i..], parse) == Decode(lines, parse)
    ensures (events + LineEvents(lines[i], parse)) + Decode(lines[i + 1..], parse) == Decode(lines, parse)
  {
    DecodeStep(lines, i, parse);
    var step := LineEvents(lines[i], parse);
    var rest := Decode(lines[i + 1..], parse);
    assert (events + step) + rest == events + (step + rest);
  }

  /** At the terminator, what was delivered so far is everything. */
  lemma StopAtTerminator(lines: seq<string>, i: int, events: seq<Event>, parse: string -> Option<AnswerStreamChunk>)
    requires 0 <= i < |lines| && RoleOf(lines[i]).Terminator?
    requires events + Decode(lines[i..], parse) == Decode(lines, parse)
    ensures events == Decode(lines, parse)
  {
    DecodeStep(lines, i, parse);
    assert events + [] == events;
  }

  /** After the last line, what was delivered so far is everything. */
  lemma StopAtEnd(lines: seq<string>, events: seq<Event>, parse: string -> Option<AnswerStreamChunk>)
    requires events + Decode(lines[|lines|..], parse) == Decode(lines, parse)
    ensures events == Decode(lines, parse)
  {
    assert lines[|lines|..] == [];
    assert events + [] == events;
  }

  /** No line of `lines` is the terminator. */
  predicate NoTerminator(lines: seq<string>) {
    forall i | 0 <= i < |lines| :: !RoleOf(lines[i]).Terminator?
  }

  /** A line that contributes nothing can be removed without changing what is delivered before or after it. */
  lemma {:induction false} SkippedLineIsInvisible(pre: seq<string>, line: string, post: seq<string>, parse: string -> Option<AnswerStreamChunk>)
    requires Skipped(line, parse)
    ensures Decode(pre + [line] + post, parse) == Decode(pre + post, parse)
    decreases |pre|
  {
    if |pre| == 0 {
      assert pre + [line] + post == [line] + post;
      assert ([line] + post)[1..] == post;
      assert pre + post == post;
    } else {
      assert (pre + [line] + post)[0] == pre[0];
      assert (pre + [line] + post)[1..] == pre[1..] + [line] + post;
      assert (pre + post)[0] == pre[0];
      assert (pre + post)[1..] == pre[1..] + post;
      SkippedLineIsInvisible(pre[1..], line, post, parse);
    }
  }

  /** Nothing after the terminator is ever delivered. */
  lemma {:induction false} TerminatorEndsStream(pre: seq<string>, post: seq<string>, parse: string -> Option<AnswerStreamChunk>)
    ensures Decode(pre + [DataPrefix + DoneMarker] + post, parse) == Decode(pre, parse)
    decreases |pre|
  {
    var done := DataPrefix + DoneMarker;
    if |pre| == 0 {
      assert pre + [done] + post == [done] + post;
      assert RoleOf(done).Terminator?;
    } else {
      assert (pre + [done] + post)[0] == pre[0];
      assert (pre + [done] + post)[1..] == pre[1..] + [done] + post;
      TerminatorEndsStream(pre[1..], post, parse);
      if RoleOf(pre[0]).Terminator? {
      } else if RoleOf(pre[0]).NotData? {
      } else {
        assert pre == [pre[0]] + pre[1..];
      }
    }
  }

  /** Without a terminator, the events of consecutive stretches of lines are delivered one after the other. */
  lemma {:induction false} DecodeConcat(pre: seq<string>, post: seq<string>, parse: string -> Option<AnswerStreamChunk>)
    requires NoTerminator(pre)
    ensures Decode(pre + post, parse) == Decode(pre, parse) + Decode(post, parse)
    decreases |pre|
  {
    if |pre| == 0 {
      assert pre + post == post;
    } else {
      assert (pre + post)[0] == pre[0];
      assert (pre + post)[1..] == pre[1..] + post;
      assert !RoleOf(pre[0]).Terminator?;
      DecodeConcat(pre[1..], post, parse);
    }
  }

  /** The events of one decodable payload line. */
  lemma SinglePayload(data: string, parse: string -> Option<AnswerStreamChunk>)
    requires data != DoneMarker && parse(data).Some?
    ensures Decode([DataPrefix + data], parse) == ChunkEvents(parse(data).value)
  {
    var line := DataPrefix + data;
    assert IsPrefix(DataPrefix, line);
    assert line[|DataPrefix|..] == data;
    var none: seq<string> := [];
    assert [line][1..] == none;
  }

  /** The stream request is the answer request with streaming switched on. */
  function StreamRequest(req: AnswerRequest): (r: AnswerRequest)
    ensures r.stream && r.query == req.query && r.text == req.text && r.model == req.model && r.outputSchema == req.outputSchema
  {
    req.(stream := true)
  }

  /** What the transport reported for the stream request. */
  datatype StreamExchange =
    | StreamFailed(cause: string)
    | StreamOpened(status: int, errorBody: string, lines: seq<string>)

  /**
   * `AnswerStream`: fail like `doJSON` on transport errors and non-2xx statuses (before any
   * line is read), otherwise deliver the decoded events.
   */
  function AnswerStreamEvents(x: StreamExchange, parse: string -> Option<AnswerStreamChunk>): (r: Result<seq<Event>, string>)
    ensures x.StreamFailed? ==> r == Failure(Client.RequestFailedPrefix + x.cause)
    ensures x.StreamOpened? && !Client.IsSuccessStatus(x.status) ==> r == Failure(Client.ApiErrorMessage(x.status, x.errorBody))
    ensures r.Success? <==> x.StreamOpened? && Client.IsSuccessStatus(x.status)
    ensures r.Success? ==> r.value == Decode(x.lines, parse)
  {
    match x
    case StreamFailed(cause) => Failure(Client.RequestFailedPrefix + cause)
    case StreamOpened(status, errorBody, lines) =>
      if !Client.IsSuccessStatus(status) then Failure(Client.ApiErrorMessage(status, errorBody))
      else Success(Decode(lines, parse))
  }
}

=== FILE: strings.dfy ===
/**
 * The handful of Go `strings` and `fmt` primitives the command-line client relies on.
 * A Go string is a sequence of bytes; here each char of a `string` stands for one byte,
 * so lengths, slices and truncation are byte-based exactly as in Go.
 */
module GoStrings {

  /** `strings.HasPrefix(s, p)` */
  predicate IsPrefix(p: string, s: string) {
    |p| <= |s| && s[..|p|] == p
  }

  /** `strings.HasSuffix(s, p)` */
  predicate IsSuffix(p: string, s: string) {
    |p| <= |s| && s[|s| - |p|..] == p
  }

  /** The front part of a concatenation is a prefix of it. */
  lemma PrefixOfConcat(p: string, q: string)
    ensures IsPrefix(p, p + q)
  {
    assert (p + q)[..|p|] == p;
  }

  /** The back part of a concatenation is a suffix of it. */
  lemma SuffixOfConcat(p: string, q: string)
    ensures IsSuffix(q, p + q)
  {
    assert (p + q)[|p + q| - |q|..] == q;
  }

  /** `strings.Contains(s, p)`: `p` occurs in `s` at some offset. */
  predicate Contains(s: string, p: string)
    decreases |s|
  {
    IsPrefix(p, s) || (|s| > 0 && Contains(s[1..], p))
  }

  /** An occurrence at offset `i` makes `s` contain `p`. */
  lemma {:induction false} ContainsAt(s: string, p: string, i: int)
    requires 0 <= i <= |s| && IsPrefix(p, s[i..])
    ensures Contains(s, p)
    decreases i
  {
    if i > 0 {
      assert s[1..][i - 1..] == s[i..];
      ContainsAt(s[1..], p, i - 1);
    }
  }

  /** Containment is exactly the existence of an occurrence offset. */
  lemma {:induction false} ContainsOccurs(s: string, p: string)
    ensures Contains(s, p) <==> exists i :: 0 <= i <= |s| && IsPrefix(p, s[i..])
    decreases |s|
  {
    if Contains(s, p) {
      if IsPrefix(p, s) {
        assert s[0..] == s;
      } else {
        ContainsOccurs(s[1..], p);
        var i :| 0 <= i <= |s[1..]| && IsPrefix(p, s[1..][i..]);
        assert s[1..][i..] == s[i + 1..];
      }
    } else {
      forall i | 0 <= i <= |s| ensures !IsPrefix(p, s[i..]) {
        if IsPrefix(p, s[i..]) {
          ContainsAt(s, p, i);
        }
      }
    }
  }

  /** Whatever a prefix of `s` contains, `s` contains too. */
  lemma ContainsInPrefix(s: string, k: nat, p: string)
    requires k <= |s| && Contains(s[..k], p)
    ensures Contains(s, p)
  {
    ContainsOccurs(s[..k], p);
    var i :| 0 <= i <= k && IsPrefix(p, s[..k][i..]);
    assert s[..k][i..] == s[i..k];
    assert s[i..][..|p|] == s[i..k][..|p|];
    ContainsAt(s, p, i);
  }

  /**
   * No occurrence of `p` can begin inside `a`: every position of `a` either differs from
   * the first char of `p`, or is followed, still inside `a`, by a char that differs from the second.
   */
  predicate NoFalseStart(a: string, p: string)
    requires |p| >= 2
  {
    forall i | 0 <= i < |a| :: a[i] != p[0] || (i + 1 < |a| && a[i + 1] != p[1])
  }

  /** A text that cannot start an occurrence may be dropped from the front. */
  lemma {:induction false} SkipPrefix(a: string, b: string, p: string)
    requires |p| >= 2 && NoFalseStart(a, p)
    ensures Contains(a + b, p) == Contains(b, p)
    decreases |a|
  {
    if |a| > 0 {
      assert (a + b)[0] == a[0];
      if a[0] == p[0] {
        assert (a + b)[1] == a[1];
      }
      assert !IsPrefix(p, a + b);
      assert (a + b)[1..] == a[1..] + b;
      assert NoFalseStart(a[1..], p) by {
        forall i | 0 <= i < |a[1..]| ensures a[1..][i] != p[0] || (i + 1 < |a[1..]| && a[1..][i + 1] != p[1]) {
          assert a[1..][i] == a[i + 1];
        }
      }
      SkipPrefix(a[1..], b, p);
    } else {
      assert a + b == b;
    }
  }

  /** One position whose prefix is not `p` may be dropped from the front. */
  lemma SkipOne(a: string, p: string)
    requires |a| > 0 && !IsPrefix(p, a)
    ensures Contains(a, p) == Contains(a[1..], p)
  {
  }

  /** `p` cannot occur in a text that lacks its first char. */
  lemma {:induction false} AbsentHead(s: string, p: string)
    requires |p| > 0 && p[0] !in s
    ensures !Contains(s, p)
    decreases |s|
  {
    if |s| > 0 {
      assert s[1..] <= s[1..];
      assert forall c :: c in s[1..] ==> c in s;
      AbsentHead(s[1..], p);
    }
  }

  /** A tail made only of chars that `p` never uses adds no occurrence of `p`. */
  lemma {:induction false} DropSuffix(t: string, suf: string, p: string)
    requires |p| > 0
    requires forall k | 0 <= k < |p| :: p[k] !in suf
    ensures Contains(t + suf, p) == Contains(t, p)
    decreases |t|
  {
    if |t| == 0 {
      assert t + suf == suf;
      AbsentHead(suf, p);
    } else {
      if |p| <= |t| {
        assert (t + suf)[..|p|] == t[..|p|];
      } else if |suf| > 0 && |p| <= |t + suf| {
        assert (t + suf)[..|p|][|t|] == suf[0];
        assert p[|t|] !in suf;
      }
      assert (t + suf)[1..] == t[1..] + suf;
      DropSuffix(t[1..], suf, p);
    }
  }

  /** `strings.Join(parts, sep)` */
  function Join(parts: seq<string>, sep: string): string
  {
    if |parts| == 0 then ""
    else if |parts| == 1 then parts[0]
    else parts[0] + sep + Join(parts[1..], sep)
  }

  /** Prepending text to the first part prepends it to the joined text. */
  lemma JoinPrependFirst(a: string, parts: seq<string>, sep: string)
    requires |parts| > 0
    ensures Join([a + parts[0]] + parts[1..], sep) == a + Join(parts, sep)
  {
    var parts' := [a + parts[0]] + parts[1..];
    assert parts'[1..] == parts[1..];
  }

  /**
   * `strings.Split(s, [sep])` for a one-byte separator: the pieces between separators,
   * one more piece than there are separators (so never an empty list).
   */
  function Split(s: string, sep: char): (pieces: seq<string>)
    ensures |pieces| > 0
    ensures forall i | 0 <= i < |pieces| :: sep !in pieces[i]
    decreases |s|
  {
    if |s| == 0 then [""]
    else
      var rest := Split(s[1..], sep);
      if s[0] == sep then [""] + rest
      else [[s[0]] + rest[0]] + rest[1..]
  }

  /** Splitting and re-joining with the same separator gives the text back. */
  lemma {:induction false} SplitThenJoin(s: string, sep: char)
    ensures Join(Split(s, sep), [sep]) == s
    decreases |s|
  {
    if |s| > 0 {
      var rest := Split(s[1..], sep);
      SplitThenJoin(s[1..], sep);
      if s[0] == sep {
        var pieces := [""] + rest;
        assert pieces[1..] == rest;
        assert Join(pieces, [sep]) == "" + [sep] + Join(rest, [sep]);
        assert [sep] + s[1..] == s;
      } else {
        JoinPrependFirst([s[0]], rest, [sep]);
        assert [s[0]] + s[1..] == s;
      }
    }
  }

  /** A text without the separator splits into itself. */
  lemma {:induction false} SplitNoSeparator(a: string, sep: char)
    requires sep !in a
    ensures Split(a, sep) == [a]
    decreases |a|
  {
    if |a| > 0 {
      assert forall c :: c in a[1..] ==> c in a;
      SplitNoSeparator(a[1..], sep);
      assert [a[0]] + a[1..] == a;
    }
  }

  /** A separator-free piece followed by a separator is split off as the first piece. */
  lemma {:induction false} SplitFirstPiece(a: string, sep: char, rest: string)
    requires sep !in a
    ensures Split(a + [sep] + rest, sep) == [a] + Split(rest, sep)
    decreases |a|
  {
    var s := a + [sep] + rest;
    if |a| == 0 {
      assert s == [sep] + rest;
      assert s[1..] == rest;
    } else {
      assert s[1..] == a[1..] + [sep] + rest;
      assert forall c :: c in a[1..] ==> c in a;
      SplitFirstPiece(a[1..], sep, rest);
      assert [a[0]] + a[1..] == a;
    }
  }

  /** Joining separator-free pieces and splitting again gives the pieces back. */
  lemma {:induction false} JoinThenSplit(parts: seq<string>, sep: char)
    requires |parts| > 0
    requires forall i | 0 <= i < |parts| :: sep !in parts[i]
    ensures Split(Join(parts, [sep]), sep) == parts
    decreases |parts|
  {
    if |parts| == 1 {
      SplitNoSeparator(parts[0], sep);
    } else {
      JoinThenSplit(parts[1..], sep);
      SplitFirstPiece(parts[0], sep, Join(parts[1..], [sep]));
      assert parts == [parts[0]] + parts[1..];
    }
  }

  /** Go's ASCII white space (`unicode.IsSpace` below 0x80). */
  predicate IsSpace(c: char) {
    c == ' ' || c == '\t' || c == '\n' || c == '\r' || c as int == 11 || c as int == 12
  }

  predicate IsSlash(c: char) {
    c == '/'
  }

  /** Drops the longest prefix whose chars all satisfy `drop` (`strings.TrimLeft` / `TrimLeftFunc`). */
  function TrimLeading(s: string, drop: char -> bool): (r: string)
    ensures |r| <= |s| && r == s[|s| - |r|..]
    ensures forall i | 0 <= i < |s| - |r| :: drop(s[i])
    ensures |r| > 0 ==> !drop(r[0])
    decreases |s|
  {
    if |s| > 0 && drop(s[0]) then TrimLeading(s[1..], drop) else s
  }

  /** Drops the longest suffix whose chars all satisfy `drop` (`strings.TrimRight` / `TrimRightFunc`). */
  function TrimTrailing(s: string, drop: char -> bool): (r: string)
    ensures |r| <= |s| && r == s[..|r|]
    ensures forall i | |r| <= i < |s| :: drop(s[i])
    ensures |r| > 0 ==> !drop(r[|r| - 1])
    decreases |s|
  {
    if |s| > 0 && drop(s[|s| - 1]) then TrimTrailing(s[..|s| - 1], drop) else s
  }

  /** `strings.TrimSpace` */
  function TrimSpace(s: string): (r: string)
    ensures |r| > 0 ==> !IsSpace(r[0]) && !IsSpace(r[|r| - 1])
    ensures forall c | c in r :: c in s
  {
    var t := TrimLeading(s, IsSpace);
    var r := TrimTrailing(t, IsSpace);
    assert |r| > 0 ==> r[0] == t[0];
    assert forall c | c in r :: c in t;
    r
  }

  /** A text without surrounding white space is left alone by `TrimSpace`. */
  lemma TrimSpaceOfTrimmed(s: string)
    requires |s| > 0 ==> !IsSpace(s[0]) && !IsSpace(s[|s| - 1])
    ensures TrimSpace(s) == s
  {
  }

  function DigitChar(d: int): (c: char)
    requires 0 <= d <= 9
    ensures '0' <= c <= '9'
  {
    "0123456789"[d]
  }

  predicate IsDigitString(s: string) {
    forall i | 0 <= i < |s| :: '0' <= s[i] <= '9'
  }

  /** `fmt.Sprintf("%d", n)` / `strconv.Itoa(n)` */
  function Decimal(n: int): (r: string)
    ensures |r| > 0
    ensures n >= 0 ==> IsDigitString(r)
    decreases if n < 0 then 1 - n else n
  {
    if n < 0 then "-" + Decimal(-n)
    else if n < 10 then [DigitChar(n)]
    else Decimal(n / 10) + [DigitChar(n % 10)]
  }

  /** The value of a string of decimal digits. */
  function DigitsValue(s: string): nat
    requires IsDigitString(s)
  {
    if |s| == 0 then 0
    else DigitsValue(s[..|s| - 1]) * 10 + (s[|s| - 1] as int - '0' as int)
  }

  /** Reading back the digits of a non-negative number gives the number. */
  lemma {:induction false} DecimalRoundTrip(n: nat)
    ensures DigitsValue(Decimal(n)) == n
  {
    if n >= 10 {
      DecimalRoundTrip(n / 10);
      var r := Decimal(n);
      assert r[..|r| - 1] == Decimal(n / 10);
    }
  }

  /** Distinct non-negative numbers print differently. */
  lemma DecimalInjective(a: nat, b: nat)
    requires Decimal(a) == Decimal(b)
    ensures a == b
  {
    DecimalRoundTrip(a);
    DecimalRoundTrip(b);
  }

  /** A three-digit number prints as exactly three digits. */
  lemma DecimalThreeDigits(n: int)
    requires 100 <= n <= 999
    ensures |Decimal(n)| == 3
  {
    var m := n / 10;
    assert 10 <= m <= 99;
    assert 1 <= m / 10 <= 9;
    assert |Decimal(m / 10)| == 1;
    assert |Decimal(m)| == 2;
  }
}

=== FILE: types.dfy ===
/**
 * Request, response and stream-chunk records of the search API (pkg/api/types.go), and the
 * JSON each request record is sent as. Go zero values stand for "not set"; pointer and
 * interface fields are `Option`s, nil being `None`.
 */
module ApiTypes {
  import opened Wrappers
  import opened JsonValue

  datatype TextSpec = TextSpec(maxCharacters: int, includeHtmlTags: bool)

  datatype HighlightsSpec = HighlightsSpec(numSentences: int, highlightsPerUrl: int, query: string)

  datatype SummarySpec = SummarySpec(query: string)

  datatype ExtrasSpec = ExtrasSpec(links: bool, imageLinks: bool)

  /** The nested `contents` object of search and find-similar requests. */
  datatype ContentsSpec = ContentsSpec(
    text: Option<TextSpec>,
    highlights: Option<HighlightsSpec>,
    summary: Option<SummarySpec>,
    livecrawl: string,
    subpages: int,
    subpageTarget: seq<string>,
    extras: Option<ExtrasSpec>)

  /** `&api.ContentsSpec{}`: a spec with no sub-option set. */
  const NoContentOptions := ContentsSpec(None, None, None, "", 0, [], None)

  datatype SearchRequest = SearchRequest(
    query: string,
    searchType: string,
    numResults: int,
    category: string,
    includeDomains: seq<string>,
    excludeDomains: seq<string>,
    startPublishedDate: string,
    endPublishedDate: string,
    startCrawlDate: string,
    endCrawlDate: string,
    includeText: string,
    excludeText: string,
    moderation: Option<bool>,
    contents: Option<ContentsSpec>)

  datatype ContentsRequest = ContentsRequest(
    ids: seq<string>,
    urls: seq<string>,
    text: Option<TextSpec>,
    highlights: Option<HighlightsSpec>,
    summary: Option<SummarySpec>,
    livecrawl: string,
    subpages: int)

  datatype FindSimilarRequest = FindSimilarRequest(
    url: string,
    numResults: int,
    includeDomains: seq<string>,
    excludeDomains: seq<string>,
    startPublishedDate: string,
    endPublishedDate: string,
    excludeSourceDomain: bool,
    category: string,
    contents: Option<ContentsSpec>)

  datatype AnswerRequest = AnswerRequest(
    query: string,
    text: bool,
    model: string,
    outputSchema: Option<Json>,
    stream: bool)

  /** The `tokensNum` interface value: an integer budget or the sentinel `"dynamic"`. */
  datatype TokensNum = TokenCount(count: int) | Dynamic

  datatype ContextRequest = ContextRequest(query: string, tokensNum: TokensNum)

  datatype CostBreakdown = CostBreakdown(amount: real)

  datatype CostInfo = CostInfo(
    total: real,
    search: Option<CostBreakdown>,
    contents: Option<CostBreakdown>,
    neural: Option<CostBreakdown>)

  datatype Subpage = Subpage(url: string, text: string)

  datatype SearchResult = SearchResult(
    title: string,
    url: string,
    id: string,
    publishedDate: string,
    author: string,
    score: real,
    image: string,
    favicon: string,
    text: string,
    highlights: seq<string>,
    highlightScores: seq<real>,
    summary: string,
    subpages: seq<Subpage>)

  datatype SearchResponse = SearchResponse(
    requestId: string,
    resolvedSearchType: string,
    results: seq<SearchResult>,
    autopromptString: string,
    costDollars: Option<CostInfo>)

  datatype ContentsResponse = ContentsResponse(results: seq<SearchResult>, costDollars: Option<CostInfo>)

  datatype FindSimilarResponse = FindSimilarResponse(
    requestId: string,
    results: seq<SearchResult>,
    autopromptString: string,
    costDollars: Option<CostInfo>)

  datatype AnswerResponse = AnswerResponse(
    requestId: string,
    answer: string,
    citations: seq<SearchResult>,
    costDollars: Option<CostInfo>)

  /** One decoded `data:` payload of the answer stream; `citations` is nil when the key is absent or `null`. */
  datatype AnswerStreamChunk = AnswerStreamChunk(
    chunkType: string,
    text: string,
    answer: string,
    citations: Option<seq<SearchResult>>,
    costDollars: Option<CostInfo>)

  datatype UsageEntry = UsageEntry(date: string, requestCount: int, creditUsage: real)

  datatype ApiKeyInfo = ApiKeyInfo(id: string, name: string)

  datatype UsageResponse = UsageResponse(usage: seq<UsageEntry>)

  /**
   * The response of the context endpoint. `costDollars` is the raw cost document, kept
   * undecoded (`json.RawMessage`); `None` when the response had no such key.
   */
  datatype ContextResponse = ContextResponse(
    requestId: string,
    query: string,
    context: string,
    costDollars: Option<Json>,
    resultsCount: int,
    searchTime: real,
    outputTokens: int)

  // ---- JSON encoding of the records (`json.Marshal` with the struct tags of types.go) ----

  function Strings(xs: seq<string>): Json {
    Array(seq(|xs|, i requires 0 <= i < |xs| => Str(xs[i])))
  }

  function Reals(xs: seq<real>): Json {
    Array(seq(|xs|, i requires 0 <= i < |xs| => Num(xs[i])))
  }

  function BoolJson(b: bool): Json {
    Bool(b)
  }

  function Int(n: int): Json {
    Num(n as real)
  }

  function MapOption<T>(o: Option<T>, f: T -> Json): Option<Json> {
    match o
    case None => None
    case Some(v) => Some(f(v))
  }

  function TextSpecFields(t: TextSpec): seq<Field> {
    [ Value("maxCharacters", Int(t.maxCharacters), true),
      Value("includeHtmlTags", Bool(t.includeHtmlTags), true) ]
  }

  function TextSpecJson(t: TextSpec): Json {
    Object(EncodeFields(TextSpecFields(t)))
  }

  function HighlightsSpecFields(h: HighlightsSpec): seq<Field> {
    [ Value("numSentences", Int(h.numSentences), true),
      Value("highlightsPerUrl", Int(h.highlightsPerUrl), true),
      Value("query", Str(h.query), true) ]
  }

  function HighlightsSpecJson(h: HighlightsSpec): Json {
    Object(EncodeFields(HighlightsSpecFields(h)))
  }

  function SummarySpecFields(s: SummarySpec): seq<Field> {
    [ Value("query", Str(s.query), true) ]
  }

  function SummarySpecJson(s: SummarySpec): Json {
    Object(EncodeFields(SummarySpecFields(s)))
  }

  function ExtrasSpecFields(e: ExtrasSpec): seq<Field> {
    [ Value("links", Bool(e.links), true),
      Value("imageLinks", Bool(e.imageLinks), true) ]
  }

  function ExtrasSpecJson(e: ExtrasSpec): Json {
    Object(EncodeFields(ExtrasSpecFields(e)))
  }

  function ContentsSpecFields(c: ContentsSpec): seq<Field> {
    [ Pointer("text", MapOption(c.text, TextSpecJson)),
      Pointer("highlights", MapOption(c.highlights, HighlightsSpecJson)),
      Pointer("summary", MapOption(c.summary, SummarySpecJson)),
      Value("livecrawl", Str(c.livecrawl), true),
      Value("subpages", Int(c.subpages), true),
      Value("subpageTarget", Strings(c.subpageTarget), true),
      Pointer("extras", MapOption(c.extras, ExtrasSpecJson)) ]
  }

  function ContentsSpecJson(c: ContentsSpec): Json {
    Object(EncodeFields(ContentsSpecFields(c)))
  }

  function SearchRequestFields(r: SearchRequest): seq<Field> {
    [ Value("query", Str(r.query), false),
      Value("type", Str(r.searchType), true),
      Value("numResults", Int(r.numResults), true),
      Value("category", Str(r.category), true),
      Value("includeDomains", Strings(r.includeDomains), true),
      Value("excludeDomains", Strings(r.excludeDomains), true),
      Value("startPublishedDate", Str(r.startPublishedDate), true),
      Value("endPublishedDate", Str(r.endPublishedDate), true),
      Value("startCrawlDate", Str(r.startCrawlDate), true),
      Value("endCrawlDate", Str(r.endCrawlDate), true),
      Value("includeText", Str(r.includeText), true),
      Value("excludeText", Str(r.excludeText), true),
      Pointer("moderation", MapOption(r.moderation, BoolJson)),
      Pointer("contents", MapOption(r.contents, ContentsSpecJson)) ]
  }

  function SearchRequestJson(r: SearchRequest): Json {
    Object(EncodeFields(SearchRequestFields(r)))
  }

  function ContentsRequestFields(r: ContentsRequest): seq<Field> {
    [ Value("ids", Strings(r.ids), true),
      Value("urls", Strings(r.urls), true),
      Pointer("text", MapOption(r.text, TextSpecJson)),
      Pointer("highlights", MapOption(r.highlights, HighlightsSpecJson)),
      Pointer("summary", MapOption(r.summary, SummarySpecJson)),
      Value("livecrawl", Str(r.livecrawl), true),
      Value("subpages", Int(r.subpages), true) ]
  }

  function ContentsRequestJson(r: ContentsRequest): Json {
    Object(EncodeFields(ContentsRequestFields(r)))
  }

  function FindSimilarRequestFields(r: FindSimilarRequest): seq<Field> {
    [ Value("url", Str(r.url), false),
      Value("numResults", Int(r.numResults), true),
      Value("includeDomains", Strings(r.includeDomains), true),
      Value("excludeDomains", Strings(r.excludeDomains), true),
      Value("startPublishedDate", Str(r.startPublishedDate), true),
      Value("endPublishedDate", Str(r.endPublishedDate), true),
      Value("excludeSourceDomain", Bool(r.excludeSourceDomain), true),
      Value("category", Str(r.category), true),
      Pointer("contents", MapOption(r.contents, ContentsSpecJson)) ]
  }

  function FindSimilarRequestJson(r: FindSimilarRequest): Json {
    Object(EncodeFields(FindSimilarRequestFields(r)))
  }

  function AnswerRequestFields(r: AnswerRequest): seq<Field> {
    [ Value("query", Str(r.query), false),
      Value("text", Bool(r.text), true),
      Value("model", Str(r.model), true),
      Pointer("outputSchema", r.outputSchema),
      Value("stream", Bool(r.stream), true) ]
  }

  function AnswerRequestJson(r: AnswerRequest): Json {
    Object(EncodeFields(AnswerRequestFields(r)))
  }

  function TokensNumJson(t: TokensNum): Json {
    match t
    case TokenCount(n) => Int(n)
    case Dynamic => Str("dynamic")
  }

  function ContextRequestFields(r: ContextRequest): seq<Field> {
    [ Value("query", Str(r.query), false),
      Pointer("tokensNum", Some(TokensNumJson(r.tokensNum))) ]
  }

  function ContextRequestJson(r: ContextRequest): Json {
    Object(EncodeFields(ContextRequestFields(r)))
  }

  function CostBreakdownJson(b: CostBreakdown): Json {
    Object(map["amount" := Num(b.amount)])
  }

  function CostInfoFields(c: CostInfo): seq<Field> {
    [ Value("total", Num(c.total), false),
      Pointer("search", MapOption(c.search, CostBreakdownJson)),
      Pointer("contents", MapOption(c.contents, CostBreakdownJson)),
      Pointer("neural", MapOption(c.neural, CostBreakdownJson)) ]
  }

  function CostInfoJson(c: CostInfo): Json {
    Object(EncodeFields(CostInfoFields(c)))
  }

  function SubpageFields(p: Subpage): seq<Field> {
    [ Value("url", Str(p.url), false),
      Value("text", Str(p.text), true) ]
  }

  function SubpageJson(p: Subpage): Json {
    Object(EncodeFields(SubpageFields(p)))
  }

  function SubpagesJson(ps: seq<Subpage>): (items: seq<Json>)
    ensures |items| == |ps|
    ensures forall i | 0 <= i < |ps| :: items[i] == SubpageJson(ps[i])
  {
    seq(|ps|, i requires 0 <= i < |ps| => SubpageJson(ps[i]))
  }

  function SearchResultFields(r: SearchResult): seq<Field> {
    [ Value("title", Str(r.title), false),
      Value("url", Str(r.url), false),
      Value("id", Str(r.id), false),
      Value("publishedDate", Str(r.publishedDate), true),
      Value("author", Str(r.author), true),
      Value("score", Num(r.score), false),
      Value("image", Str(r.image), true),
      Value("favicon", Str(r.favicon), true),
      Value("text", Str(r.text), true),
      Value("highlights", Strings(r.highlights), true),
      Value("highlightScores", Reals(r.highlightScores), true),
      Value("summary", Str(r.summary), true),
      Value("subpages", Array(SubpagesJson(r.subpages)), true) ]
  }

  function SearchResultJson(r: SearchResult): Json {
    Object(EncodeFields(SearchResultFields(r)))
  }

  function SearchResultsJson(rs: seq<SearchResult>): (items: seq<Json>)
    ensures |items| == |rs|
    ensures forall i | 0 <= i < |rs| :: items[i] == SearchResultJson(rs[i])
  {
    seq(|rs|, i requires 0 <= i < |rs| => SearchResultJson(rs[i]))
  }

  function SearchResponseFields(r: SearchResponse): seq<Field> {
    [ Value("requestId", Str(r.requestId), true),
      Value("resolvedSearchType", Str(r.resolvedSearchType), true),
      Value("results", Array(SearchResultsJson(r.results)), false),
      Value("autopromptString", Str(r.autopromptString), true),
      Pointer("costDollars", MapOption(r.costDollars, CostInfoJson)) ]
  }

  function SearchResponseJson(r: SearchResponse): Json {
    Object(EncodeFields(SearchResponseFields(r)))
  }

  function ContentsResponseFields(r: ContentsResponse): seq<Field> {
    [ Value("results", Array(SearchResultsJson(r.results)), false),
      Pointer("costDollars", MapOption(r.costDollars, CostInfoJson)) ]
  }

  function ContentsResponseJson(r: ContentsResponse): Json {
    Object(EncodeFields(ContentsResponseFields(r)))
  }

  function FindSimilarResponseFields(r: FindSimilarResponse): seq<Field> {
    [ Value("requestId", Str(r.requestId), true),
      Value("results", Array(SearchResultsJson(r.results)), false),
      Value("autopromptString", Str(r.autopromptString), true),
      Pointer("costDollars", MapOption(r.costDollars, CostInfoJson)) ]
  }

  function FindSimilarResponseJson(r: FindSimilarResponse): Json {
    Object(EncodeFields(FindSimilarResponseFields(r)))
  }

  function AnswerResponseFields(r: AnswerResponse): seq<Field> {
    [ Value("requestId", Str(r.requestId), true),
      Value("answer", Str(r.answer), false),
      Value("citations", Array(SearchResultsJson(r.citations)), true),
      Pointer("costDollars", MapOption(r.costDollars, CostInfoJson)) ]
  }

  function AnswerResponseJson(r: AnswerResponse): Json {
    Object(EncodeFields(AnswerResponseFields(r)))
  }

  function ContextResponseFields(r: ContextResponse): seq<Field> {
    [ Value("requestId", Str(r.requestId), true),
      Value("query", Str(r.query), true),
      Value("response", Str(r.context), false),
      Pointer("costDollars", r.costDollars),
      Value("resultsCount", Int(r.resultsCount), true),
      Value("searchTime", Num(r.searchTime), true),
      Value("outputTokens", Int(r.outputTokens), true) ]
  }

  function ContextResponseJson(r: ContextResponse): Json {
    Object(EncodeFields(ContextResponseFields(r)))
  }

  function UsageEntryFields(u: UsageEntry): seq<Field> {
    [ Value("date", Str(u.date), false),
      Value("requestCount", Int(u.requestCount), false),
      Value("creditUsage", Num(u.creditUsage), false) ]
  }

  function UsageEntryJson(u: UsageEntry): Json {
    Object(EncodeFields(UsageEntryFields(u)))
  }

  function UsageResponseJson(r: UsageResponse): Json {
    Object(map["usage" := Array(seq(|r.usage|, i requires 0 <= i < |r.usage| => UsageEntryJson(r.usage[i])))])
  }

  /** Every search result is sent with its title, URL, id and score, whatever else is empty. */
  lemma SearchResultCoreKeys(r: SearchResult)
    ensures var m := SearchResultJson(r).fields;
            "title" in m && m["title"] == Str(r.title) && "url" in m && m["url"] == Str(r.url) &&
            "id" in m && "score" in m
  {
    var fs := SearchResultFields(r);
    UniqueKeyOnWire(fs, 0);
    UniqueKeyOnWire(fs, 1);
    UniqueKeyOnWire(fs, 2);
    UniqueKeyOnWire(fs, 5);
  }

  /** A search response is always sent as an object holding its results array under `"results"`. */
  lemma SearchResponseEnvelope(r: SearchResponse)
    ensures var j := SearchResponseJson(r);
            j.Object? && "results" in j.fields && j.fields["results"].Array? &&
            |j.fields["results"].items| == |r.results| &&
            forall i | 0 <= i < |r.results| :: j.fields["results"].items[i] == SearchResultJson(r.results[i])
  {
    var fs := SearchResponseFields(r);
    UniqueKeyOnWire(fs, 2);
  }

  /** The `contents` key is on the wire exactly when the request carries a content spec. */
  lemma SearchContentsOnWire(r: SearchRequest)
    ensures var m := SearchRequestJson(r).fields;
            ("contents" in m <==> r.contents.Some?) &&
            "query" in m && m["query"] == Str(r.query)
  {
    var fs := SearchRequestFields(r);
    UniqueKeyOnWire(fs, 13);
    UniqueKeyOnWire(fs, 0);
  }

  /** The `url` of a find-similar request is always on the wire; `contents` exactly when set. */
  lemma FindSimilarUrlOnWire(r: FindSimilarRequest)
    ensures var m := FindSimilarRequestJson(r).fields;
            "url" in m && m["url"] == Str(r.url) && ("contents" in m <==> r.contents.Some?)
  {
    var fs := FindSimilarRequestFields(r);
    UniqueKeyOnWire(fs, 0);
    UniqueKeyOnWire(fs, 8);
  }

  /** A context request always sends both its query and its token budget. */
  lemma ContextRequestOnWire(r: ContextRequest)
    ensures ContextRequestJson(r).fields.Keys == {"query", "tokensNum"}
    ensures ContextRequestJson(r).fields["tokensNum"] == TokensNumJson(r.tokensNum)
  {
    var fs := ContextRequestFields(r);
    KeysOnWire(fs);
    UniqueKeyOnWire(fs, 1);
  }

  // ---- What each record puts on the wire ----

  /** A key without `omitempty`: always present, with this value. */
  predicate AlwaysKey(m: map<string, Json>, k: string, v: Json) {
    k in m && m[k] == v
  }

  /** A value key with `omitempty`: present exactly when `nonZero`, and then with this value. */
  predicate OmitEmptyKey(m: map<string, Json>, k: string, nonZero: bool, v: Json) {
    (k in m <==> nonZero) && (k in m ==> m[k] == v)
  }

  /** A pointer or interface key: present exactly when non-nil, and then with the pointee's encoding. */
  predicate PointerKey(m: map<string, Json>, k: string, target: Option<Json>) {
    (k in m <==> target.Some?) && (target.Some? ==> k in m && m[k] == target.value)
  }

  /** The text options: each only when set. */
  lemma TextSpecEncoding(t: TextSpec)
    ensures var m := TextSpecJson(t).fields;
            (forall k | k in m :: k in TextSpecTags) &&
            OmitEmptyKey(m, "maxCharacters", t.maxCharacters != 0, Int(t.maxCharacters)) &&
            OmitEmptyKey(m, "includeHtmlTags", t.includeHtmlTags, Bool(t.includeHtmlTags))
  {
    var fs := TextSpecFields(t);
    TextSpecTagged(t);
    NamedFieldsOnWire(fs, TextSpecTags);
    var m := EncodeFields(fs);
    assert OnWire(m, fs[0]);
    assert OnWire(m, fs[1]);
  }

  /** The JSON keys of the TextSpec struct tags, in field order. */
  const TextSpecTags := ["maxCharacters", "includeHtmlTags"]

  /** The TextSpec fields carry the keys of its tags, and no two fields share one. */
  lemma TextSpecTagged(t: TextSpec)
    ensures var fs := TextSpecFields(t);
            |fs| == |TextSpecTags| && (forall i | 0 <= i < |fs| :: fs[i].key == TextSpecTags[i]) &&
            forall i, j | 0 <= i < j < |TextSpecTags| :: TextSpecTags[i] != TextSpecTags[j]
  {
  }

  /** The highlight options: each only when set. */
  lemma HighlightsSpecEncoding(h: HighlightsSpec)
    ensures var m := HighlightsSpecJson(h).fields;
            (forall k | k in m :: k in HighlightsSpecTags) &&
            OmitEmptyKey(m, "numSentences", h.numSentences != 0, Int(h.numSentences)) &&
            OmitEmptyKey(m, "highlightsPerUrl", h.highlightsPerUrl != 0, Int(h.highlightsPerUrl)) &&
            OmitEmptyKey(m, "query", h.query != "", Str(h.query))
  {
    var fs := HighlightsSpecFields(h);
    HighlightsSpecTagged(h);
    NamedFieldsOnWire(fs, HighlightsSpecTags);
    var m := EncodeFields(fs);
    assert OnWire(m, fs[0]);
    assert OnWire(m, fs[1]);
    assert OnWire(m, fs[2]);
  }

  /** The JSON keys of the HighlightsSpec struct tags, in field order. */
  const HighlightsSpecTags := ["numSentences", "highlightsPerUrl", "query"]

  /** The HighlightsSpec fields carry the keys of its tags, and no two fields share one. */
  lemma HighlightsSpecTagged(h: HighlightsSpec)
    ensures var fs := HighlightsSpecFields(h);
            |fs| == |HighlightsSpecTags| && (forall i | 0 <= i < |fs| :: fs[i].key == HighlightsSpecTags[i]) &&
            forall i, j | 0 <= i < j < |HighlightsSpecTags| :: HighlightsSpecTags[i] != HighlightsSpecTags[j]
  {
  }

  /** The summary options: the query only when set. */
  lemma SummarySpecEncoding(s: SummarySpec)
    ensures var m := SummarySpecJson(s).fields;
            (forall k | k in m :: k in SummarySpecTags) &&
            OmitEmptyKey(m, "query", s.query != "", Str(s.query))
  {
    var fs := SummarySpecFields(s);
    SummarySpecTagged(s);
    NamedFieldsOnWire(fs, SummarySpecTags);
    var m := EncodeFields(fs);
    assert OnWire(m, fs[0]);
  }

  /** The JSON keys of the SummarySpec struct tags, in field order. */
  const SummarySpecTags := ["query"]

  /** The SummarySpec fields carry the keys of its tags, and no two fields share one. */
  lemma SummarySpecTagged(s: SummarySpec)
    ensures var fs := SummarySpecFields(s);
            |fs| == |SummarySpecTags| && fs[0].key == SummarySpecTags[0]
  {
  }

  /** The extras: each flag only when on. */
  lemma ExtrasSpecEncoding(e: ExtrasSpec)
    ensures var m := ExtrasSpecJson(e).fields;
            (forall k | k in m :: k in ExtrasSpecTags) &&
            OmitEmptyKey(m, "links", e.links, Bool(e.links)) &&
            OmitEmptyKey(m, "imageLinks", e.imageLinks, Bool(e.imageLinks))
  {
    var fs := ExtrasSpecFields(e);
    ExtrasSpecTagged(e);
    NamedFieldsOnWire(fs, ExtrasSpecTags);
    var m := EncodeFields(fs);
    assert OnWire(m, fs[0]);
    assert OnWire(m, fs[1]);
  }

  /** The JSON keys of the ExtrasSpec struct tags, in field order. */
  const ExtrasSpecTags := ["links", "imageLinks"]

  /** The ExtrasSpec fields carry the keys of its tags, and no two fields share one. */
  lemma ExtrasSpecTagged(e: ExtrasSpec)
    ensures var fs := ExtrasSpecFields(e);
            |fs| == |ExtrasSpecTags| && (forall i | 0 <= i < |fs| :: fs[i].key == ExtrasSpecTags[i]) &&
            forall i, j | 0 <= i < j < |ExtrasSpecTags| :: ExtrasSpecTags[i] != ExtrasSpecTags[j]
  {
  }

  /** A content spec: each sub-option only when set. */
  lemma ContentsSpecEncoding(c: ContentsSpec)
    ensures var m := ContentsSpecJson(c).fields;
            (forall k | k in m :: k in ContentsSpecTags) &&
            PointerKey(m, "text", MapOption(c.text, TextSpecJson)) &&
            PointerKey(m, "highlights", MapOption(c.highlights, HighlightsSpecJson)) &&
            PointerKey(m, "summary", MapOption(c.summary, SummarySpecJson)) &&
            OmitEmptyKey(m, "livecrawl", c.livecrawl != "", Str(c.livecrawl)) &&
            OmitEmptyKey(m, "subpages", c.subpages != 0, Int(c.subpages)) &&
            OmitEmptyKey(m, "subpageTarget", |c.subpageTarget| > 0, Strings(c.subpageTarget)) &&
            PointerKey(m, "extras", MapOption(c.extras, ExtrasSpecJson))
  {
    ContentsSpecKeysNamed(c);
    ContentsSpecPartsOnWire(c);
    ContentsSpecCrawlOnWire(c);
  }

  /** No key outside the ContentsSpec tags reaches the wire. */
  lemma ContentsSpecKeysNamed(c: ContentsSpec)
    ensures forall k | k in ContentsSpecJson(c).fields :: k in ContentsSpecTags
  {
    ContentsSpecTagged(c);
    NamedFieldsOnWire(ContentsSpecFields(c), ContentsSpecTags);
  }

  /** How ContentsSpec sends the text, highlight and summary options. */
  lemma ContentsSpecPartsOnWire(c: ContentsSpec)
    ensures var m := ContentsSpecJson(c).fields;
            PointerKey(m, "text", MapOption(c.text, TextSpecJson)) &&
            PointerKey(m, "highlights", MapOption(c.highlights, HighlightsSpecJson)) &&
            PointerKey(m, "summary", MapOption(c.summary, SummarySpecJson))
  {
    var fs := ContentsSpecFields(c);
    ContentsSpecTagged(c);
    NamedFieldsOnWire(fs, ContentsSpecTags);
    var m := EncodeFields(fs);
    assert OnWire(m, fs[0]);
    assert OnWire(m, fs[1]);
    assert OnWire(m, fs[2]);
  }

  /** How ContentsSpec sends livecrawl, the subpage options and the extras. */
  lemma ContentsSpecCrawlOnWire(c: ContentsSpec)
    ensures var m := ContentsSpecJson(c).fields;
            OmitEmptyKey(m, "livecrawl", c.livecrawl != "", Str(c.livecrawl)) &&
            OmitEmptyKey(m, "subpages", c.subpages != 0, Int(c.subpages)) &&
            OmitEmptyKey(m, "subpageTarget", |c.subpageTarget| > 0, Strings(c.subpageTarget)) &&
            PointerKey(m, "extras", MapOption(c.extras, ExtrasSpecJson))
  {
    var fs := ContentsSpecFields(c);
    ContentsSpecTagged(c);
    NamedFieldsOnWire(fs, ContentsSpecTags);
    var m := EncodeFields(fs);
    assert OnWire(m, fs[3]);
    assert OnWire(m, fs[4]);
    assert OnWire(m, fs[5]);
    assert OnWire(m, fs[6]);
  }

  /** The JSON keys of the ContentsSpec struct tags, in field order. */
  const ContentsSpecTags := ["text", "highlights", "summary", "livecrawl", "subpages", "subpageTarget", "extras"]

  /** The ContentsSpec fields carry the keys of its tags, and no two fields share one. */
  lemma ContentsSpecTagged(c: ContentsSpec)
    ensures var fs := ContentsSpecFields(c);
            |fs| == |ContentsSpecTags| && (forall i | 0 <= i < |fs| :: fs[i].key == ContentsSpecTags[i]) &&
            forall i, j | 0 <= i < j < |ContentsSpecTags| :: ContentsSpecTags[i] != ContentsSpecTags[j]
  {
  }

  /** A search request: the query always; every other option only when set. */
  lemma SearchRequestEncoding(r: SearchRequest)
    ensures var m := SearchRequestJson(r).fields;
            (forall k | k in m :: k in SearchRequestTags) &&
            AlwaysKey(m, "query", Str(r.query)) &&
            OmitEmptyKey(m, "type", r.searchType != "", Str(r.searchType)) &&
            OmitEmptyKey(m, "numResults", r.numResults != 0, Int(r.numResults)) &&
            OmitEmptyKey(m, "category", r.category != "", Str(r.category)) &&
            OmitEmptyKey(m, "includeDomains", |r.includeDomains| > 0, Strings(r.includeDomains)) &&
            OmitEmptyKey(m, "excludeDomains", |r.excludeDomains| > 0, Strings(r.excludeDomains)) &&
            OmitEmptyKey(m, "startPublishedDate", r.startPublishedDate != "", Str(r.startPublishedDate)) &&
            OmitEmptyKey(m, "endPublishedDate", r.endPublishedDate != "", Str(r.endPublishedDate)) &&
            OmitEmptyKey(m, "startCrawlDate", r.startCrawlDate != "", Str(r.startCrawlDate)) &&
            OmitEmptyKey(m, "endCrawlDate", r.endCrawlDate != "", Str(r.endCrawlDate)) &&
            OmitEmptyKey(m, "includeText", r.includeText != "", Str(r.includeText)) &&
            OmitEmptyKey(m, "excludeText", r.excludeText != "", Str(r.excludeText)) &&
            PointerKey(m, "moderation", MapOption(r.moderation, BoolJson)) &&
            PointerKey(m, "contents", MapOption(r.contents, ContentsSpecJson))
  {
    SearchRequestKeysNamed(r);
    SearchRequestBasicsOnWire(r);
    SearchRequestFiltersOnWire(r);
    SearchRequestDatesOnWire(r);
    SearchRequestOptionsOnWire(r);
  }

  /** No key outside the SearchRequest tags reaches the wire. */
  lemma SearchRequestKeysNamed(r: SearchRequest)
    ensures forall k | k in SearchRequestJson(r).fields :: k in SearchRequestTags
  {
    SearchRequestTagged(r);
    NamedFieldsOnWire(SearchRequestFields(r), SearchRequestTags);
  }

  /** How SearchRequest sends the query, the search type, the result count and the category. */
  lemma SearchRequestBasicsOnWire(r: SearchRequest)
    ensures var m := SearchRequestJson(r).fields;
            AlwaysKey(m, "query", Str(r.query)) &&
            OmitEmptyKey(m, "type", r.searchType != "", Str(r.searchType)) &&
            OmitEmptyKey(m, "numResults", r.numResults != 0, Int(r.numResults)) &&
            OmitEmptyKey(m, "category", r.category != "", Str(r.category))
  {
    var fs := SearchRequestFields(r);
    SearchRequestTagged(r);
    NamedFieldsOnWire(fs, SearchRequestTags);
    var m := EncodeFields(fs);
    assert OnWire(m, fs[0]);
    assert OnWire(m, fs[1]);
    assert OnWire(m, fs[2]);
    assert OnWire(m, fs[3]);
  }

  /** How SearchRequest sends the domain and text filters. */
  lemma SearchRequestFiltersOnWire(r: SearchRequest)
    ensures var m := SearchRequestJson(r).fields;
            OmitEmptyKey(m, "includeDomains", |r.includeDomains| > 0, Strings(r.includeDomains)) &&
            OmitEmptyKey(m, "excludeDomains", |r.excludeDomains| > 0, Strings(r.excludeDomains)) &&
            OmitEmptyKey(m, "includeText", r.includeText != "", Str(r.includeText)) &&
            OmitEmptyKey(m, "excludeText", r.excludeText != "", Str(r.excludeText))
  {
    var fs := SearchRequestFields(r);
    SearchRequestTagged(r);
    NamedFieldsOnWire(fs, SearchRequestTags);
    var m := EncodeFields(fs);
    assert OnWire(m, fs[4]);
    assert OnWire(m, fs[5]);
    assert OnWire(m, fs[10]);
    assert OnWire(m, fs[11]);
  }

  /** How SearchRequest sends the four date bounds. */
  lemma SearchRequestDatesOnWire(r: SearchRequest)
    ensures var m := SearchRequestJson(r).fields;
            OmitEmptyKey(m, "startPublishedDate", r.startPublishedDate != "", Str(r.startPublishedDate)) &&
            OmitEmptyKey(m, "endPublishedDate", r.endPublishedDate != "", Str(r.endPublishedDate)) &&
            OmitEmptyKey(m, "startCrawlDate", r.startCrawlDate != "", Str(r.startCrawlDate)) &&
            OmitEmptyKey(m, "endCrawlDate", r.endCrawlDate != "", Str(r.endCrawlDate))
  {
    var fs := SearchRequestFields(r);
    SearchRequestTagged(r);
    NamedFieldsOnWire(fs, SearchRequestTags);
    var m := EncodeFields(fs);
    assert OnWire(m, fs[6]);
    assert OnWire(m, fs[7]);
    assert OnWire(m, fs[8]);
    assert OnWire(m, fs[9]);
  }

  /** How SearchRequest sends moderation and the content spec. */
  lemma SearchRequestOptionsOnWire(r: SearchRequest)
    ensures var m := SearchRequestJson(r).fields;
            PointerKey(m, "moderation", MapOption(r.moderation, BoolJson)) &&
            PointerKey(m, "contents", MapOption(r.contents, ContentsSpecJson))
  {
    var fs := SearchRequestFields(r);
    SearchRequestTagged(r);
    NamedFieldsOnWire(fs, SearchRequestTags);
    var m := EncodeFields(fs);
    assert OnWire(m, fs[12]);
    assert OnWire(m, fs[13]);
  }

  /** The JSON keys of the SearchRequest struct tags, in field order. */
  const SearchRequestTags := ["query", "type", "numResults", "category", "includeDomains", "excludeDomains", "startPublishedDate", "endPublishedDate", "startCrawlDate", "endCrawlDate", "includeText", "excludeText", "moderation", "contents"]

  /** The SearchRequest fields carry the keys of its tags, and no two fields share one. */
  lemma SearchRequestTagged(r: SearchRequest)
    ensures var fs := SearchRequestFields(r);
            |fs| == |SearchRequestTags| && (forall i | 0 <= i < |fs| :: fs[i].key == SearchRequestTags[i]) &&
            forall i, j | 0 <= i < j < |SearchRequestTags| :: SearchRequestTags[i] != SearchRequestTags[j]
  {
  }

  /** A contents request: every option only when set. */
  lemma ContentsRequestEncoding(r: ContentsRequest)
    ensures var m := ContentsRequestJson(r).fields;
            (forall k | k in m :: k in ContentsRequestTags) &&
            OmitEmptyKey(m, "ids", |r.ids| > 0, Strings(r.ids)) &&
            OmitEmptyKey(m, "urls", |r.urls| > 0, Strings(r.urls)) &&
            PointerKey(m, "text", MapOption(r.text, TextSpecJson)) &&
            PointerKey(m, "highlights", MapOption(r.highlights, HighlightsSpecJson)) &&
            PointerKey(m, "summary", MapOption(r.summary, SummarySpecJson)) &&
            OmitEmptyKey(m, "livecrawl", r.livecrawl != "", Str(r.livecrawl)) &&
            OmitEmptyKey(m, "subpages", r.subpages != 0, Int(r.subpages))
  {
    ContentsRequestKeysNamed(r);
    ContentsRequestTargetsOnWire(r);
    ContentsRequestOptionsOnWire(r);
  }

  /** No key outside the ContentsRequest tags reaches the wire. */
  lemma ContentsRequestKeysNamed(r: ContentsRequest)
    ensures forall k | k in ContentsRequestJson(r).fields :: k in ContentsRequestTags
  {
    ContentsRequestTagged(r);
    NamedFieldsOnWire(ContentsRequestFields(r), ContentsRequestTags);
  }

  /** How ContentsRequest sends the ids and the URLs. */
  lemma ContentsRequestTargetsOnWire(r: ContentsRequest)
    ensures var m := ContentsRequestJson(r).fields;
            OmitEmptyKey(m, "ids", |r.ids| > 0, Strings(r.ids)) &&
            OmitEmptyKey(m, "urls", |r.urls| > 0, Strings(r.urls))
  {
    var fs := ContentsRequestFields(r);
    ContentsRequestTagged(r);
    NamedFieldsOnWire(fs, ContentsRequestTags);
    var m := EncodeFields(fs);
    assert OnWire(m, fs[0]);
    assert OnWire(m, fs[1]);
  }

  /** How ContentsRequest sends the content options. */
  lemma ContentsRequestOptionsOnWire(r: ContentsRequest)
    ensures var m := ContentsRequestJson(r).fields;
            PointerKey(m, "text", MapOption(r.text, TextSpecJson)) &&
            PointerKey(m, "highlights", MapOption(r.highlights, HighlightsSpecJson)) &&
            PointerKey(m, "summary", MapOption(r.summary, SummarySpecJson)) &&
            OmitEmptyKey(m, "livecrawl", r.livecrawl != "", Str(r.livecrawl)) &&
            OmitEmptyKey(m, "subpages", r.subpages != 0, Int(r.subpages))
  {
    var fs := ContentsRequestFields(r);
    ContentsRequestTagged(r);
    NamedFieldsOnWire(fs, ContentsRequestTags);
    var m := EncodeFields(fs);
    assert OnWire(m, fs[2]);
    assert OnWire(m, fs[3]);
    assert OnWire(m, fs[4]);
    assert OnWire(m, fs[5]);
    assert OnWire(m, fs[6]);
  }

  /** The JSON keys of the ContentsRequest struct tags, in field order. */
  const ContentsRequestTags := ["ids", "urls", "text", "highlights", "summary", "livecrawl", "subpages"]

  /** The ContentsRequest fields carry the keys of its tags, and no two fields share one. */
  lemma ContentsRequestTagged(r: ContentsRequest)
    ensures var fs := ContentsRequestFields(r);
            |fs| == |ContentsRequestTags| && (forall i | 0 <= i < |fs| :: fs[i].key == ContentsRequestTags[i]) &&
            forall i, j | 0 <= i < j < |ContentsRequestTags| :: ContentsRequestTags[i] != ContentsRequestTags[j]
  {
  }

  /** A find-similar request: the URL always; every other option only when set. */
  lemma FindSimilarRequestEncoding(r: FindSimilarRequest)
    ensures var m := FindSimilarRequestJson(r).fields;
            (forall k | k in m :: k in FindSimilarRequestTags) &&
            AlwaysKey(m, "url", Str(r.url)) &&
            OmitEmptyKey(m, "numResults", r.numResults != 0, Int(r.numResults)) &&
            OmitEmptyKey(m, "includeDomains", |r.includeDomains| > 0, Strings(r.includeDomains)) &&
            OmitEmptyKey(m, "excludeDomains", |r.excludeDomains| > 0, Strings(r.excludeDomains)) &&
            OmitEmptyKey(m, "startPublishedDate", r.startPublishedDate != "", Str(r.startPublishedDate)) &&
            OmitEmptyKey(m, "endPublishedDate", r.endPublishedDate != "", Str(r.endPublishedDate)) &&
            OmitEmptyKey(m, "excludeSourceDomain", r.excludeSourceDomain, Bool(r.excludeSourceDomain)) &&
            OmitEmptyKey(m, "category", r.category != "", Str(r.category)) &&
            PointerKey(m, "contents", MapOption(r.contents, ContentsSpecJson))
  {
    FindSimilarRequestKeysNamed(r);
    FindSimilarRequestBasicsOnWire(r);
    FindSimilarRequestFiltersOnWire(r);
  }

  /** No key outside the FindSimilarRequest tags reaches the wire. */
  lemma FindSimilarRequestKeysNamed(r: FindSimilarRequest)
    ensures forall k | k in FindSimilarRequestJson(r).fields :: k in FindSimilarRequestTags
  {
    FindSimilarRequestTagged(r);
    NamedFieldsOnWire(FindSimilarRequestFields(r), FindSimilarRequestTags);
  }

  /** How FindSimilarRequest sends the URL, the result count, the category, the source exclusion and the content spec. */
  lemma FindSimilarRequestBasicsOnWire(r: FindSimilarRequest)
    ensures var m := FindSimilarRequestJson(r).fields;
            AlwaysKey(m, "url", Str(r.url)) &&
            OmitEmptyKey(m, "numResults", r.numResults != 0, Int(r.numResults)) &&
            OmitEmptyKey(m, "category", r.category != "", Str(r.category)) &&
            OmitEmptyKey(m, "excludeSourceDomain", r.excludeSourceDomain, Bool(r.excludeSourceDomain)) &&
            PointerKey(m, "contents", MapOption(r.contents, ContentsSpecJson))
  {
    var fs := FindSimilarRequestFields(r);
    FindSimilarRequestTagged(r);
    NamedFieldsOnWire(fs, FindSimilarRequestTags);
    var m := EncodeFields(fs);
    assert OnWire(m, fs[0]);
    assert OnWire(m, fs[1]);
    assert OnWire(m, fs[7]);
    assert OnWire(m, fs[6]);
    assert OnWire(m, fs[8]);
  }

  /** How FindSimilarRequest sends the domain filters and the date bounds. */
  lemma FindSimilarRequestFiltersOnWire(r: FindSimilarRequest)
    ensures var m := FindSimilarRequestJson(r).fields;
            OmitEmptyKey(m, "includeDomains", |r.includeDomains| > 0, Strings(r.includeDomains)) &&
            OmitEmptyKey(m, "excludeDomains", |r.excludeDomains| > 0, Strings(r.excludeDomains)) &&
            OmitEmptyKey(m, "startPublishedDate", r.startPublishedDate != "", Str(r.startPublishedDate)) &&
            OmitEmptyKey(m, "endPublishedDate", r.endPublishedDate != "", Str(r.endPublishedDate))
  {
    var fs := FindSimilarRequestFields(r);
    FindSimilarRequestTagged(r);
    NamedFieldsOnWire(fs, FindSimilarRequestTags);
    var m := EncodeFields(fs);
    assert OnWire(m, fs[2]);
    assert OnWire(m, fs[3]);
    assert OnWire(m, fs[4]);
    assert OnWire(m, fs[5]);
  }

  /** The JSON keys of the FindSimilarRequest struct tags, in field order. */
  const FindSimilarRequestTags := ["url", "numResults", "includeDomains", "excludeDomains", "startPublishedDate", "endPublishedDate", "excludeSourceDomain", "category", "contents"]

  /** The FindSimilarRequest fields carry the keys of its tags, and no two fields share one. */
  lemma FindSimilarRequestTagged(r: FindSimilarRequest)
    ensures var fs := FindSimilarRequestFields(r);
            |fs| == |FindSimilarRequestTags| && (forall i | 0 <= i < |fs| :: fs[i].key == FindSimilarRequestTags[i]) &&
            forall i, j | 0 <= i < j < |FindSimilarRequestTags| :: FindSimilarRequestTags[i] != FindSimilarRequestTags[j]
  {
  }

  /** An answer request: the query always; text, model and stream only when set; the schema when given. */
  lemma AnswerRequestEncoding(r: AnswerRequest)
    ensures var m := AnswerRequestJson(r).fields;
            (forall k | k in m :: k in AnswerRequestTags) &&
            AlwaysKey(m, "query", Str(r.query)) &&
            OmitEmptyKey(m, "text", r.text, Bool(r.text)) &&
            OmitEmptyKey(m, "model", r.model != "", Str(r.model)) &&
            PointerKey(m, "outputSchema", r.outputSchema) &&
            OmitEmptyKey(m, "stream", r.stream, Bool(r.stream))
  {
    var fs := AnswerRequestFields(r);
    AnswerRequestTagged(r);
    NamedFieldsOnWire(fs, AnswerRequestTags);
    var m := EncodeFields(fs);
    assert OnWire(m, fs[0]);
    assert OnWire(m, fs[1]);
    assert OnWire(m, fs[2]);
    assert OnWire(m, fs[3]);
    assert OnWire(m, fs[4]);
  }

  /** The JSON keys of the AnswerRequest struct tags, in field order. */
  const AnswerRequestTags := ["query", "text", "model", "outputSchema", "stream"]

  /** The AnswerRequest fields carry the keys of its tags, and no two fields share one. */
  lemma AnswerRequestTagged(r: AnswerRequest)
    ensures var fs := AnswerRequestFields(r);
            |fs| == |AnswerRequestTags| && (forall i | 0 <= i < |fs| :: fs[i].key == AnswerRequestTags[i]) &&
            forall i, j | 0 <= i < j < |AnswerRequestTags| :: AnswerRequestTags[i] != AnswerRequestTags[j]
  {
  }

  /** A cost: the total always; each breakdown only when present. */
  lemma CostInfoEncoding(c: CostInfo)
    ensures var m := CostInfoJson(c).fields;
            (forall k | k in m :: k in CostInfoTags) &&
            AlwaysKey(m, "total", Num(c.total)) &&
            PointerKey(m, "search", MapOption(c.search, CostBreakdownJson)) &&
            PointerKey(m, "contents", MapOption(c.contents, CostBreakdownJson)) &&
            PointerKey(m, "neural", MapOption(c.neural, CostBreakdownJson))
  {
    var fs := CostInfoFields(c);
    CostInfoTagged(c);
    NamedFieldsOnWire(fs, CostInfoTags);
    var m := EncodeFields(fs);
    assert OnWire(m, fs[0]);
    assert OnWire(m, fs[1]);
    assert OnWire(m, fs[2]);
    assert OnWire(m, fs[3]);
  }

  /** The JSON keys of the CostInfo struct tags, in field order. */
  const CostInfoTags := ["total", "search", "contents", "neural"]

  /** The CostInfo fields carry the keys of its tags, and no two fields share one. */
  lemma CostInfoTagged(c: CostInfo)
    ensures var fs := CostInfoFields(c);
            |fs| == |CostInfoTags| && (forall i | 0 <= i < |fs| :: fs[i].key == CostInfoTags[i]) &&
            forall i, j | 0 <= i < j < |CostInfoTags| :: CostInfoTags[i] != CostInfoTags[j]
  {
  }

  /** A subpage: its URL always; its text only when non-empty. */
  lemma SubpageEncoding(p: Subpage)
    ensures var m := SubpageJson(p).fields;
            (forall k | k in m :: k in SubpageTags) &&
            AlwaysKey(m, "url", Str(p.url)) &&
            OmitEmptyKey(m, "text", p.text != "", Str(p.text))
  {
    var fs := SubpageFields(p);
    SubpageTagged(p);
    NamedFieldsOnWire(fs, SubpageTags);
    var m := EncodeFields(fs);
    assert OnWire(m, fs[0]);
    assert OnWire(m, fs[1]);
  }

  /** The JSON keys of the Subpage struct tags, in field order. */
  const SubpageTags := ["url", "text"]

  /** The Subpage fields carry the keys of its tags, and no two fields share one. */
  lemma SubpageTagged(p: Subpage)
    ensures var fs := SubpageFields(p);
            |fs| == |SubpageTags| && (forall i | 0 <= i < |fs| :: fs[i].key == SubpageTags[i]) &&
            forall i, j | 0 <= i < j < |SubpageTags| :: SubpageTags[i] != SubpageTags[j]
  {
  }

  /** A result: title, URL, id and score always; every other attribute only when non-empty. */
  lemma SearchResultEncoding(r: SearchResult)
    ensures var m := SearchResultJson(r).fields;
            (forall k | k in m :: k in SearchResultTags) &&
            AlwaysKey(m, "title", Str(r.title)) &&
            AlwaysKey(m, "url", Str(r.url)) &&
            AlwaysKey(m, "id", Str(r.id)) &&
            OmitEmptyKey(m, "publishedDate", r.publishedDate != "", Str(r.publishedDate)) &&
            OmitEmptyKey(m, "author", r.author != "", Str(r.author)) &&
            AlwaysKey(m, "score", Num(r.score)) &&
            OmitEmptyKey(m, "image", r.image != "", Str(r.image)) &&
            OmitEmptyKey(m, "favicon", r.favicon != "", Str(r.favicon)) &&
            OmitEmptyKey(m, "text", r.text != "", Str(r.text)) &&
            OmitEmptyKey(m, "highlights", |r.highlights| > 0, Strings(r.highlights)) &&
            OmitEmptyKey(m, "highlightScores", |r.highlightScores| > 0, Reals(r.highlightScores)) &&
            OmitEmptyKey(m, "summary", r.summary != "", Str(r.summary)) &&
            OmitEmptyKey(m, "subpages", |r.subpages| > 0, Array(SubpagesJson(r.subpages)))
  {
    SearchResultKeysNamed(r);
    SearchResultIdentityOnWire(r);
    SearchResultMetadataOnWire(r);
    SearchResultContentOnWire(r);
  }

  /** No key outside the SearchResult tags reaches the wire. */
  lemma SearchResultKeysNamed(r: SearchResult)
    ensures forall k | k in SearchResultJson(r).fields :: k in SearchResultTags
  {
    SearchResultTagged(r);
    NamedFieldsOnWire(SearchResultFields(r), SearchResultTags);
  }

  /** How SearchResult sends title, URL, id and score. */
  lemma SearchResultIdentityOnWire(r: SearchResult)
    ensures var m := SearchResultJson(r).fields;
            AlwaysKey(m, "title", Str(r.title)) &&
            AlwaysKey(m, "url", Str(r.url)) &&
            AlwaysKey(m, "id", Str(r.id)) &&
            AlwaysKey(m, "score", Num(r.score))
  {
    var fs := SearchResultFields(r);
    SearchResultTagged(r);
    NamedFieldsOnWire(fs, SearchResultTags);
    var m := EncodeFields(fs);
    assert OnWire(m, fs[0]);
    assert OnWire(m, fs[1]);
    assert OnWire(m, fs[2]);
    assert OnWire(m, fs[5]);
  }

  /** How SearchResult sends date, author, image and favicon. */
  lemma SearchResultMetadataOnWire(r: SearchResult)
    ensures var m := SearchResultJson(r).fields;
            OmitEmptyKey(m, "publishedDate", r.publishedDate != "", Str(r.publishedDate)) &&
            OmitEmptyKey(m, "author", r.author != "", Str(r.author)) &&
            OmitEmptyKey(m, "image", r.image != "", Str(r.image)) &&
            OmitEmptyKey(m, "favicon", r.favicon != "", Str(r.favicon))
  {
    var fs := SearchResultFields(r);
    SearchResultTagged(r);
    NamedFieldsOnWire(fs, SearchResultTags);
    var m := EncodeFields(fs);
    assert OnWire(m, fs[3]);
    assert OnWire(m, fs[4]);
    assert OnWire(m, fs[6]);
    assert OnWire(m, fs[7]);
  }

  /** How SearchResult sends text, highlights, their scores, summary and subpages. */
  lemma SearchResultContentOnWire(r: SearchResult)
    ensures var m := SearchResultJson(r).fields;
            OmitEmptyKey(m, "text", r.text != "", Str(r.text)) &&
            OmitEmptyKey(m, "highlights", |r.highlights| > 0, Strings(r.highlights)) &&
            OmitEmptyKey(m, "highlightScores", |r.highlightScores| > 0, Reals(r.highlightScores)) &&
            OmitEmptyKey(m, "summary", r.summary != "", Str(r.summary)) &&
            OmitEmptyKey(m, "subpages", |r.subpages| > 0, Array(SubpagesJson(r.subpages)))
  {
    var fs := SearchResultFields(r);
    SearchResultTagged(r);
    NamedFieldsOnWire(fs, SearchResultTags);
    var m := EncodeFields(fs);
    assert OnWire(m, fs[8]);
    assert OnWire(m, fs[9]);
    assert OnWire(m, fs[10]);
    assert OnWire(m, fs[11]);
    assert OnWire(m, fs[12]);
  }

  /** The JSON keys of the SearchResult struct tags, in field order. */
  const SearchResultTags := ["title", "url", "id", "publishedDate", "author", "score", "image", "favicon", "text", "highlights", "highlightScores", "summary", "subpages"]

  /** The SearchResult fields carry the keys of its tags, and no two fields share one. */
  lemma SearchResultTagged(r: SearchResult)
    ensures var fs := SearchResultFields(r);
            |fs| == |SearchResultTags| && (forall i | 0 <= i < |fs| :: fs[i].key == SearchResultTags[i]) &&
            forall i, j | 0 <= i < j < |SearchResultTags| :: SearchResultTags[i] != SearchResultTags[j]
  {
  }

  /** A search response: the results always, even when there are none; the rest only when present. */
  lemma SearchResponseEncoding(r: SearchResponse)
    ensures var m := SearchResponseJson(r).fields;
            (forall k | k in m :: k in SearchResponseTags) &&
            OmitEmptyKey(m, "requestId", r.requestId != "", Str(r.requestId)) &&
            OmitEmptyKey(m, "resolvedSearchType", r.resolvedSearchType != "", Str(r.resolvedSearchType)) &&
            AlwaysKey(m, "results", Array(SearchResultsJson(r.results))) &&
            OmitEmptyKey(m, "autopromptString", r.autopromptString != "", Str(r.autopromptString)) &&
            PointerKey(m, "costDollars", MapOption(r.costDollars, CostInfoJson))
  {
    var fs := SearchResponseFields(r);
    SearchResponseTagged(r);
    NamedFieldsOnWire(fs, SearchResponseTags);
    var m := EncodeFields(fs);
    assert OnWire(m, fs[0]);
    assert OnWire(m, fs[1]);
    assert OnWire(m, fs[2]);
    assert OnWire(m, fs[3]);
    assert OnWire(m, fs[4]);
  }

  /** The JSON keys of the SearchResponse struct tags, in field order. */
  const SearchResponseTags := ["requestId", "resolvedSearchType", "results", "autopromptString", "costDollars"]

  /** The SearchResponse fields carry the keys of its tags, and no two fields share one. */
  lemma SearchResponseTagged(r: SearchResponse)
    ensures var fs := SearchResponseFields(r);
            |fs| == |SearchResponseTags| && (forall i | 0 <= i < |fs| :: fs[i].key == SearchResponseTags[i]) &&
            forall i, j | 0 <= i < j < |SearchResponseTags| :: SearchResponseTags[i] != SearchResponseTags[j]
  {
  }

  /** A contents response: the results always; the cost only when present. */
  lemma ContentsResponseEncoding(r: ContentsResponse)
    ensures var m := ContentsResponseJson(r).fields;
            (forall k | k in m :: k in ContentsResponseTags) &&
            AlwaysKey(m, "results", Array(SearchResultsJson(r.results))) &&
            PointerKey(m, "costDollars", MapOption(r.costDollars, CostInfoJson))
  {
    var fs := ContentsResponseFields(r);
    ContentsResponseTagged(r);
    NamedFieldsOnWire(fs, ContentsResponseTags);
    var m := EncodeFields(fs);
    assert OnWire(m, fs[0]);
    assert OnWire(m, fs[1]);
  }

  /** The JSON keys of the ContentsResponse struct tags, in field order. */
  const ContentsResponseTags := ["results", "costDollars"]

  /** The ContentsResponse fields carry the keys of its tags, and no two fields share one. */
  lemma ContentsResponseTagged(r: ContentsResponse)
    ensures var fs := ContentsResponseFields(r);
            |fs| == |ContentsResponseTags| && (forall i | 0 <= i < |fs| :: fs[i].key == ContentsResponseTags[i]) &&
            forall i, j | 0 <= i < j < |ContentsResponseTags| :: ContentsResponseTags[i] != ContentsResponseTags[j]
  {
  }

  /** A find-similar response: the results always; the rest only when present. */
  lemma FindSimilarResponseEncoding(r: FindSimilarResponse)
    ensures var m := FindSimilarResponseJson(r).fields;
            (forall k | k in m :: k in FindSimilarResponseTags) &&
            OmitEmptyKey(m, "requestId", r.requestId != "", Str(r.requestId)) &&
            AlwaysKey(m, "results", Array(SearchResultsJson(r.results))) &&
            OmitEmptyKey(m, "autopromptString", r.autopromptString != "", Str(r.autopromptString)) &&
            PointerKey(m, "costDollars", MapOption(r.costDollars, CostInfoJson))
  {
    var fs := FindSimilarResponseFields(r);
    FindSimilarResponseTagged(r);
    NamedFieldsOnWire(fs, FindSimilarResponseTags);
    var m := EncodeFields(fs);
    assert OnWire(m, fs[0]);
    assert OnWire(m, fs[1]);
    assert OnWire(m, fs[2]);
    assert OnWire(m, fs[3]);
  }

  /** The JSON keys of the FindSimilarResponse struct tags, in field order. */
  const FindSimilarResponseTags := ["requestId", "results", "autopromptString", "costDollars"]

  /** The FindSimilarResponse fields carry the keys of its tags, and no two fields share one. */
  lemma FindSimilarResponseTagged(r: FindSimilarResponse)
    ensures var fs := FindSimilarResponseFields(r);
            |fs| == |FindSimilarResponseTags| && (forall i | 0 <= i < |fs| :: fs[i].key == FindSimilarResponseTags[i]) &&
            forall i, j | 0 <= i < j < |FindSimilarResponseTags| :: FindSimilarResponseTags[i] != FindSimilarResponseTags[j]
  {
  }

  /** An answer response: the answer always; citations only when there are some; the rest only when present. */
  lemma AnswerResponseEncoding(r: AnswerResponse)
    ensures var m := AnswerResponseJson(r).fields;
            (forall k | k in m :: k in AnswerResponseTags) &&
            OmitEmptyKey(m, "requestId", r.requestId != "", Str(r.requestId)) &&
            AlwaysKey(m, "answer", Str(r.answer)) &&
            OmitEmptyKey(m, "citations", |r.citations| > 0, Array(SearchResultsJson(r.citations))) &&
            PointerKey(m, "costDollars", MapOption(r.costDollars, CostInfoJson))
  {
    var fs := AnswerResponseFields(r);
    AnswerResponseTagged(r);
    NamedFieldsOnWire(fs, AnswerResponseTags);
    var m := EncodeFields(fs);
    assert OnWire(m, fs[0]);
    assert OnWire(m, fs[1]);
    assert OnWire(m, fs[2]);
    assert OnWire(m, fs[3]);
  }

  /** The JSON keys of the AnswerResponse struct tags, in field order. */
  const AnswerResponseTags := ["requestId", "answer", "citations", "costDollars"]

  /** The AnswerResponse fields carry the keys of its tags, and no two fields share one. */
  lemma AnswerResponseTagged(r: AnswerResponse)
    ensures var fs := AnswerResponseFields(r);
            |fs| == |AnswerResponseTags| && (forall i | 0 <= i < |fs| :: fs[i].key == AnswerResponseTags[i]) &&
            forall i, j | 0 <= i < j < |AnswerResponseTags| :: AnswerResponseTags[i] != AnswerResponseTags[j]
  {
  }

  /** A context response: the context always, under `response`; the raw cost when present; the rest only when non-zero. */
  lemma ContextResponseEncoding(r: ContextResponse)
    ensures var m := ContextResponseJson(r).fields;
            (forall k | k in m :: k in ContextResponseTags) &&
            OmitEmptyKey(m, "requestId", r.requestId != "", Str(r.requestId)) &&
            OmitEmptyKey(m, "query", r.query != "", Str(r.query)) &&
            AlwaysKey(m, "response", Str(r.context)) &&
            PointerKey(m, "costDollars", r.costDollars) &&
            OmitEmptyKey(m, "resultsCount", r.resultsCount != 0, Int(r.resultsCount)) &&
            OmitEmptyKey(m, "searchTime", r.searchTime != 0.0, Num(r.searchTime)) &&
            OmitEmptyKey(m, "outputTokens", r.outputTokens != 0, Int(r.outputTokens))
  {
    ContextResponseKeysNamed(r);
    ContextResponseAnswerOnWire(r);
    ContextResponseStatsOnWire(r);
  }

  /** No key outside the ContextResponse tags reaches the wire. */
  lemma ContextResponseKeysNamed(r: ContextResponse)
    ensures forall k | k in ContextResponseJson(r).fields :: k in ContextResponseTags
  {
    ContextResponseTagged(r);
    NamedFieldsOnWire(ContextResponseFields(r), ContextResponseTags);
  }

  /** How ContextResponse sends the request id, the query, the context and the cost. */
  lemma ContextResponseAnswerOnWire(r: ContextResponse)
    ensures var m := ContextResponseJson(r).fields;
            OmitEmptyKey(m, "requestId", r.requestId != "", Str(r.requestId)) &&
            OmitEmptyKey(m, "query", r.query != "", Str(r.query)) &&
            AlwaysKey(m, "response", Str(r.context)) &&
            PointerKey(m, "costDollars", r.costDollars)
  {
    var fs := ContextResponseFields(r);
    ContextResponseTagged(r);
    NamedFieldsOnWire(fs, ContextResponseTags);
    var m := EncodeFields(fs);
    assert OnWire(m, fs[0]);
    assert OnWire(m, fs[1]);
    assert OnWire(m, fs[2]);
    assert OnWire(m, fs[3]);
  }

  /** How ContextResponse sends the result count, the search time and the token count. */
  lemma ContextResponseStatsOnWire(r: ContextResponse)
    ensures var m := ContextResponseJson(r).fields;
            OmitEmptyKey(m, "resultsCount", r.resultsCount != 0, Int(r.resultsCount)) &&
            OmitEmptyKey(m, "searchTime", r.searchTime != 0.0, Num(r.searchTime)) &&
            OmitEmptyKey(m, "outputTokens", r.outputTokens != 0, Int(r.outputTokens))
  {
    var fs := ContextResponseFields(r);
    ContextResponseTagged(r);
    NamedFieldsOnWire(fs, ContextResponseTags);
    var m := EncodeFields(fs);
    assert OnWire(m, fs[4]);
    assert OnWire(m, fs[5]);
    assert OnWire(m, fs[6]);
  }

  /** The JSON keys of the ContextResponse struct tags, in field order. */
  const ContextResponseTags := ["requestId", "query", "response", "costDollars", "resultsCount", "searchTime", "outputTokens"]

  /** The ContextResponse fields carry the keys of its tags, and no two fields share one. */
  lemma ContextResponseTagged(r: ContextResponse)
    ensures var fs := ContextResponseFields(r);
            |fs| == |ContextResponseTags| && (forall i | 0 <= i < |fs| :: fs[i].key == ContextResponseTags[i]) &&
            forall i, j | 0 <= i < j < |ContextResponseTags| :: ContextResponseTags[i] != ContextResponseTags[j]
  {
  }

  /** A usage entry: date, request count and credits always. */
  lemma UsageEntryEncoding(u: UsageEntry)
    ensures var m := UsageEntryJson(u).fields;
            (forall k | k in m :: k in UsageEntryTags) &&
            AlwaysKey(m, "date", Str(u.date)) &&
            AlwaysKey(m, "requestCount", Int(u.requestCount)) &&
            AlwaysKey(m, "creditUsage", Num(u.creditUsage))
  {
    var fs := UsageEntryFields(u);
    UsageEntryTagged(u);
    NamedFieldsOnWire(fs, UsageEntryTags);
    var m := EncodeFields(fs);
    assert OnWire(m, fs[0]);
    assert OnWire(m, fs[1]);
    assert OnWire(m, fs[2]);
  }

  /** The JSON keys of the UsageEntry struct tags, in field order. */
  const UsageEntryTags := ["date", "requestCount", "creditUsage"]

  /** The UsageEntry fields carry the keys of its tags, and no two fields share one. */
  lemma UsageEntryTagged(u: UsageEntry)
    ensures var fs := UsageEntryFields(u);
            |fs| == |UsageEntryTags| && (forall i | 0 <= i < |fs| :: fs[i].key == UsageEntryTags[i]) &&
            forall i, j | 0 <= i < j < |UsageEntryTags| :: UsageEntryTags[i] != UsageEntryTags[j]
  {
  }

}

=== FILE: wrappers.dfy ===
/** Optional values and success-or-error results, standing in for Go's nil pointers and `(value, error)` pairs. */
module Wrappers {

  datatype Option<+T> = None | Some(value: T)

  datatype Result<+T, +E> = Success(value: T) | Failure(error: E)
}
